=== FILE: README.md ===
# A Dafny model of the easyapi CRUD query engine

This project models the query engine of the repository in its four versions.
All of them share one shape: a filter dict becomes a chain of ANDed SQL
predicates, a pager becomes LIMIT/OFFSET, and a sorter becomes ORDER BY.

The versions modelled:

- **easyapi**: the `search_sql` compiler, the `Pager` and `Sorter` records,
  the synchronous `BaseDao` and its `BusinessBaseDao`, `BaseController`,
  `Transaction`, `EasyApiContext` and `AbcPermission.permission`.
  - `BusinessBaseDao` soft-deletes rows and stamps the audit columns.
- **easyapi_tools**: `str2hump` (CamelCase to snake_case), `type_to_json`
  and `DefaultUrlCondition.parser`.
- **async_easyapi**: the filter, pager and sorter logic of the async
  `BaseDao.query` and `count`, with its write operations, and its
  `BaseController`. Also `Transaction.__aexit__` and the `permission`
  wrapper.
- **async_esayapi**: the controller methods defined on the metaclass.
- **easy_admin**: the Dao metaclass and its `query`, `str2hump` (snake_case
  to CamelCase), `default_url_condition`, and `BusinessError` with its
  `__str__`.

The database is a value `Db`: named tables of rows that carry a unique
integer `id`, an AUTO_INCREMENT counter, and an optional connection fault.
Each Dao operation is a pure function from the database (and the clock
`now`) to the new database and a `Result`. A Python exception is an `Err`
carrying one `Exc` constructor, and the order in which the source can raise
is kept.

The SQL engine is reduced to three operations:

- evaluating predicates over rows (`Preds`);
- a stable ORDER BY and LIMIT/OFFSET (`Executor`);
- INSERT, UPDATE and DELETE over one table (`Storage`).

LIKE supports only the `%` wildcard (`Like`).

The versions differ, and each one is kept as written:

- easyapi compiles a bare key against the first value only. async_easyapi
  compares against the whole value, skips falsy values, and looks up `_in_`
  columns by the whole key. easy_admin turns every other key into an `IN`.
- easyapi's `_search_` strips six characters, not eight.
- The async `query` uses a `_like_` value verbatim, while `count` prefixes
  it with `%`.
- The async controller passes `query`'s arguments one place to the left.
- The async `insert`, `update` and `delete` always fail.
- easy_admin's metaclass keeps the most recently defined table for every
  Dao class.
- easy_admin files `_desc` under `'order'`, a key its Dao never reads.

Each of these is stated as a lemma.

async_esayapi's `insert`, `update` and `delete` do what async_easyapi's do.
They are modelled by `AsyncController.Insert`, `AsyncController.Update` and
`AsyncController.Delete`. The Dao behind async_esayapi's controller is taken
to be async_easyapi's.

Modules:

- `Wrappers`, `Text`, `Values`, `Dicts`: results, string helpers, Python
  values and ordered dicts.
- `Errors`: exceptions and `BusinessError`.
- `Like`, `Preds`, `Executor`, `Storage`: the SQL engine.
- `EasySql`, `EasyDao`, `EasyController`, `Transactions`, `ApiContext`,
  `Permissions`: easyapi.
- `Tools`: easyapi_tools.
- `AsyncDao`, `AsyncController`, `EsayController`: the async versions.
- `AdminDao`, `AdminUtil`: easy_admin.

## Model

| member | source | states |
|---|---|---|
| EasySql.ScalarIsSingleton | easyapi/sql.py:6-11 | A value that is not a list compiles exactly as the one-element list holding it |
| EasySql.ComparisonPerValue | easyapi/sql.py:12-23 | A comparison prefix over a list adds one comparison per value, in order, on the column named by the rest of the key |
| EasySql.LikeOneValue | easyapi/sql.py:24-29 | The `_like_` pattern `v%` is a prefix test and the `_search_` pattern `%v%` a substring test on the column's text |
| EasySql.SearchStripsSix | easyapi/sql.py:27-29 | `_search_name` looks up the column `h_name` and raises AttributeError on a table without it |
| EasySql.EmptyInIsIgnored | easyapi/sql.py:30-32 | An `_in_` key with an empty list compiles as if it were absent |
| EasySql.BareKeyUsesFirstValue | easyapi/sql.py:33-34 | A bare key raises AttributeError for a missing column, IndexError for an empty list, and otherwise compiles to one equality with the first value only |
| EasySql.NoneIsNull | easyapi/sql.py:33-34 | A bare key bound to None compiles, and it holds on a row exactly when the column is NULL |
| EasySql.CompileKeyOk | easyapi/sql.py:12-34 | A key compiles iff its column exists whenever a value reaches it, its LIKE operands are strings, and a bare key has a first value |
| EasySql.SearchSqlOk | easyapi/sql.py:5-35 | `search_sql` succeeds iff every key of the filter compiles |
| EasySql.CompileKeySound | easyapi/sql.py:12-34 | The predicates of one key hold on a row iff the key's meaning does: bounds, prefix or substring, membership, or equality with the first value |
| EasySql.SearchSqlSound | easyapi/sql.py:5-35 | A row passes the compiled WHERE chain iff it satisfies every key of the filter |
| EasySql.CompileKey | easyapi/sql.py:12-34 | Every predicate a key yields names a real column, and a key fails only with AttributeError, IndexError or TypeError; `EasySql.CompileKeyOk` and `EasySql.CompileKeySound` state when it succeeds and what it means |
| EasySql.SearchSql | easyapi/sql.py:5-35 | Every predicate of the WHERE chain names a real column; `EasySql.SearchSqlOk` and `EasySql.SearchSqlSound` state when it succeeds and what it means |
| Like.PrefixPattern | easyapi/sql.py:26 | The pattern `v%` matches exactly the texts that start with `v` |
| Like.SubstringPattern | easyapi/sql.py:29 | The pattern `%v%` matches exactly the texts that contain `v` |
| Like.SuffixPattern | async_easyapi/dao.py:171 | The pattern `%v` matches exactly the texts that end with `v` |
| Like.LiteralPattern | async_easyapi/dao.py:102 | A pattern used verbatim, without `%`, matches only itself |
| Executor.SortRows | easyapi/dao.py:137-143 | ORDER BY returns a permutation of the rows, sorted by the column in the requested direction |
| Executor.ApplyWindow | easyapi/dao.py:127-136 | LIMIT/OFFSET fails only for a negative limit or offset, returns at most `limit` rows, and returns only rows it was given |
| Executor.PageSlice | easyapi/dao.py:130-136 | `page` and `per_page` together select the rows `[(page-1)*per_page, page*per_page)`, clipped to the result |
| Executor.PageOnlyUses30 | easyapi/dao.py:132-134 | `page` alone behaves as `page` with `per_page = 30` |
| Executor.PerPageOnly | easyapi/dao.py:130-131 | `per_page` alone keeps the first `per_page` rows |
| Executor.NoPagerKeepsAll | easyapi/dao.py:127-136 | A pager with neither field keeps every row |
| Executor.PagesTile | easyapi/dao.py:127-136 | Consecutive pages tile the result: row `i` is entry `i % n` of page `i / n + 1` |
| EasyDao.DefineDao | easyapi/dao.py:15-45 | Base classes pass through; a class without `__db__` raises NotImplementedError; a non-empty `__tablename__` wins over the derived name; the table must exist |
| EasyDao.UserDaoTable | easyapi/dao.py:29 | The default table name of `UserDao` is `users` |
| EasyDao.ColumnConstantsGet | easyapi/dao.py:34-43 | The class constants are exactly `c`, `_gte_c`, `_gt_c`, `_lte_c`, `_lt_c`, `_like_c` and `_in_c` for each column `c`, each bound to its own name |
| EasyDao.NoSearchConstant | easyapi/dao.py:34-43 | No `_search_` constant is ever bound |
| EasyDao.Format | easyapi/dao.py:62-71 | The formatter keeps the number of rows and applies `type_to_json` to each row in place; `Tools.TypeToJson` states what that does to a row |
| EasyDao.Get | easyapi/dao.py:74-104 | `get` fails exactly when the selection for its filter fails, and returns None exactly when no row matches; `EasyDao.GetReturnsLargestId` states which row it returns |
| EasyDao.GetReturnsLargestId | easyapi/dao.py:74-104 | `get` returns the formatted matching row with the largest id, and None exactly when nothing matches |
| EasyDao.Selected | easyapi/dao.py:123-126 | A query reads exactly the table's rows that the compiled `search_sql` chain accepts, in storage order |
| EasyDao.Query | easyapi/dao.py:107-146 | `query` fails only when its selection does, or on a bad window. Without a pager it fails exactly when the selection does and returns one row per selected row. A page never holds more rows than the selection |
| EasyDao.Ordered | easyapi/dao.py:137-143 | The sorter only reorders the rows it is given. With no sorter there is no ORDER BY and the rows keep storage order; with one they are sorted by its column, `id` when it names no column, descending iff `desc` |
| EasyDao.UnpagedQueryIsSortedSelection | easyapi/dao.py:107-146 | The unpaged `query` succeeds exactly when the selection does and returns every selected row, formatted, in the order the sorter gives (storage order without one) |
| EasyDao.QueryPageIsSlice | easyapi/dao.py:127-136 | A paged `query` returns the slice `[(p-1)*n, p*n)` of the unpaged result |
| EasyDao.UnknownSortByIsId | easyapi/dao.py:137-143 | A `sort_by` that names no column sorts by `id`, in the requested direction |
| EasyDao.CountIsUnpagedQueryLength | easyapi/dao.py:169-189 | `count` succeeds iff the unpaged `query` does, and it equals that query's length whatever the sorter |
| EasyDao.Count | easyapi/dao.py:169-189 | `count` fails exactly when the selection for its filter fails, and lies between zero and the table's size |
| EasyDao.Insert | easyapi/dao.py:149-166 | A None data returns None with nothing written. A failed insert leaves the database unchanged. A successful one returns a fresh primary key and appends exactly one row to its table, holding the given values and NULL elsewhere; other tables are unchanged |
| EasyDao.WherePreds | easyapi/dao.py:225-228 | The WHERE chain of `update` holds only equalities on real columns |
| EasyDao.WherePredsEval | easyapi/dao.py:249-251 | The WHERE chain holds on a row iff the row satisfies the equality of every where-key that names a column; other keys are dropped |
| EasyDao.Update | easyapi/dao.py:207-231 | A failed update leaves the database unchanged. A successful one returns the number of rows the where-dict matches and sets the data on exactly those rows, leaving the others as they were |
| EasyDao.Delete | easyapi/dao.py:234-253 | A failed delete leaves the database unchanged. A successful one returns the number of matched rows and keeps exactly the rows the where-dict does not match |
| EasyDao.UnknownKeysDeleteEverything | easyapi/dao.py:248-253 | A where-dict that names no column deletes every row and reports their number |
| EasyDao.BUpdate | easyapi/dao.py:289-292 | A business update of None data raises TypeError and writes nothing |
| EasyDao.BUpdateStamps | easyapi/dao.py:289-295 | A business update sets `updated_at` to now and `updated_by` to the caller on every matched row, and leaves other rows untouched |
| EasyDao.BDelete | easyapi/dao.py:298-314 | A failed business delete writes nothing, and a successful one removes no row |
| EasyDao.BInsertStamps | easyapi/dao.py:325-329 | A business insert appends one row whose `created_at` is now and whose `created_by` is the caller |
| EasyDao.BInsert | easyapi/dao.py:317-329 | A business insert never returns None: it fails with nothing written, or returns a key and adds exactly one row |
| EasyDao.BGet | easyapi/dao.py:332-344 | A scoped business `get` finds only a row whose `deleted_at` is NULL |
| EasyDao.BQuery | easyapi/dao.py:358-362 | After a business query, the caller's filter dict holds `deleted_at = None` unless the query is unscoped |
| EasyDao.ScopedSelectIsLive | easyapi/dao.py:360-361 | Any row accepted by a filter that carries `deleted_at = None` has a NULL `deleted_at` |
| EasyDao.BQueryReturnsLiveRows | easyapi/dao.py:358-362 | A scoped business query returns only rows whose `deleted_at` is NULL |
| EasyDao.SoftDeleteIdempotent | easyapi/dao.py:298-314 | A business delete removes no row, and repeating it matches no row |
| EasyController.WhereFor | easyapi/controller.py:47-51 | The where-dict fails only for a context query that is not a mapping or None, and it begins with `id` |
| EasyController.ContextIdOverrides | easyapi/controller.py:47-51 | A context `id` overrides the argument, and every other context key is kept |
| EasyController.Mapped | easyapi/controller.py:52-55 | Storage errors become `BusinessError(500, 500, str(e))`, other errors pass unchanged, and successes are untouched |
| EasyController.DaoInsert | easyapi/controller.py:102-103 | The Dao insert a controller calls writes nothing when it fails, and otherwise returns a key and adds exactly one row |
| EasyController.DaoUpdate | easyapi/controller.py:129-131 | The Dao update a controller calls writes nothing when it fails, and otherwise keeps the number of rows |
| EasyController.DaoDelete | easyapi/controller.py:149-151 | The Dao delete a controller calls writes nothing when it fails. On success a business Dao keeps every row, and a plain Dao removes exactly as many rows as it reports |
| EasyController.CGet | easyapi/controller.py:37-58 | `get` raises no storage error and never returns an empty row |
| EasyController.CQuery | easyapi/controller.py:61-84 | `query` raises no storage error |
| EasyController.QueryTotal | easyapi/controller.py:78-81 | The total counts the unpaged result of the filter the Dao actually ran; for a business Dao that filter excludes deleted rows, and so do the returned rows |
| EasyController.QueryRows | easyapi/controller.py:74-84 | `query`'s rows are the Dao query's result for the filter it ran, with `Pager(1, 20)` and `Sorter('id', desc=True)` standing in for a missing pager or sorter; without a pager they are the first 20 rows of the unpaged, ordered result |
| EasyController.CInsert | easyapi/controller.py:87-106 | A validator error raises `BusinessError(500, 200, err)` and nothing is written; any failure leaves the database unchanged and is not a storage error |
| EasyController.CUpdate | easyapi/controller.py:109-134 | A validator error raises `BusinessError(500, 200, err)` before the where-dict is built; any failure leaves the database unchanged |
| EasyController.CDelete | easyapi/controller.py:137-154 | A failed delete leaves the database unchanged and raises no storage error |
| EasyController.IdWhereCompiles | easyapi/controller.py:51 | The where-dict `{"id": n}` compiles to `id = n` under both compilers, plus `deleted_at IS NULL` for business Daos |
| EasyController.InsertThenGet | easyapi/controller.py:87-106 | After a successful insert through a plain controller, `get` of the returned id yields exactly the inserted row, formatted |
| EasyController.DeleteThenGet | easyapi/controller.py:137-154 | After a successful delete, physical or soft, `get` of the same id returns None |
| EasyController.UpdateThenRows | easyapi/controller.py:109-134 | A successful `update(id)` without a context query writes the data to exactly the rows with that id (the live ones for a business Dao, which also stamps `updated_at` and `updated_by`), leaves every other row as it was, and returns how many rows it patched |
| Errors.MapStorageError | easyapi/controller.py:54-55 | The result is never a storage error. An exception is changed iff it is an OperationalError, IntegrityError or DataError, and then it becomes `BusinessError(500, 500, message)` |
| Errors.MapStorageErrorIdempotent | easyapi/controller.py:54-55 | Mapping an already mapped exception changes nothing, so a `BusinessError` is never wrapped twice |
| Errors.RenderRoundTrip | easy_admin/errors.py:14-16 | With integer code and status, `__str__` determines the code, the status and the message text |
| Transactions.GetTx | easyapi/transcation.py:23-24 | `get_tx` returns a transaction holding neither a connection nor a begun transaction |
| Transactions.Enter | easyapi/transcation.py:8-11 | Entering connects and then begins, and succeeds iff neither call raises; it never closes |
| Transactions.Exit | easyapi/transcation.py:13-20 | Exit commits first, closes a held connection exactly once and last, and succeeds iff the commit does |
| Transactions.AsyncExit | async_easyapi/dao.py:19-24 | The async exit commits first, never closes, and succeeds iff the commit does |
| Transactions.CommitOrRollback | easyapi/transcation.py:14-18 | The commit is the first call and raises nothing iff a transaction was begun and the commit succeeded; a rollback happens iff the commit failed; nothing is closed here |
| Transactions.With | easyapi/transcation.py:8-20 | A `with` block never swallows its body's exception, closes at most once, and when it raises nothing it made exactly the calls connect, begin, commit, close |
| Transactions.AsyncWith | async_easyapi/dao.py:14-24 | An `async with` block never swallows its body's exception, never closes, and when it raises nothing it made exactly the calls connect, begin, commit |
| Transactions.WithLifecycle | easyapi/transcation.py:13-20 | An entered block always commits, rolls back and re-raises on a failed commit, closes exactly once and last, and raises whenever its body did |
| Transactions.AsyncWithLifecycle | async_easyapi/dao.py:14-24 | The async block commits and rolls back the same way but never closes the connection |
| Transactions.ExitIgnoresBody | easyapi/transcation.py:13-15 | What exit does does not depend on the body's exception |
| Transactions.BeginFailureLeaks | easyapi/transcation.py:8-11 | A failing `begin` raises and leaves the connection open |
| ApiContext.NewContext | easyapi/context.py:7-11 | A fresh context keeps its transaction and reads None for every key |
| ApiContext.Set | easyapi/context.py:29-36 | `set(k, v)` makes `read(k)` return `v` and leaves the transaction and every other key unchanged |
| ApiContext.ReadLastSet | easyapi/context.py:13-36 | After any sequence of `set`s, `read(k)` is the value of the last `set` of `k`, and the transaction is the constructor's |
| Tools.Str2Hump | easyapi_tools/util.py:6-19 | `str2hump` fails iff the input is empty or ends in two capitals, and its result holds no capital |
| Tools.Str2HumpInsertsUnderscores | easyapi_tools/util.py:6-19 | The result is the lower-cased input with underscores inserted, one per word boundary |
| Tools.ComplexUserExample | easyapi_tools/util.py:10-12 | `ComplexUser` becomes `complex_user` |
| Tools.HttpServerExample | easyapi_tools/util.py:13-16 | `HTTPServer` becomes `http_server` |
| Tools.TypeToJson | easyapi_tools/util.py:22-35 | `type_to_json` keeps the keys, keeps values that are not temporal, and renders temporal values as text |
| Tools.TypeToJsonIdempotent | easyapi_tools/util.py:22-35 | Formatting a formatted row changes nothing |
| Tools.DateTimeRoundTrip | easyapi_tools/util.py:27-28 | The `%Y-%m-%d %H:%M:%S` rendering of a datetime determines it |
| Tools.DateRoundTrip | easyapi_tools/util.py:29-30 | The `%Y-%m-%d` rendering of a date determines it |
| Tools.TimeRoundTrip | easyapi_tools/util.py:31-32 | The `%H:%M:%S` rendering of a time determines it |
| Tools.UrlParser | easyapi_tools/util.py:55-58 | None or empty arguments give three empty dicts |
| Tools.ParseEntries | easyapi_tools/util.py:59-70 | Each of the three dicts holds only keys that route to it |
| Tools.UrlParserPartition | easyapi_tools/util.py:59-70 | Every argument lands, with its value, in exactly the dict its key routes to |
| AsyncDao.IterValues | async_easyapi/dao.py:89-90 | `for v in values` yields a list's items or a string's characters, and raises TypeError on any other value |
| AsyncDao.CompileKey | async_easyapi/dao.py:84-106 | A falsy value contributes nothing, every predicate names a real column, and a key fails only with AttributeError or TypeError |
| AsyncDao.Search | async_easyapi/dao.py:82-106 | Every predicate of the compiled WHERE chain names a real column |
| AsyncDao.FalsySkipped | async_easyapi/dao.py:84-87 | A falsy value skips its key, so `{'deleted_at': None}` filters nothing |
| AsyncDao.ComparisonPerElement | async_easyapi/dao.py:88-99 | A comparison prefix adds one predicate per list element on the column named by the rest of the key |
| AsyncDao.StringIsIterated | async_easyapi/dao.py:88-90 | A string value adds one comparison per character |
| AsyncDao.InUsesWholeKey | async_easyapi/dao.py:103-104 | An `_in_` key looks up a column named by the whole key, so it raises on ordinary tables |
| AsyncDao.BareKey | async_easyapi/dao.py:105-106 | A bare key compiles to one equality with the whole value, or raises AttributeError for a missing column |
| AsyncDao.BareKeyWholeValue | async_easyapi/dao.py:105-106 | A bare key with a two-element list compiles, but the statement fails when it runs |
| AsyncDao.Query | async_easyapi/dao.py:73-128 | Every returned row is a row of the table that satisfies the compiled filter; `AsyncDao.UnpagedQueryIsSortedSelection` states that no matching row is missing |
| AsyncDao.PagerWindow | async_easyapi/dao.py:108-117 | No pager applies no window. A pager whose entries are integers or None renders the same LIMIT/OFFSET as easyapi's pager with those numbers, and any failure is a TypeError |
| AsyncDao.OrderOf | async_easyapi/dao.py:118-125 | No sorter orders by `id` descending. The sorter fails iff `_order_by` is not a string. The ORDER BY column is the named column when it exists and `id` otherwise, and the order is descending iff `_desc` is missing or truthy |
| AsyncDao.NamedColumnOrder | async_easyapi/dao.py:118-125 | `{'_order_by': c, '_desc': d}` with a real column `c` orders by `c`, ascending when `d` is falsy |
| AsyncDao.UnknownOrderByIsId | async_easyapi/dao.py:122-125 | An `_order_by` naming no column gives the same query as `_order_by = 'id'` |
| AsyncDao.UnpagedQueryIsSortedSelection | async_easyapi/dao.py:73-128 | The unpaged `query` succeeds exactly when the table exists, the database answers, the filter compiles and binds, and `_order_by` is a string. It then returns every matching row of the table, ordered by the column and direction the sorter picks |
| AsyncDao.QueryPageIsSlice | async_easyapi/dao.py:108-117 | The pager `{'_page': p, '_per_page': n}` returns the slice `[(p-1)*n, p*n)` of the unpaged result |
| AsyncDao.PagerDictMatchesPager | async_easyapi/dao.py:108-117 | A pager dict with integer entries renders the same LIMIT/OFFSET as easyapi's `Pager` with the same numbers |
| AsyncDao.DefaultOrderIsIdDesc | async_easyapi/dao.py:118-125 | Without a sorter, rows come back by `id` descending, and without a pager all of them |
| AsyncDao.Count | async_easyapi/dao.py:144-178 | The count lies between zero and the table's size |
| AsyncDao.SameWithoutLike | async_easyapi/dao.py:153-175 | Without `_like_` keys, `count` compiles the same WHERE chain as `query` |
| AsyncDao.CountIsUnpagedQueryLength | async_easyapi/dao.py:144-178 | Without `_like_` keys, `count` is the length of the unpaged `query` |
| AsyncDao.LikeQueryAndCountDiffer | async_easyapi/dao.py:169-171 | A row holding `xab` is counted for `{'_like_name': ['ab']}` but not returned by `query` |
| AsyncDao.Insert | async_easyapi/dao.py:130-142 | `insert` always raises AttributeError on `tablename` and writes nothing |
| AsyncDao.Update | async_easyapi/dao.py:180-198 | `update` always raises AttributeError on `tablename` and writes nothing |
| AsyncDao.Delete | async_easyapi/dao.py:200-216 | A `delete` called without `ctx` raises TypeError and writes nothing |
| AsyncController.ValidatorOf | async_easyapi/controller.py:55 | Reading `__validator__` fails with AttributeError exactly when no class defines it |
| AsyncController.Get | async_easyapi/controller.py:17-30 | `get` raises no storage error and returns only a row of the table |
| AsyncController.GetById | async_easyapi/controller.py:23-30 | With a non-zero id, `get` returns a row with that id, and None exactly when the table has none |
| AsyncController.GetZeroReturnsLargestId | async_easyapi/controller.py:23-30 | `get(0)` filters nothing and returns the row with the largest id |
| AsyncController.Query | async_easyapi/controller.py:33-46 | `query` raises no storage error, returns rows of the table, and a total between zero and the table's size |
| AsyncController.PageNumberBecomesFilter | async_easyapi/controller.py:42-43 | Because the arguments are shifted, a pager `{'_page': n}` becomes a filter key and raises AttributeError |
| AsyncController.QueryRowsIgnoreFilter | async_easyapi/controller.py:42-46 | Without pager and sorter, the rows are the whole table by id descending, whatever the filter; the total counts the filter's matches |
| AsyncController.Insert | async_easyapi/controller.py:49-63 | `insert` never writes, and it raises the missing `__validator__`, the validator's `BusinessError(500, 200)`, or the Dao's AttributeError, in that order |
| AsyncController.Update | async_easyapi/controller.py:66-82 | `update` never writes and raises the same way as `insert` |
| AsyncController.Delete | async_easyapi/controller.py:85-96 | `delete` never writes and raises TypeError |
| EsayController.Get | async_esayapi/controller.py:13-23 | `get` returns only a row of the table |
| EsayController.Query | async_esayapi/controller.py:25-34 | `query` passes its arguments by keyword and returns only rows of the table that satisfy the filter. Without a pager it succeeds exactly when the Dao query can run, and it returns every matching row, ordered as the sorter says |
| EsayController.Count | async_esayapi/controller.py:36-43 | `count` lies between zero and the table's size |
| EsayController.GetAgreesUpToMapping | async_esayapi/controller.py:19-23 | This `get` and async_easyapi's agree on success, and differ only in that async_easyapi maps storage errors |
| EsayController.OutageIsUnmapped | async_esayapi/controller.py:19-20 | A database outage reaches this `get`'s caller as the raw OperationalError, and async_easyapi's caller as `BusinessError(500, 500, msg)` |
| EsayController.CountMatchesQuery | async_esayapi/controller.py:33-43 | Without `_like_` keys and without a pager, `count` equals the number of rows `query` returns |
| AdminDao.Define | easy_admin/dao.py:19-25 | `BaseDao` changes nothing. A class without `__db__` raises NotImplementedError and leaves the shared `db` at `None`. Any other class sets the shared database and table name |
| AdminDao.DefineAll | easy_admin/dao.py:19-25 | A run of Dao definitions raises nothing iff every class other than `BaseDao` has a `__db__`; when one raises, the shared `db` is left at `None` |
| AdminDao.TableOf | easy_admin/dao.py:28-44 | `cls.db[cls.tablename]` succeeds iff a Dao is defined and no failed definition came after it, and then gives the stored table name. An attribute never set recurses through `__getattr__` into RecursionError; a `db` left at `None` raises TypeError |
| AdminDao.LastDefinitionWins | easy_admin/dao.py:21-25 | After several Dao definitions, the shared state is the last definition's |
| AdminDao.SharedTableExample | easy_admin/dao.py:25 | After `UserDao` and then `BookDao`, every Dao reads the table `Book`, which has no plural `s` |
| AdminDao.QueryBeforeAnyDao | easy_admin/dao.py:28-44 | Before any Dao is defined, every `query` raises RecursionError |
| AdminDao.CaughtFailureBreaksQuery | easy_admin/dao.py:19-44 | A caught failed definition after a good one makes `query` raise TypeError until a good definition follows |
| AdminDao.Query | easy_admin/dao.py:36-87 | `query` uses the shared table and returns only its rows, each satisfying the compiled filter; `AdminDao.UnpagedQueryIsSortedSelection` states that no matching row is missing |
| AdminDao.CompileKey | easy_admin/dao.py:48-66 | A falsy value contributes nothing, every predicate names a real column, and a key fails only with AttributeError or TypeError |
| AdminDao.Search | easy_admin/dao.py:46-66 | Every predicate of the compiled WHERE chain names a real column |
| AdminDao.UnpagedQueryIsSortedSelection | easy_admin/dao.py:36-87 | The unpaged `query` succeeds exactly when a Dao has been defined, its table exists, the database answers, the filter compiles and binds, and `_order_by` is a string. It then returns every matching row, ordered by the column and direction the sorter picks |
| AdminDao.QueryPageIsSlice | easy_admin/dao.py:68-77 | The pager `{'_page': p, '_per_page': n}` returns the slice `[(p-1)*n, p*n)` of the unpaged result |
| AdminDao.UnknownOrderByIsId | easy_admin/dao.py:78-85 | An `_order_by` naming no column gives the same query as `_order_by = 'id'` |
| AdminDao.BareKeyIsIn | easy_admin/dao.py:65-66 | A key without an operator prefix becomes `IN` over its values |
| AdminDao.ListFilterIsMembership | easy_admin/dao.py:46-66 | `{k: [v1..vn]}` keeps exactly the rows whose `k` equals one of the values, by id descending |
| AdminDao.DefaultsAreEverythingByIdDesc | easy_admin/dao.py:68-85 | An empty or missing pager applies no limit, and a missing sorter orders by id descending |
| AdminDao.UrlDescIsIgnored | easy_admin/dao.py:78-85 | A sorter built by `default_url_condition` always sorts descending, whatever `_desc` said |
| AdminUtil.Split | easy_admin/util.py:7 | `split('_')` yields one more piece than there are underscores, and no piece holds one |
| AdminUtil.NonEmpty | easy_admin/util.py:7 | `filter(None, ...)` keeps only the non-empty pieces |
| AdminUtil.Str2HumpLowersToText | easy_admin/util.py:1-11 | `str2hump` only drops underscores and changes case: its result holds no underscore and lower-cases to the lower-cased text without underscores |
| AdminUtil.UserExample | easy_admin/util.py:7-11 | `user` becomes `User` |
| AdminUtil.ComplexUserExample | easy_admin/util.py:7-11 | `Complex_User` becomes `ComplexUser` |
| AdminUtil.AsList | easy_admin/util.py:33-37 | A query value is kept when it is a list and wrapped in one otherwise |
| AdminUtil.DefaultUrlCondition | easy_admin/util.py:20-23 | None or empty arguments give three empty dicts |
| AdminUtil.ConditionsGet | easy_admin/util.py:24-37 | Pager keys go to the pager, `_order_by` goes to the sorter, `_desc` is filed under `'order'`, and every other key goes to the query as a list |
| Permissions.Decorate | easyapi/permission.py:23-33 | Decorating calls nothing: the wrapper holds the permission, the decorator's arguments and the function |
| Permissions.AsyncPermission | async_easyapi/permission.py:23-30 | Called on an instance, wrapping calls nothing and keeps the function and the arguments given to `permission` |
| Permissions.AsyncPermissionOnClass | async_easyapi/permission.py:23-30 | Called on the class, `permission` without arguments raises TypeError, and otherwise every call of the wrapper raises AttributeError before calling anything |
| Permissions.Invoke | easyapi/permission.py:27-31 | A call makes exactly two calls, the check with the decorator's arguments first. The function runs with the call's arguments iff the check is truthy, and its result is returned; otherwise `fail()` is returned |
| Permissions.GuardDecides | easyapi/permission.py:27-31 | Every call checks first with the decorator's arguments, runs the function once with the call's arguments iff the check is truthy, and otherwise returns `fail()` |
| Permissions.DecisionIgnoresCallArgs | easyapi/permission.py:28 | Whether the function runs does not depend on the call's arguments |
| Permissions.VersionsAgree | async_easyapi/permission.py:23-30 | When the async `permission` is called on an instance, the two versions' wrappers behave identically |
| Permissions.ClassCallNeverChecks | async_easyapi/permission.py:23-29 | Called on the class, the async wrapper never calls `check` and raises AttributeError, where easyapi's wrapper always checks first |

## Left out

- Transport handlers are not modelled: the Flask/Quart views, JSON envelopes and route registration in every `handler.py`.
- Database plumbing in every `db_util.py` is not modelled: engines, pooling, reflection and `execute`. Storage is the abstract `Db` value.
- MySQL's case-insensitive collation, LIKE's `_` wildcard and escaping, and three-valued NULL logic are not modelled. A comparison against NULL simply fails.
- Decimal and float values are not modelled, nor `type_to_json`'s Decimal-to-float case.
- Values.SqlCompare: a comparison between values of different kinds (a string against an integer, a date against a string) is undefined, so the predicate does not hold. MySQL would coerce one side and might match.
- Executor.SortRows: values of different kinds in one column are ordered by a fixed kind order, not by MySQL's coercion rules.
- Executor.SortRows: rows with equal sort keys, and rows read with no ORDER BY, come back in storage (insertion) order. MySQL leaves that order unspecified.
- Storage.NewRow: a column the data omits becomes NULL. Column DEFAULT values and NOT NULL constraints are not modelled, so the test schema's `DEFAULT ''` and `DEFAULT CURRENT_TIMESTAMP` columns (tests/conftest.py:47-53) and the NOT NULL `created_by`/`updated_by` columns easyapi_tools adds (easyapi_tools/__init__.py:30-31) are not what the model stores. Columns are also untyped: MySQL's conversion of a written value to the column's type (an integer written to a `varchar` reads back as a string), its refusal of a value that does not fit (a non-date string in a `timestamp`, a string longer than `varchar(32)`), and the range of `int(11)` for `id` (an `id` above 2147483647) are not modelled. `Storage.InsertRow` checks only that a given `id` is an integer or None.
- EasyController.InsertThenGet: it holds for the model's NULL-default schema. With column defaults the stored row also holds the default values, so `get` returns more than was inserted. Because columns are untyped, it also holds only for values already of their column's type and size; MySQL would convert or refuse the others.
- Values.FormatDate: the year is always written with four digits. CPython's `strftime('%Y')` on Linux has left years below 1000 unpadded, so the rendering of such dates may differ; MySQL's DATE and DATETIME columns only hold years 1000 to 9999.
- Text.Lower, Text.IsUpper and Text.ToUpper: only ASCII letters change case. Python's `str.lower`, `str.isupper` and `str.upper` also map other Unicode letters.
- The clock is the `now` parameter. Which `datetime.now()` a call observes is left open.
- `asyncio.gather` in async_easyapi's controller is modelled as the two calls in sequence.
- `Transactions`: `close` is assumed never to raise.
- EasyDao.Get: the caller's sorter is not modelled. It only adds an ORDER BY key after `id DESC`, and ids are unique.
- AsyncDao.AsInt: pager values other than integers, booleans and None are a TypeError; Python's arithmetic on floats is not modelled.
- The `formatter`/`reformatter` attributes of `EasyApiContext` are never read by the engine and are not modelled.
- The Dao `formatter`/`reformatter` hooks are their base-class versions. Subclass overrides are user code.
- async_esayapi/dao.py is not part of this model. async_esayapi's controller runs over the async_easyapi Dao.
- async_easyapi/util.py is not part of this model. The async table name is a parameter.
- async_easyapi's `DaoMetaClass.__new__` (table name and `__db__` check) is not modelled. Queries take the table name directly.
- The metaclass of each controller version is reduced to its attributes. async_easyapi's unset `__validator__` is the outer `None` of `AsyncController.Controller.validator`.
- easy_admin's `DaoMetaClass.__getattr__` reads `__mappings__`, which nothing sets, so every use of it recurses. The model keeps only its effect on `query`'s `db` and `tablename` lookups (RecursionError); `Model.Field` access is not modelled.
- AdminDao.Query: pager and sorter entries are single values, as `default_url_condition` would have to supply them. Lists in a pager are not modelled.
- `db.connect()` and the driver are not modelled. A statement either runs against the modelled tables or fails with the database's `fault`.
- easyapi's `db.execute` (easyapi/db_util.py:66-67) reads the connection with `ctx.get("connection")`. Every Dao call passes its `EasyApiContext`, and that class has only `read`, `set` and `tx` (easyapi/context.py:14-35), so any call with a context would raise AttributeError. The model runs the statement as if the context were the dict `execute` expects.
- easy_admin's `query` calls `cls.db.execute(sql)` (easy_admin/dao.py:86), but `execute` takes `(ctx, sql)` (easy_admin/db_util.py:58), so the call as written raises TypeError for the missing `sql`. The model runs the statement.
- Permissions.AsyncPermission: async_easyapi's `permission` has no `@classmethod`, so it works only when called on an instance of the permission class. The model's wrapper is that instance call; the class call is `Permissions.AsyncPermissionOnClass`, and `Permissions.VersionsAgree` holds only for the instance call.
- The permission classes' `check` and `fail` are parameters. Keyword arguments are folded into the positional argument list.
- EasyController.CQuery: its own contract states only the error mapping. Its rows are stated by `EasyController.QueryRows` and its total by `EasyController.QueryTotal`.
- AsyncDao.Count: its contract bounds the count. The exact relation to `query` is `AsyncDao.CountIsUnpagedQueryLength`, and it needs no `_like_` keys.

=== FILE: async_easyapi_controller.dfy ===
/** async_easyapi/controller.py: the async `BaseController`. Every method
    turns the SQLAlchemy errors into a `BusinessError`; `query` passes its
    arguments to `BaseDao.query` positionally, one place to the left of the
    parameters they are meant for. */
module AsyncController {
  import opened Wrappers
  import opened Values
  import opened Dicts
  import opened Errors
  import opened Preds
  import opened Executor
  import opened Storage
  import EasyController
  import EasyDao
  import AsyncDao
  import EasySql

  type Validator = EasyController.Validator

  /** The class attributes the controller reads: the Dao's table and
      `__validator__`, `None` when no class defines that attribute (the
      metaclass only checks `__dao__`). */
  datatype Controller = Controller(table: string, validator: Option<Option<Validator>>)

  /** `self.__validator__`. */
  function ValidatorOf(c: Controller): (r: Result<Option<Validator>, Exc>)
    ensures r.Err? <==> c.validator.None?
    ensures r.Err? ==> r.error == AttributeError("__validator__")
  {
    if c.validator.None? then Err(AttributeError("__validator__")) else Ok(c.validator.value)
  }

  /** The filter `{"id": id}`. */
  function IdFilter(id: int): Dict<PyVal>
  {
    [("id", Scalar(Int(id)))]
  }

  /** `get(id)`: the first row of `query(query={"id": id})`, or `None`. */
  function Get(db: Db, c: Controller, id: int): (r: Result<Option<Row>, Exc>)
    ensures r.Err? ==> !IsStorageError(r.error)
    ensures r.Ok? && r.value.Some? ==> c.table in db.tables && r.value.value in db.tables[c.table].rows
  {
    var data :- EasyController.Mapped(AsyncDao.Query(db, c.table, Some(IdFilter(id)), None, None));
    if |data| == 0 then Ok(None) else Ok(Some(data[0]))
  }

  /** A pager dict read as a filter dict. */
  function AsFilter(d: Option<Dict<Value>>): (r: Option<Dict<PyVal>>)
    ensures r.None? <==> d.None?
    ensures r.Some? ==>
      && |r.value| == |d.value|
      && forall i :: 0 <= i < |d.value| ==> r.value[i] == (d.value[i].0, Scalar(d.value[i].1))
  {
    if d.None? then None else Some(seq(|d.value|, i requires 0 <= i < |d.value| => (d.value[i].0, Scalar(d.value[i].1))))
  }

  /** `query(query, pager, sorter)`: `BaseDao.query(query, pager, sorter)`
      binds them to `ctx`, `query` and `pager`, so the pager dict is the
      filter, the sorter dict is the pager and no sorter is given; `count`
      gets the real filter. The two calls are gathered concurrently and are
      modelled in order. */
  function Query(db: Db, c: Controller, query: Option<Dict<PyVal>>, pager: Option<Dict<Value>>, sorter: Option<Dict<Value>>): (r: Result<(seq<Row>, int), Exc>)
    ensures r.Err? ==> !IsStorageError(r.error)
    ensures r.Ok? ==>
      && c.table in db.tables && 0 <= r.value.1 <= |db.tables[c.table].rows|
      && forall x :: x in r.value.0 ==> x in db.tables[c.table].rows
  {
    var rows :- EasyController.Mapped(AsyncDao.Query(db, c.table, AsFilter(pager), sorter, None));
    var total :- EasyController.Mapped(AsyncDao.Count(db, c.table, query));
    Ok((rows, total))
  }

  /** `insert(data)`: reading `__validator__`, then validation, then the
      Dao's `insert`, which always fails. Nothing is ever written. */
  function Insert(db: Db, c: Controller, data: Dict<Value>): (r: (Db, Result<int, Exc>))
    ensures r.0 == db && r.1.Err?
    ensures r.1.error == (if c.validator.None? then AttributeError("__validator__")
                          else if c.validator.value.Some? && c.validator.value.value(data).Some?
                          then ValidationFailure(c.validator.value.value(data).value)
                          else AttributeError("tablename"))
  {
    match ValidatorOf(c)
    case Err(e) => (db, Err(e))
    case Ok(v) =>
      if v.Some? && v.value(data).Some? then (db, Err(ValidationFailure(v.value(data).value)))
      else
        var (db', res) := AsyncDao.Insert(db, Some(data));
        (db', EasyController.Mapped(res))
  }

  /** `update(id, data)`: as `insert`, with the Dao's `update`. */
  function Update(db: Db, c: Controller, id: int, data: Dict<Value>): (r: (Db, Result<int, Exc>))
    ensures r.0 == db && r.1.Err?
    ensures r.1.error == (if c.validator.None? then AttributeError("__validator__")
                          else if c.validator.value.Some? && c.validator.value.value(data).Some?
                          then ValidationFailure(c.validator.value.value(data).value)
                          else AttributeError("tablename"))
  {
    match ValidatorOf(c)
    case Err(e) => (db, Err(e))
    case Ok(v) =>
      if v.Some? && v.value(data).Some? then (db, Err(ValidationFailure(v.value(data).value)))
      else
        var (db', res) := AsyncDao.Update(db, Some(IdFilter(id)), Some(data));
        (db', EasyController.Mapped(res))
  }

  /** `delete(id)`: the Dao's `delete` is called without its `ctx`. */
  function Delete(db: Db, c: Controller, id: int): (r: (Db, Result<int, Exc>))
    ensures r.0 == db && r.1.Err? && r.1.error.TypeError?
  {
    var (db', res) := AsyncDao.Delete(db, Some(IdFilter(id)));
    (db', EasyController.Mapped(res))
  }

  // ------------------------------------------------------------------ lemmas

  /** `{"id": id}` with a non-zero id compiles to `id = :id`. */
  lemma IdFilterCompiles(columns: seq<string>, id: int)
    requires id != 0 && "id" in columns
    ensures AsyncDao.Search(columns, IdFilter(id), AsyncDao.Verbatim) == Ok([Eq("id", Scalar(Int(id)))])
  {
    AsyncDao.BareKey(columns, "id", Scalar(Int(id)), AsyncDao.Verbatim);
    AsyncDao.SearchOne(columns, "id", Scalar(Int(id)), AsyncDao.Verbatim);
  }

  /** With a non-zero id, `get` returns the row with that id, and `None`
      exactly when the table has none. */
  lemma GetById(db: Db, c: Controller, id: int)
    requires c.table in db.tables && WellFormed(db.tables[c.table]) && db.fault.None?
    requires id != 0
    ensures Get(db, c, id).Ok?
    ensures Get(db, c, id).value.Some? ==> IdOf(Get(db, c, id).value.value) == id
    ensures Get(db, c, id).value.None? <==> forall i :: 0 <= i < |db.tables[c.table].rows| ==> IdOf(db.tables[c.table].rows[i]) != id
  {
    var t := db.tables[c.table];
    var eq := Eq("id", Scalar(Int(id)));
    IdFilterCompiles(t.columns, id);
    var rows := Select(t.rows, [eq]);
    assert BindError([eq]).None?;
    forall row | row in t.rows ensures EvalAll([eq], row) <==> IdOf(row) == id {
      EasySql.EvalAllSingleton(eq, row);
      assert row in t.rows;
      EasyController.SqlEqualsInt(IdOf(row), id);
    }
    AsyncDao.DefaultOrderIsIdDesc(db, c.table, Some(IdFilter(id)));
    SortRowsLength(rows, "id", true);
    var sorted := SortRows(rows, "id", true);
    if |sorted| > 0 {
      assert sorted[0] in multiset(rows);
    } else {
      assert |rows| == 0;
    }
  }

  /** `get(0)` filters nothing, because `{"id": 0}` has a falsy value: it
      returns the row with the largest id, whatever the table holds. */
  lemma GetZeroReturnsLargestId(db: Db, c: Controller)
    requires c.table in db.tables && WellFormed(db.tables[c.table]) && db.fault.None?
    requires |db.tables[c.table].rows| > 0
    ensures Get(db, c, 0).Ok? && Get(db, c, 0).value.Some?
    ensures var top := Get(db, c, 0).value.value;
      top in db.tables[c.table].rows
      && forall row :: row in db.tables[c.table].rows ==> IdOf(row) <= IdOf(top)
  {
    var t := db.tables[c.table];
    AsyncDao.FalsySkipped(t.columns, "id", Scalar(Int(0)), [], AsyncDao.Verbatim);
    assert IdFilter(0) == [("id", Scalar(Int(0)))] + [];
    var rows := Select(t.rows, []);
    EasyDao.SelectAll(t.rows);
    AsyncDao.DefaultOrderIsIdDesc(db, c.table, Some(IdFilter(0)));
    SortedHeadIsMax(rows, "id");
    var top := SortRows(rows, "id", true)[0];
    forall row | row in t.rows ensures IdOf(row) <= IdOf(top) {
      EasyDao.OrderLeInt(IdOf(row), IdOf(top));
    }
  }

  /** Because of the shifted arguments, a page number reaches the filter:
      a `query` with `{'_page': n}` (n non-zero) raises `AttributeError` on
      any table whose column names do not start with `_`. */
  lemma PageNumberBecomesFilter(db: Db, c: Controller, query: Option<Dict<PyVal>>, n: int, sorter: Option<Dict<Value>>)
    requires c.table in db.tables && n != 0
    requires forall x :: x in db.tables[c.table].columns ==> |x| == 0 || x[0] != '_'
    ensures Query(db, c, query, Some([("_page", Int(n))]), sorter) == Err(AttributeError("_page"))
  {
    var columns := db.tables[c.table].columns;
    var k := "_page";
    AsyncDao.NotPrefixAt(k, "_gt_", 1); AsyncDao.NotPrefixAt(k, "_gte_", 1); AsyncDao.NotPrefixAt(k, "_lt_", 1);
    AsyncDao.NotPrefixAt(k, "_lte_", 1); AsyncDao.NotPrefixAt(k, "_like_", 1); AsyncDao.NotPrefixAt(k, "_in_", 1);
    assert k[0] == '_';
    var f := AsFilter(Some([(k, Int(n))])).value;
    assert |f| == 1 && f[0] == (k, Scalar(Int(n)));
    assert f == [(k, Scalar(Int(n)))];
    AsyncDao.SearchOne(columns, k, Scalar(Int(n)), AsyncDao.Verbatim);
  }

  /** Without pager and sorter the rows are every row of the table, by id
      descending, whatever `query` holds; the total counts `query`'s matches. */
  lemma QueryRowsIgnoreFilter(db: Db, c: Controller, query: Option<Dict<PyVal>>)
    requires c.table in db.tables && db.fault.None?
    requires AsyncDao.Count(db, c.table, query).Ok?
    ensures Query(db, c, query, None, None)
         == Ok((SortRows(db.tables[c.table].rows, "id", true), AsyncDao.Count(db, c.table, query).value))
  {
    var t := db.tables[c.table];
    EasyDao.SelectAll(t.rows);
    AsyncDao.DefaultOrderIsIdDesc(db, c.table, None);
  }
}

=== FILE: async_easyapi_dao.dfy ===
/** async_easyapi/dao.py: the filter, pager and sorter logic of the async
    `BaseDao.query` and `BaseDao.count`, and its broken write operations.
    The transaction's `__aexit__` is `Transactions.AsyncExit`. Filters,
    pagers and sorters are plain dicts here: falsy filter values are skipped,
    `for v in values` iterates whatever the value is, `_in_` keys name the
    column with their prefix, and a bare key compares against the whole value. */
module AsyncDao {
  import opened Wrappers
  import opened Text
  import opened Values
  import opened Dicts
  import opened Errors
  import opened Preds
  import opened Executor
  import opened Storage
  import opened EasySql
  import Like

  /** `query` uses a `_like_` value verbatim as the pattern; `count` prefixes it with `%`. */
  datatype LikeMode = Verbatim | LeadingPercent

  /** `for v in values`: a list yields its items and a string its characters;
      any other value is not iterable. */
  function IterValues(pv: PyVal): (r: Result<seq<Value>, Exc>)
    ensures pv.List? ==> r == Ok(pv.items)
    ensures pv.Scalar? && pv.v.Str? ==>
      && r.Ok? && |r.value| == |pv.v.s|
      && forall i :: 0 <= i < |pv.v.s| ==> r.value[i] == Str([pv.v.s[i]])
    ensures pv.Scalar? && !pv.v.Str? ==> r.Err? && r.error.TypeError?
  {
    match pv
    case List(items) => Ok(items)
    case Scalar(Str(s)) => Ok(seq(|s|, i requires 0 <= i < |s| => Str([s[i]])))
    case Scalar(_) => Err(TypeError("object is not iterable"))
  }

  /** `for v in values: sql = sql.where(getattr(table.c, col).like(v))`. */
  function EachLikeVerbatim(columns: seq<string>, col: string, vs: seq<Value>): Result<seq<Pred>, Exc>
  {
    if |vs| == 0 then Ok([])
    else if col !in columns then Err(AttributeError(col))
    else Ok(seq(|vs|, i requires 0 <= i < |vs| => LikePat(col, vs[i])))
  }

  /** What one entry of the filter contributes, in the order of the source's
      `if`/`elif` chain. */
  function CompileKey(columns: seq<string>, k: string, pv: PyVal, mode: LikeMode): (r: Result<seq<Pred>, Exc>)
    ensures !PyTruthy(pv) ==> r == Ok([])
    ensures r.Ok? ==> OnColumns(r.value, columns)
    ensures r.Err? ==> r.error.AttributeError? || r.error.TypeError?
  {
    if !PyTruthy(pv) then Ok([])
    else if StartsWith(k, "_gt_") then var vs :- IterValues(pv); EachCmp(columns, k[4..], vs, Gt)
    else if StartsWith(k, "_gte_") then var vs :- IterValues(pv); EachCmp(columns, k[5..], vs, Gte)
    else if StartsWith(k, "_lt_") then var vs :- IterValues(pv); EachCmp(columns, k[4..], vs, Lt)
    else if StartsWith(k, "_lte_") then var vs :- IterValues(pv); EachCmp(columns, k[5..], vs, Lte)
    else if StartsWith(k, "_like_") then
      var vs :- IterValues(pv);
      if mode == Verbatim then EachLikeVerbatim(columns, k[6..], vs) else EachLike(columns, k[6..], vs, "%", "")
    else if StartsWith(k, "_in_") then
      if k !in columns then Err(AttributeError(k))
      else var vs :- IterValues(pv); Ok([In(k, vs)])
    else if k !in columns then Err(AttributeError(k))
    else Ok([Eq(k, pv)])
  }

  /** The WHERE chain of `query` (`Verbatim`) or `count` (`LeadingPercent`). */
  function Search(columns: seq<string>, q: Dict<PyVal>, mode: LikeMode): (r: Result<seq<Pred>, Exc>)
    ensures r.Ok? ==> OnColumns(r.value, columns)
  {
    CompileAllOnColumns(q, (k, pv) => CompileKey(columns, k, pv, mode), columns);
    CompileAll(q, (k, pv) => CompileKey(columns, k, pv, mode))
  }

  /** `pager.get(key)`, `None` for a missing key. */
  function Lookup(d: Dict<Value>, k: string): Value
  {
    if HasKey(d, k) then Dicts.Get(d, k).value else Null
  }

  /** A pager value used as a number; `True`/`False` are 1/0. */
  function AsInt(v: Value): Result<int, Exc>
  {
    match v
    case Int(i) => Ok(i)
    case Bool(b) => Ok(if b then 1 else 0)
    case _ => Err(TypeError("unsupported operand type(s)"))
  }

  /** The LIMIT/OFFSET the pager dict renders: `if per_page: limit`, and
      `if page:` an offset of `(page-1)*per_page`, or `(page-1)*30` with
      LIMIT 30 when `per_page is None`. */
  function PagerWindow(pager: Option<Dict<Value>>): (r: Result<Window, Exc>)
    ensures pager.None? ==> r == Ok(FullWindow)
    ensures pager.Some? ==>
      var page := Lookup(pager.value, "_page");
      var perPage := Lookup(pager.value, "_per_page");
      (page.Int? || page.Null?) && (perPage.Int? || perPage.Null?) ==>
        r == Ok(PageWindow(if page.Int? then Some(page.i) else None, if perPage.Int? then Some(perPage.i) else None))
    ensures r.Err? ==> r.error.TypeError?
  {
    if pager.None? then Ok(FullWindow)
    else
      var perPage := Lookup(pager.value, "_per_page");
      var page := Lookup(pager.value, "_page");
      var limit :- if Truthy(perPage) then (var n :- AsInt(perPage); Ok(Some(n))) else Ok(None);
      if !Truthy(page) then Ok(Window(0, limit))
      else
        var p :- AsInt(page);
        if perPage == Null then Ok(Window((p - 1) * DefaultPerPage, Some(DefaultPerPage)))
        else
          var n :- AsInt(perPage);
          Ok(Window((p - 1) * n, limit))
  }

  /** The ORDER BY of the sorter dict: `_order_by` (default `'id'`, an
      unknown column falling back to `id`) and `_desc` (default `True`). */
  function OrderOf(columns: seq<string>, sorter: Option<Dict<Value>>): (r: Result<(string, bool), Exc>)
    ensures sorter.None? ==> r == Ok(("id", true))
    ensures var s := if sorter.None? then [] else sorter.value;
      r.Err? <==> HasKey(s, "_order_by") && !Dicts.Get(s, "_order_by").value.Str?
    ensures r.Ok? ==> r.value.0 in columns || r.value.0 == "id"
    ensures var s := if sorter.None? then [] else sorter.value;
      forall c :: Dicts.Get(s, "_order_by") == Some(Str(c)) && c in columns ==> r.Ok? && r.value.0 == c
    ensures var s := if sorter.None? then [] else sorter.value;
      r.Ok? && (!HasKey(s, "_order_by") || Dicts.Get(s, "_order_by").value.s !in columns) ==> r.value.0 == "id"
    ensures var s := if sorter.None? then [] else sorter.value;
      r.Ok? ==> (r.value.1 <==> !HasKey(s, "_desc") || Truthy(Dicts.Get(s, "_desc").value))
  {
    var s := if sorter.None? then [] else sorter.value;
    var orderBy := if HasKey(s, "_order_by") then Dicts.Get(s, "_order_by").value else Str("id");
    var desc := if HasKey(s, "_desc") then Truthy(Dicts.Get(s, "_desc").value) else true;
    if !orderBy.Str? then Err(TypeError("attribute name must be string"))
    else Ok((if orderBy.s in columns then orderBy.s else "id", desc))
  }

  /** `BaseDao.query(query, pager, sorter)` on the Dao's table; rows are
      returned as stored (`formatter` is `dict(data)`). */
  function Query(db: Db, table: string, q: Option<Dict<PyVal>>, pager: Option<Dict<Value>>, sorter: Option<Dict<Value>>): (r: Result<seq<Row>, Exc>)
    ensures r.Ok? ==> table in db.tables && forall x :: x in r.value ==> x in db.tables[table].rows
    ensures r.Ok? ==>
      && Search(db.tables[table].columns, if q.None? then [] else q.value, Verbatim).Ok?
      && forall x :: x in r.value ==> EvalAll(Search(db.tables[table].columns, if q.None? then [] else q.value, Verbatim).value, x)
  {
    var t :- LookupTable(db, table);
    var ps :- Search(t.columns, if q.None? then [] else q.value, Verbatim);
    var w :- PagerWindow(pager);
    var order :- OrderOf(t.columns, sorter);
    var rows :- RunSelect(db, t, ps);
    SortedPage(rows, order.0, order.1, w)
  }

  /** ORDER BY, then LIMIT/OFFSET: a page only holds rows it was given. */
  function SortedPage(rows: seq<Row>, col: string, desc: bool, w: Window): (r: Result<seq<Row>, Exc>)
    ensures r.Ok? ==> forall x :: x in r.value ==> x in rows
  {
    var sorted := SortRows(rows, col, desc);
    assert forall x :: x in sorted ==> x in rows by {
      forall x | x in sorted ensures x in rows { assert x in multiset(sorted); }
    }
    ApplyWindow(sorted, w)
  }

  /** `BaseDao.count(query)`. */
  function Count(db: Db, table: string, q: Option<Dict<PyVal>>): (r: Result<int, Exc>)
    ensures r.Ok? ==> table in db.tables && 0 <= r.value <= |db.tables[table].rows|
  {
    var t :- LookupTable(db, table);
    var ps :- Search(t.columns, if q.None? then [] else q.value, LeadingPercent);
    var rows :- RunSelect(db, t, ps);
    Ok(|rows|)
  }

  /** `BaseDao.insert` and `BaseDao.update` read `self.tablename`, which no
      Dao class has, before building any statement. */
  function Insert(db: Db, data: Option<Dict<Value>>): (r: (Db, Result<int, Exc>))
    ensures r == (db, Err(AttributeError("tablename")))
  {
    (db, Err(AttributeError("tablename")))
  }

  function Update(db: Db, w: Option<Dict<PyVal>>, data: Option<Dict<Value>>): (r: (Db, Result<int, Exc>))
    ensures r == (db, Err(AttributeError("tablename")))
  {
    (db, Err(AttributeError("tablename")))
  }

  /** `BaseDao.delete(where_dict=...)` as the controllers call it: `ctx` is a
      required positional parameter, so the call itself fails. */
  function Delete(db: Db, w: Option<Dict<PyVal>>): (r: (Db, Result<int, Exc>))
    ensures r == (db, Err(TypeError("delete() missing 1 required positional argument: 'ctx'")))
  {
    (db, Err(TypeError("delete() missing 1 required positional argument: 'ctx'")))
  }

  // ------------------------------------------------------------------ lemmas

  /** A key that differs from a prefix at position `i` does not start with it. */
  lemma NotPrefixAt(k: string, p: string, i: nat)
    requires i < |p| && (i < |k| ==> k[i] != p[i])
    ensures !StartsWith(k, p)
  {
    if |p| <= |k| { assert k[..|p|][i] == k[i]; }
  }

  /** A one-entry filter compiles to what its entry contributes. */
  lemma SearchOne(columns: seq<string>, k: string, pv: PyVal, mode: LikeMode)
    ensures Search(columns, [(k, pv)], mode) == CompileKey(columns, k, pv, mode)
  {
    var q := [(k, pv)];
    assert q[0] == (k, pv) && q[1..] == [];
    var f := (k', pv') => CompileKey(columns, k', pv', mode);
    assert Search(columns, q, mode) == CompileAll(q, f);
    assert f(q[0].0, q[0].1) == CompileKey(columns, k, pv, mode);
    assert CompileAll(q[1..], f) == Ok([]);
    var r := CompileKey(columns, k, pv, mode);
    if r.Ok? { assert r.value + [] == r.value; }
  }

  /** A key not starting with `_` reaches the bare-column branch. */
  lemma BareKey(columns: seq<string>, k: string, pv: PyVal, mode: LikeMode)
    requires |k| > 0 && k[0] != '_' && PyTruthy(pv)
    ensures CompileKey(columns, k, pv, mode)
         == if k in columns then Ok([Eq(k, pv)]) else Err(AttributeError(k))
  {
    NotPrefixAt(k, "_gt_", 0); NotPrefixAt(k, "_gte_", 0); NotPrefixAt(k, "_lt_", 0);
    NotPrefixAt(k, "_lte_", 0); NotPrefixAt(k, "_like_", 0); NotPrefixAt(k, "_in_", 0);
  }

  /** Falsy values (`None`, `0`, `False`, `''`, `[]`) skip their key entirely,
      so `{'deleted_at': None}` filters nothing. */
  lemma FalsySkipped(columns: seq<string>, k: string, pv: PyVal, q: Dict<PyVal>, mode: LikeMode)
    requires !PyTruthy(pv)
    ensures Search(columns, [(k, pv)] + q, mode) == Search(columns, q, mode)
  {
    CompileAllSkip(k, pv, q, (k', pv') => CompileKey(columns, k', pv', mode));
  }

  /** A comparison prefix with a non-empty list adds one predicate per
      element, on the column named by the rest of the key. */
  lemma ComparisonPerElement(columns: seq<string>, c: string, vs: seq<Value>, mode: LikeMode)
    requires |vs| > 0 && c in columns
    ensures CompileKey(columns, "_gte_" + c, List(vs), mode)
         == Ok(seq(|vs|, i requires 0 <= i < |vs| => Cmp(Gte, c, vs[i])))
    ensures CompileKey(columns, "_lt_" + c, List(vs), mode)
         == Ok(seq(|vs|, i requires 0 <= i < |vs| => Cmp(Lt, c, vs[i])))
  {
    var k := "_gte_" + c;
    assert k[..4] == "_gte" && k[..5] == "_gte_" && k[5..] == c;
    var k2 := "_lt_" + c;
    assert k2[..4] == "_lt_" && k2[4..] == c;
    assert k2[..3] == "_lt";
  }

  /** A string value is iterated character by character. */
  lemma StringIsIterated(columns: seq<string>, c: string, s: string, mode: LikeMode)
    requires |s| > 0 && c in columns
    ensures CompileKey(columns, "_gt_" + c, Scalar(Str(s)), mode)
         == Ok(seq(|s|, i requires 0 <= i < |s| => Cmp(Gt, c, Str([s[i]]))))
  {
    var k := "_gt_" + c;
    assert k[..4] == "_gt_" && k[4..] == c;
    var vs := IterValues(Scalar(Str(s))).value;
    assert seq(|vs|, i requires 0 <= i < |vs| => Cmp(Gt, c, vs[i]))
        == seq(|s|, i requires 0 <= i < |s| => Cmp(Gt, c, Str([s[i]])));
  }

  /** `_in_` keys look up the column by the whole key, so with ordinary
      column names any non-empty `_in_` filter raises. */
  lemma InUsesWholeKey(columns: seq<string>, c: string, pv: PyVal, mode: LikeMode)
    requires PyTruthy(pv)
    requires forall x :: x in columns ==> |x| == 0 || x[0] != '_'
    ensures CompileKey(columns, "_in_" + c, pv, mode) == Err(AttributeError("_in_" + c))
  {
    var k := "_in_" + c;
    assert k[..4] == "_in_" && k[0] == '_' && k[1] == 'i';
    NotPrefixAt(k, "_gt_", 1); NotPrefixAt(k, "_gte_", 1); NotPrefixAt(k, "_lt_", 1);
    NotPrefixAt(k, "_lte_", 1); NotPrefixAt(k, "_like_", 1);
  }

  /** A bare key compares against the whole value: a two-element list is
      bound as a row value, which MySQL rejects when the statement runs. */
  lemma BareKeyWholeValue(db: Db, table: string, c: string, a: Value, b: Value)
    requires table in db.tables && c in db.tables[table].columns && |c| > 0 && c[0] != '_'
    requires db.fault.None?
    ensures Search(db.tables[table].columns, [(c, List([a, b]))], Verbatim) == Ok([Eq(c, List([a, b]))])
    ensures Query(db, table, Some([(c, List([a, b]))]), None, None).Err?
  {
    var columns := db.tables[table].columns;
    BareKey(columns, c, List([a, b]), Verbatim);
    SearchOne(columns, c, List([a, b]), Verbatim);
    assert BindError([Eq(c, List([a, b]))]).Some?;
  }

  /** The conditions under which the unpaged `query` runs: the table exists,
      the database answers, the filter compiles and binds, and `_order_by`
      is a string. */
  predicate UnpagedRuns(db: Db, table: string, q: Option<Dict<PyVal>>, sorter: Option<Dict<Value>>)
  {
    && table in db.tables && db.fault.None?
    && var ps := Search(db.tables[table].columns, if q.None? then [] else q.value, Verbatim);
    && ps.Ok? && BindError(ps.value).None?
    && OrderOf(db.tables[table].columns, sorter).Ok?
  }

  /** The unpaged `query` runs exactly under `UnpagedRuns`, and then returns
      every row of the table the filter accepts, ordered by the column and
      in the direction `OrderOf` picks from the sorter. */
  lemma UnpagedQueryIsSortedSelection(db: Db, table: string, q: Option<Dict<PyVal>>, sorter: Option<Dict<Value>>)
    ensures Query(db, table, q, None, sorter).Ok? <==> UnpagedRuns(db, table, q, sorter)
    ensures UnpagedRuns(db, table, q, sorter) ==>
      var t := db.tables[table];
      var o := OrderOf(t.columns, sorter).value;
      Query(db, table, q, None, sorter)
        == Ok(SortRows(Select(t.rows, Search(t.columns, if q.None? then [] else q.value, Verbatim).value), o.0, o.1))
  {
    if UnpagedRuns(db, table, q, sorter) {
      var t := db.tables[table];
      var rows := Select(t.rows, Search(t.columns, if q.None? then [] else q.value, Verbatim).value);
      var o := OrderOf(t.columns, sorter).value;
      SortRowsLength(rows, o.0, o.1);
      NoPagerKeepsAll(SortRows(rows, o.0, o.1));
    }
  }

  /** A sorter naming a column orders by it, and a falsy `_desc` sorts
      ascending. */
  lemma NamedColumnOrder(columns: seq<string>, c: string, desc: Value)
    requires c in columns
    ensures OrderOf(columns, Some([("_order_by", Str(c)), ("_desc", desc)])) == Ok((c, Truthy(desc)))
  {
    var s := [("_order_by", Str(c)), ("_desc", desc)];
    assert "_desc" != "_order_by" by { assert |"_desc"| != |"_order_by"|; }
    assert Dicts.Get(s[1..], "_desc") == Some(desc);
  }

  /** An `_order_by` that names no column sorts by `id`, as if the sorter
      had said `id`. */
  lemma UnknownOrderByIsId(db: Db, table: string, q: Option<Dict<PyVal>>, pager: Option<Dict<Value>>, s: Dict<Value>, c: string)
    requires table in db.tables && c !in db.tables[table].columns
    requires Dicts.Get(s, "_order_by") == Some(Str(c))
    ensures Query(db, table, q, pager, Some(s)) == Query(db, table, q, pager, Some(Put(s, "_order_by", Str("id"))))
  {
    UnknownColumnOrder(db.tables[table].columns, s, c);
    SameOrderSameQuery(db, table, q, pager, Some(s), Some(Put(s, "_order_by", Str("id"))));
  }

  lemma UnknownColumnOrder(columns: seq<string>, s: Dict<Value>, c: string)
    requires c !in columns && Dicts.Get(s, "_order_by") == Some(Str(c))
    ensures OrderOf(columns, Some(s)) == OrderOf(columns, Some(Put(s, "_order_by", Str("id"))))
  {
    var s' := Put(s, "_order_by", Str("id"));
    assert "_desc" != "_order_by" by { assert |"_desc"| != |"_order_by"|; }
    assert Dicts.Get(s', "_desc") == Dicts.Get(s, "_desc");
  }

  /** `query` reads the sorter only through `OrderOf`. */
  lemma SameOrderSameQuery(db: Db, table: string, q: Option<Dict<PyVal>>, pager: Option<Dict<Value>>, s1: Option<Dict<Value>>, s2: Option<Dict<Value>>)
    requires table in db.tables && OrderOf(db.tables[table].columns, s1) == OrderOf(db.tables[table].columns, s2)
    ensures Query(db, table, q, pager, s1) == Query(db, table, q, pager, s2)
  {
  }

  /** The pager `{'_page': p, '_per_page': n}` returns the slice
      `[(p-1)*n, p*n)` of the unpaged result. */
  lemma QueryPageIsSlice(db: Db, table: string, q: Option<Dict<PyVal>>, sorter: Option<Dict<Value>>, p: int, n: int)
    requires p >= 1 && n >= 1
    requires Query(db, table, q, None, sorter).Ok?
    ensures var all := Query(db, table, q, None, sorter).value;
      Query(db, table, q, Some([("_page", Int(p)), ("_per_page", Int(n))]), sorter) == Ok(Page(all, p, n))
  {
    UnpagedQueryIsSortedSelection(db, table, q, sorter);
    var t := db.tables[table];
    var o := OrderOf(t.columns, sorter).value;
    var sorted := SortRows(Select(t.rows, Search(t.columns, if q.None? then [] else q.value, Verbatim).value), o.0, o.1);
    PagerDictMatchesPager(Some(p), Some(n));
    assert [("_page", Int(p))] + [("_per_page", Int(n))] == [("_page", Int(p)), ("_per_page", Int(n))];
    PageSlice(sorted, p, n);
  }

  /** Without a sorter the rows come back by `id` descending; without a
      pager, all of them. */
  lemma DefaultOrderIsIdDesc(db: Db, table: string, q: Option<Dict<PyVal>>)
    requires table in db.tables && db.fault.None?
    requires Search(db.tables[table].columns, if q.None? then [] else q.value, Verbatim).Ok?
    requires BindError(Search(db.tables[table].columns, if q.None? then [] else q.value, Verbatim).value).None?
    ensures var t := db.tables[table];
      var rows := Select(t.rows, Search(t.columns, if q.None? then [] else q.value, Verbatim).value);
      Query(db, table, q, None, None) == Ok(SortRows(rows, "id", true))
  {
    var t := db.tables[table];
    var rows := Select(t.rows, Search(t.columns, if q.None? then [] else q.value, Verbatim).value);
    SortRowsLength(rows, "id", true);
    NoPagerKeepsAll(SortRows(rows, "id", true));
  }

  /** An integer pager dict renders the same window as the easyapi `Pager`
      with the same numbers (a missing or `None` entry being `None`). */
  lemma PagerDictMatchesPager(page: Option<int>, perPage: Option<int>)
    ensures var d := (if page.Some? then [("_page", Int(page.value))] else [])
                   + (if perPage.Some? then [("_per_page", Int(perPage.value))] else []);
      PagerWindow(Some(d)) == Ok(PageWindow(page, perPage))
  {
    var d := (if page.Some? then [("_page", Int(page.value))] else [])
           + (if perPage.Some? then [("_per_page", Int(perPage.value))] else []);
    assert Lookup(d, "_page") == (if page.Some? then Int(page.value) else Null) by {
      if page.Some? { assert d[0] == ("_page", Int(page.value)); }
      else if perPage.Some? { assert d == [("_per_page", Int(perPage.value))]; }
    }
    assert "_page" != "_per_page" by { assert |"_page"| != |"_per_page"|; }
    assert Lookup(d, "_per_page") == (if perPage.Some? then Int(perPage.value) else Null) by {
      if page.Some? && perPage.Some? {
        assert d == [("_page", Int(page.value)), ("_per_page", Int(perPage.value))];
        assert d[1..] == [("_per_page", Int(perPage.value))];
        assert Dicts.Get(d[1..], "_per_page") == Some(Int(perPage.value));
        assert Dicts.Get(d, "_per_page") == Some(Int(perPage.value));
      } else if perPage.Some? {
        assert d == [("_per_page", Int(perPage.value))];
      } else if page.Some? {
        assert d == [("_page", Int(page.value))];
      }
    }
  }

  /** Without `_like_` entries, the two compilations agree, so `count(q)` is
      the length of the unpaged `query(q)`. */
  lemma CountIsUnpagedQueryLength(db: Db, table: string, q: Dict<PyVal>, sorter: Option<Dict<Value>>)
    requires forall i :: 0 <= i < |q| ==> !StartsWith(q[i].0, "_like_")
    requires Query(db, table, Some(q), None, sorter).Ok?
    ensures Count(db, table, Some(q)) == Ok(|Query(db, table, Some(q), None, sorter).value|)
  {
    var t := db.tables[table];
    SameWithoutLike(t.columns, q);
    var rows := Select(t.rows, Search(t.columns, q, Verbatim).value);
    var order := OrderOf(t.columns, sorter).value;
    SortRowsLength(rows, order.0, order.1);
    NoPagerKeepsAll(SortRows(rows, order.0, order.1));
  }

  lemma {:induction false} SameWithoutLike(columns: seq<string>, q: Dict<PyVal>)
    requires forall i :: 0 <= i < |q| ==> !StartsWith(q[i].0, "_like_")
    ensures Search(columns, q, Verbatim) == Search(columns, q, LeadingPercent)
  {
    if |q| > 0 {
      SameWithoutLike(columns, q[1..]);
      assert CompileKey(columns, q[0].0, q[0].1, Verbatim) == CompileKey(columns, q[0].0, q[0].1, LeadingPercent);
    }
  }

  /** With a `_like_` entry the two differ: `query` matches the value as the
      whole text while `count` matches any text ending in it, so a row
      holding `xab` is counted for `{'_like_name': ['ab']}` but not returned. */
  lemma LikeQueryAndCountDiffer(columns: seq<string>, row: Row)
    requires "name" in columns && "name" in row && row["name"] == Str("xab")
    ensures var q := [("_like_name", List([Str("ab")]))];
      && Search(columns, q, Verbatim) == Ok([LikePat("name", Str("ab"))])
      && Search(columns, q, LeadingPercent) == Ok([LikePat("name", Str("%ab"))])
      && !EvalAll(Search(columns, q, Verbatim).value, row)
      && EvalAll(Search(columns, q, LeadingPercent).value, row)
  {
    LikeNameCompiles(columns);
    Like.LiteralPattern("xab", "ab");
    Like.SuffixPattern("xab", "ab");
    assert "xab"[1..] == "ab";
    EvalAllSingleton(LikePat("name", Str("ab")), row);
    EvalAllSingleton(LikePat("name", Str("%ab")), row);
  }

  /** How `{'_like_name': ['ab']}` compiles for `query` and for `count`. */
  lemma LikeNameCompiles(columns: seq<string>)
    requires "name" in columns
    ensures var q := [("_like_name", List([Str("ab")]))];
      && Search(columns, q, Verbatim) == Ok([LikePat("name", Str("ab"))])
      && Search(columns, q, LeadingPercent) == Ok([LikePat("name", Str("%ab"))])
  {
    var k := "_like_name";
    assert k[..6] == "_like_" && k[6..] == "name";
    NotPrefixAt(k, "_gt_", 1); NotPrefixAt(k, "_gte_", 1); NotPrefixAt(k, "_lt_", 2);
    NotPrefixAt(k, "_lte_", 2);
    SearchOne(columns, k, List([Str("ab")]), Verbatim);
    SearchOne(columns, k, List([Str("ab")]), LeadingPercent);
    var vs := [Str("ab")];
    assert seq(|vs|, i requires 0 <= i < |vs| => LikePat("name", vs[i])) == [LikePat("name", Str("ab"))];
    assert seq(|vs|, i requires 0 <= i < |vs| => LikePat("name", Str("%" + vs[i].s + ""))) == [LikePat("name", Str("%" + "ab" + ""))];
    assert CompileKey(columns, k, List([Str("ab")]), Verbatim) == Ok([LikePat("name", Str("ab"))]);
    assert CompileKey(columns, k, List([Str("ab")]), LeadingPercent) == Ok([LikePat("name", Str("%" + "ab" + ""))]);
    assert "%" + "ab" + "" == "%ab";
    assert [LikePat("name", Str("ab"))] + [] == [LikePat("name", Str("ab"))];
    assert [LikePat("name", Str("%ab"))] + [] == [LikePat("name", Str("%ab"))];
  }
}

=== FILE: async_esayapi_controller.dfy ===
/** async_esayapi/controller.py: the controller methods live on the
    metaclass. Unlike async_easyapi, `get`, `query`, `count` and `delete`
    let storage errors through unchanged, and `query` passes its arguments
    by keyword. `insert`, `update` and `delete` are the same code as in
    async_easyapi and are `AsyncController.Insert`, `Update` and `Delete`.
    async_esayapi/dao.py is not part of this model: the Dao is taken to be
    the async_easyapi one. */
module EsayController {
  import opened Wrappers
  import opened Values
  import opened Dicts
  import opened Errors
  import opened Preds
  import opened Executor
  import opened Storage
  import EasyController
  import AsyncDao
  import AsyncController

  /** `get(id)`: the first row of `query(query={"id": id})`, or `None`. */
  function Get(db: Db, table: string, id: int): (r: Result<Option<Row>, Exc>)
    ensures r.Ok? && r.value.Some? ==> table in db.tables && r.value.value in db.tables[table].rows
  {
    var data :- AsyncDao.Query(db, table, Some(AsyncController.IdFilter(id)), None, None);
    if |data| == 0 then Ok(None) else Ok(Some(data[0]))
  }

  /** `query(filter_dict, pager, sorter)`: every returned row is in the table
      and satisfies the compiled filter. */
  function Query(db: Db, table: string, filter: Option<Dict<PyVal>>, pager: Option<Dict<Value>>, sorter: Option<Dict<Value>>): (r: Result<seq<Row>, Exc>)
    ensures r.Ok? ==>
      && table in db.tables
      && var ps := AsyncDao.Search(db.tables[table].columns, if filter.None? then [] else filter.value, AsyncDao.Verbatim);
      && ps.Ok?
      && forall x :: x in r.value ==> x in db.tables[table].rows && EvalAll(ps.value, x)
    ensures pager.None? ==> (r.Ok? <==> AsyncDao.UnpagedRuns(db, table, filter, sorter))
    ensures pager.None? && r.Ok? ==>
      var t := db.tables[table];
      var o := AsyncDao.OrderOf(t.columns, sorter).value;
      r.value == SortRows(Select(t.rows, AsyncDao.Search(t.columns, if filter.None? then [] else filter.value, AsyncDao.Verbatim).value), o.0, o.1)
  {
    AsyncDao.UnpagedQueryIsSortedSelection(db, table, filter, sorter);
    AsyncDao.Query(db, table, filter, pager, sorter)
  }

  /** `count(query)`. */
  function Count(db: Db, table: string, query: Option<Dict<PyVal>>): (r: Result<int, Exc>)
    ensures r.Ok? ==> table in db.tables && 0 <= r.value <= |db.tables[table].rows|
  {
    AsyncDao.Count(db, table, query)
  }

  // ------------------------------------------------------------------ lemmas

  /** The two async `get`s return the same rows; async_easyapi wraps a
      storage error in a `BusinessError(500, 500, str(e))` where this one
      raises it as is. */
  lemma GetAgreesUpToMapping(db: Db, c: AsyncController.Controller, id: int)
    ensures Get(db, c.table, id).Ok? <==> AsyncController.Get(db, c, id).Ok?
    ensures Get(db, c.table, id).Ok? ==> Get(db, c.table, id) == AsyncController.Get(db, c, id)
    ensures Get(db, c.table, id).Err? ==>
      AsyncController.Get(db, c, id).error == MapStorageError(Get(db, c.table, id).error)
  {
  }

  /** A database that is down reaches the caller of this `get` as the raw
      `OperationalError`. */
  lemma OutageIsUnmapped(db: Db, table: string, id: int, msg: string)
    requires table in db.tables && db.fault == Some(OperationalError(msg))
    requires id != 0 && "id" in db.tables[table].columns
    ensures Get(db, table, id) == Err(OperationalError(msg))
    ensures AsyncController.Get(db, AsyncController.Controller(table, None), id)
         == Err(Business(BusinessError(Int(500), Int(500), Str(msg))))
  {
    AsyncController.IdFilterCompiles(db.tables[table].columns, id);
  }

  /** Here `query` and `count` see the same filter: without `_like_`
      entries and without a pager, the count is the number of rows. */
  lemma CountMatchesQuery(db: Db, table: string, filter: Dict<PyVal>, sorter: Option<Dict<Value>>)
    requires forall i :: 0 <= i < |filter| ==> !Text.StartsWith(filter[i].0, "_like_")
    requires Query(db, table, Some(filter), None, sorter).Ok?
    ensures Count(db, table, Some(filter)) == Ok(|Query(db, table, Some(filter), None, sorter).value|)
  {
    AsyncDao.CountIsUnpagedQueryLength(db, table, filter, sorter);
  }
}

=== FILE: dicts.dfy ===
/** Python dicts as insertion-ordered association lists. `Put` overwrites an
    existing key in place and appends a new one, so iteration order, `d[k] = v`
    and `{**a, **b}` behave as in CPython. */
module Dicts {
  import opened Wrappers

  type Dict<V> = seq<(string, V)>

  /** `d.get(k)`: the value of the first entry for `k`. */
  function Get<V>(d: Dict<V>, k: string): (r: Option<V>)
    ensures r.None? <==> forall i :: 0 <= i < |d| ==> d[i].0 != k
  {
    if |d| == 0 then None
    else if d[0].0 == k then Some(d[0].1)
    else Get(d[1..], k)
  }

  predicate HasKey<V>(d: Dict<V>, k: string)
  {
    Get(d, k).Some?
  }

  /** No key occurs twice, as in every real dict. */
  predicate UniqueKeys<V>(d: Dict<V>)
  {
    forall i, j :: 0 <= i < j < |d| ==> d[i].0 != d[j].0
  }

  /** `d[k] = v`. */
  function Put<V>(d: Dict<V>, k: string, v: V): (r: Dict<V>)
    ensures Get(r, k) == Some(v)
    ensures forall k' :: k' != k ==> Get(r, k') == Get(d, k')
    ensures HasKey(d, k) ==> |r| == |d|
    ensures !HasKey(d, k) ==> r == d + [(k, v)]
  {
    if |d| == 0 then [(k, v)]
    else if d[0].0 == k then [(k, v)] + d[1..]
    else [d[0]] + Put(d[1..], k, v)
  }

  /** Appending an entry adds its key and leaves the keys already there alone. */
  lemma {:induction false} GetAppend<V>(d: Dict<V>, k: string, v: V, k': string)
    ensures Get(d + [(k, v)], k') == if HasKey(d, k') then Get(d, k') else if k' == k then Some(v) else None
    decreases |d|
  {
    if |d| > 0 {
      assert (d + [(k, v)])[1..] == d[1..] + [(k, v)];
      GetAppend(d[1..], k, v, k');
    }
  }

  lemma {:induction false} PutKeepsUnique<V>(d: Dict<V>, k: string, v: V)
    requires UniqueKeys(d)
    ensures UniqueKeys(Put(d, k, v))
    decreases |d|
  {
    if |d| > 0 {
      var rest := d[1..];
      TailUnique(d);
      if d[0].0 == k {
        assert Put(d, k, v) == [(k, v)] + rest;
        ConsUnique((k, v), rest);
      } else {
        var t := Put(rest, k, v);
        assert Put(d, k, v) == [d[0]] + t;
        PutKeepsUnique(rest, k, v);
        assert Get(t, d[0].0) == Get(rest, d[0].0);
        ConsUnique(d[0], t);
      }
    }
  }

  /** The tail of a dict without repeated keys has none and lacks the head's key. */
  lemma TailUnique<V>(d: Dict<V>)
    requires UniqueKeys(d) && |d| > 0
    ensures UniqueKeys(d[1..]) && Get(d[1..], d[0].0).None?
  {
    var rest := d[1..];
    forall i, j | 0 <= i < j < |rest| ensures rest[i].0 != rest[j].0 {
      assert rest[i] == d[i + 1] && rest[j] == d[j + 1];
    }
    forall i | 0 <= i < |rest| ensures rest[i].0 != d[0].0 {
      assert rest[i] == d[i + 1];
    }
  }

  /** A new key in front of a dict without repeated keys repeats none. */
  lemma ConsUnique<V>(e: (string, V), t: Dict<V>)
    requires UniqueKeys(t) && Get(t, e.0).None?
    ensures UniqueKeys([e] + t)
  {
    var r := [e] + t;
    forall i, j | 0 <= i < j < |r| ensures r[i].0 != r[j].0 {
      assert r[j] == t[j - 1];
      if i > 0 {
        assert r[i] == t[i - 1];
      }
    }
  }

  /** `{**d, **e}`: the entries of `e` put into `d` in order. */
  function Merge<V>(d: Dict<V>, e: Dict<V>): (r: Dict<V>)
    decreases |e|
  {
    if |e| == 0 then d else Merge(Put(d, e[0].0, e[0].1), e[1..])
  }

  /** A key of the right operand wins; any other key keeps the left value. */
  lemma {:induction false} MergeGet<V>(d: Dict<V>, e: Dict<V>, k: string)
    requires UniqueKeys(e)
    ensures Get(Merge(d, e), k) == (if HasKey(e, k) then Get(e, k) else Get(d, k))
    decreases |e|
  {
    if |e| > 0 {
      MergeGet(Put(d, e[0].0, e[0].1), e[1..], k);
      if e[0].0 == k {
        assert !HasKey(e[1..], k) by {
          forall i | 0 <= i < |e[1..]| ensures e[1..][i].0 != k {
            assert e[i + 1].0 != e[0].0;
          }
        }
      }
    }
  }

  lemma {:induction false} MergeKeepsUnique<V>(d: Dict<V>, e: Dict<V>)
    requires UniqueKeys(d)
    ensures UniqueKeys(Merge(d, e))
    decreases |e|
  {
    if |e| > 0 {
      PutKeepsUnique(d, e[0].0, e[0].1);
      MergeKeepsUnique(Put(d, e[0].0, e[0].1), e[1..]);
    }
  }

  /** `Get` finds a key of a dict at some position. */
  lemma {:induction false} GetIndex<V>(d: Dict<V>, k: string) returns (i: int)
    requires Get(d, k).Some?
    ensures 0 <= i < |d| && d[i] == (k, Get(d, k).value)
  {
    if d[0].0 == k {
      i := 0;
    } else {
      var j := GetIndex(d[1..], k);
      i := j + 1;
    }
  }

}

=== FILE: easy_admin_dao.dfy ===
/** easy_admin/dao.py: the Dao metaclass and its `query`. The metaclass
    stores `db` and `tablename` on itself, not on the class it creates, so
    every Dao class reads the values of the most recently defined one. The
    filter knows the comparison and `_like_` prefixes; any other key is an
    `IN` over the whole key. */
module AdminDao {
  import opened Wrappers
  import opened Text
  import opened Values
  import opened Dicts
  import opened Errors
  import opened Preds
  import opened Executor
  import opened Storage
  import opened EasySql
  import AsyncDao
  import AdminUtil
  import EasyDao

  /** What the metaclass's `db` attribute holds: never assigned, the `None`
      a class without `__db__` leaves behind, or a database object. */
  datatype DbAttr = Unset | NoneDb | Bound

  /** The attributes `DaoMetaClass.__new__` sets on the metaclass. Both are
      unset until some Dao class other than `BaseDao` has been defined. */
  datatype Meta = Meta(db: DbAttr, tablename: Option<string>)

  const Fresh := Meta(Unset, None)

  /** A Dao class has been defined and no failed definition came after it. */
  predicate Defined(m: Meta)
  {
    m.db.Bound? && m.tablename.Some?
  }

  /** A class statement using the metaclass: its name, whether it has a
      `__db__`, and its `__tablename_` attribute (one trailing underscore). */
  datatype DaoClass = DaoClass(name: string, hasDb: bool, tablenameAttr: Option<string>)

  /** `str2hump(name[:-3])`: no plural `s`. */
  function DefaultTableName(name: string): string
  {
    AdminUtil.Str2Hump(if |name| >= 3 then name[..|name| - 3] else "")
  }

  /** `DaoMetaClass.__new__`: the metaclass state afterwards and the
      exception raised, if any. `db` is assigned before it is tested, so a
      class without `__db__` leaves `None` behind. */
  function Define(m: Meta, c: DaoClass): (r: (Meta, Option<Exc>))
    ensures c.name == "BaseDao" ==> r == (m, None)
    ensures c.name != "BaseDao" && !c.hasDb ==>
      && r.0 == m.(db := NoneDb)
      && r.1.Some? && r.1.value.NotImplementedError?
    ensures c.name != "BaseDao" && c.hasDb ==> r.1.None? && Defined(r.0)
  {
    if c.name == "BaseDao" then (m, None)
    else if !c.hasDb then (m.(db := NoneDb), Some(NotImplementedError("Should have __db__ value.")))
    else
      var attr := c.tablenameAttr;
      (Meta(Bound, Some(if attr.Some? && |attr.value| > 0 then attr.value else DefaultTableName(c.name))), None)
  }

  /** A module defining Dao classes one after another, stopping at the first
      that raises. */
  function DefineAll(m: Meta, cs: seq<DaoClass>): (r: (Meta, Option<Exc>))
    ensures r.1.None? <==> forall i :: 0 <= i < |cs| ==> cs[i].name == "BaseDao" || cs[i].hasDb
    ensures r.1.None? && Defined(m) ==> Defined(r.0)
    ensures r.1.Some? ==> r.0.db == NoneDb
    decreases |cs|
  {
    if |cs| == 0 then (m, None)
    else
      var (m', e) := Define(m, cs[0]);
      if e.Some? then (m', e) else DefineAll(m', cs[1..])
  }

  /** `cls.db[cls.tablename]`, the first line of `query`. An attribute the
      metaclass never set falls through to `DaoMetaClass.__getattr__`, whose
      own lookup of `__mappings__` falls through to it again without end;
      `db` is looked up before `tablename`. A `db` of `None` left by a
      failed definition cannot be subscripted. */
  function TableOf(m: Meta): (r: Result<string, Exc>)
    ensures r.Ok? <==> Defined(m)
    ensures r.Ok? ==> m.tablename == Some(r.value)
    ensures r.Err? && m.db.NoneDb? && m.tablename.Some? ==> r.error.TypeError?
    ensures r.Err? && (m.db.Unset? || m.tablename.None?) ==> r.error == RecursionError
  {
    match m.db
    case Unset => Err(RecursionError)
    case NoneDb => if m.tablename.None? then Err(RecursionError) else Err(TypeError("'NoneType' object is not subscriptable"))
    case Bound => if m.tablename.None? then Err(RecursionError) else Ok(m.tablename.value)
  }

  /** What one entry of the filter contributes. */
  function CompileKey(columns: seq<string>, k: string, pv: PyVal): (r: Result<seq<Pred>, Exc>)
    ensures !PyTruthy(pv) ==> r == Ok([])
    ensures r.Ok? ==> OnColumns(r.value, columns)
    ensures r.Err? ==> r.error.AttributeError? || r.error.TypeError?
  {
    if !PyTruthy(pv) then Ok([])
    else if StartsWith(k, "_gt_") then var vs :- AsyncDao.IterValues(pv); EachCmp(columns, k[4..], vs, Gt)
    else if StartsWith(k, "_gte_") then var vs :- AsyncDao.IterValues(pv); EachCmp(columns, k[5..], vs, Gte)
    else if StartsWith(k, "_lt_") then var vs :- AsyncDao.IterValues(pv); EachCmp(columns, k[4..], vs, Lt)
    else if StartsWith(k, "_lte_") then var vs :- AsyncDao.IterValues(pv); EachCmp(columns, k[5..], vs, Lte)
    else if StartsWith(k, "_like_") then var vs :- AsyncDao.IterValues(pv); AsyncDao.EachLikeVerbatim(columns, k[6..], vs)
    else if k !in columns then Err(AttributeError(k))
    else var vs :- AsyncDao.IterValues(pv); Ok([In(k, vs)])
  }

  function Search(columns: seq<string>, q: Dict<PyVal>): (r: Result<seq<Pred>, Exc>)
    ensures r.Ok? ==> OnColumns(r.value, columns)
  {
    CompileAllOnColumns(q, (k, pv) => CompileKey(columns, k, pv), columns);
    CompileAll(q, (k, pv) => CompileKey(columns, k, pv))
  }

  /** `query(query, pager, sorter)` as called on any Dao class; rows are
      returned as fetched. */
  function Query(db: Db, m: Meta, q: Option<Dict<PyVal>>, pager: Option<Dict<Value>>, sorter: Option<Dict<Value>>): (r: Result<seq<Row>, Exc>)
    ensures r.Ok? ==>
      && Defined(m) && m.tablename.value in db.tables
      && forall x :: x in r.value ==> x in db.tables[m.tablename.value].rows
    ensures r.Ok? ==>
      && var ps := Search(db.tables[m.tablename.value].columns, if q.None? then [] else q.value);
      && ps.Ok?
      && forall x :: x in r.value ==> EvalAll(ps.value, x)
  {
    var name :- TableOf(m);
    var t :- LookupTable(db, name);
    var ps :- Search(t.columns, if q.None? then [] else q.value);
    var w :- if pager.None? || |pager.value| == 0 then Ok(FullWindow) else AsyncDao.PagerWindow(pager);
    var order :- AsyncDao.OrderOf(t.columns, sorter);
    var rows :- RunSelect(db, t, ps);
    AsyncDao.SortedPage(rows, order.0, order.1, w)
  }

  // ------------------------------------------------------------------ lemmas

  /** A key not starting with `_` is an `IN` over its values. */
  lemma BareKeyIsIn(columns: seq<string>, k: string, vs: seq<Value>)
    requires |k| > 0 && k[0] != '_' && k in columns && |vs| > 0
    ensures CompileKey(columns, k, List(vs)) == Ok([In(k, vs)])
  {
    AsyncDao.NotPrefixAt(k, "_gt_", 0); AsyncDao.NotPrefixAt(k, "_gte_", 0); AsyncDao.NotPrefixAt(k, "_lt_", 0);
    AsyncDao.NotPrefixAt(k, "_lte_", 0); AsyncDao.NotPrefixAt(k, "_like_", 0);
  }

  /** `{k: [v1, ..., vn]}` keeps exactly the rows whose `k` equals one of the
      values, in contrast to easyapi's `k = v1`. */
  lemma ListFilterIsMembership(db: Db, m: Meta, k: string, vs: seq<Value>)
    requires Defined(m) && m.tablename.value in db.tables && db.fault.None?
    requires var t := db.tables[m.tablename.value]; k in t.columns && |k| > 0 && k[0] != '_'
    requires |vs| > 0
    ensures var t := db.tables[m.tablename.value];
      Query(db, m, Some([(k, List(vs))]), None, None)
        == Ok(SortRows(Select(t.rows, [In(k, vs)]), "id", true))
    ensures var t := db.tables[m.tablename.value];
      forall row :: row in t.rows ==>
        (row in Select(t.rows, [In(k, vs)]) <==> exists i :: 0 <= i < |vs| && SqlEquals(Field(row, k), vs[i]))
  {
    var t := db.tables[m.tablename.value];
    BareKeyIsIn(t.columns, k, vs);
    var q := [(k, List(vs))];
    var f := (k', pv') => CompileKey(t.columns, k', pv');
    assert q[0] == (k, List(vs)) && q[1..] == [];
    assert CompileAll(q[1..], f) == Ok([]);
    assert [In(k, vs)] + [] == [In(k, vs)];
    assert Search(t.columns, q) == Ok([In(k, vs)]);
    var rows := Select(t.rows, [In(k, vs)]);
    SortRowsLength(rows, "id", true);
    NoPagerKeepsAll(SortRows(rows, "id", true));
    forall row | row in t.rows
      ensures row in rows <==> exists i :: 0 <= i < |vs| && SqlEquals(Field(row, k), vs[i])
    {
      EvalAllSingleton(In(k, vs), row);
    }
  }

  /** Every Dao class shares the last definition: after `UserDao` and then
      `BookDao`, a query on `UserDao` reads the table `Book`. */
  lemma {:induction false} LastDefinitionWins(cs: seq<DaoClass>, m: Meta)
    requires |cs| > 0 && forall i :: 0 <= i < |cs| ==> cs[i].hasDb && cs[i].name != "BaseDao"
    ensures DefineAll(m, cs).1.None?
    ensures DefineAll(m, cs) == Define(m, cs[|cs| - 1])
  {
    if |cs| > 1 {
      LastDefinitionWins(cs[1..], Define(m, cs[0]).0);
      assert cs[1..][|cs[1..]| - 1] == cs[|cs| - 1];
    }
  }

  lemma SharedTableExample(user: string, book: string)
    requires user == "UserDao" && book == "BookDao"
    ensures DefineAll(Fresh, [DaoClass(user, true, None), DaoClass(book, true, None)])
         == (Meta(Bound, Some("Book")), None)
  {
    LastDefinitionWins([DaoClass(user, true, None), DaoClass(book, true, None)], Fresh);
    assert book[..|book| - 3] == "Book";
    BookTable("Book");
  }

  /** Before any Dao class other than `BaseDao` exists, `query` recurses
      through `__getattr__` and raises RecursionError, whatever its
      arguments. */
  lemma QueryBeforeAnyDao(db: Db, q: Option<Dict<PyVal>>, pager: Option<Dict<Value>>, sorter: Option<Dict<Value>>)
    ensures Query(db, Fresh, q, pager, sorter) == Err(RecursionError)
  {
  }

  /** A definition that raises for lack of `__db__`, once caught, leaves
      `db` at `None`: `query` then fails on `None[tablename]` even though an
      earlier Dao was defined, and only a later good definition repairs it. */
  lemma CaughtFailureBreaksQuery(m: Meta, good: DaoClass, bad: DaoClass)
    requires good.name != "BaseDao" && good.hasDb
    requires bad.name != "BaseDao" && !bad.hasDb
    ensures var after := Define(Define(m, good).0, bad).0;
      && TableOf(after).Err? && TableOf(after).error.TypeError?
      && TableOf(Define(after, good).0) == TableOf(Define(m, good).0)
  {
  }

  lemma BookTable(s: string)
    requires s == "Book"
    ensures AdminUtil.Str2Hump(s) == "Book"
  {
    assert Lower(s) == "book" by {
      forall i | 0 <= i < |s| ensures Lower(s)[i] == "book"[i] { }
    }
    var w := "book";
    assert '_' !in w;
    AdminUtil.SplitWord(w);
    assert AdminUtil.NonEmpty([w]) == [w];
    assert AdminUtil.Capitalized([w]) == [ToUpper('b')] + "ook" + "";
  }

  /** An empty pager dict is no pager, and without a sorter the order is
      `id` descending. */
  lemma DefaultsAreEverythingByIdDesc(db: Db, m: Meta, pager: Option<Dict<Value>>)
    requires Defined(m) && m.tablename.value in db.tables && db.fault.None?
    requires pager.None? || |pager.value| == 0
    ensures Query(db, m, None, pager, None) == Ok(SortRows(db.tables[m.tablename.value].rows, "id", true))
  {
    var t := db.tables[m.tablename.value];
    assert Search(t.columns, []) == Ok([]);
    EasyDao.SelectAll(t.rows);
    SortRowsLength(t.rows, "id", true);
    NoPagerKeepsAll(SortRows(t.rows, "id", true));
  }

  /** `default_url_condition` files `_desc` under `'order'`, which `query`
      never reads: a sorter with the keys it builds always sorts descending,
      whatever `_desc` was. */
  lemma UrlDescIsIgnored(columns: seq<string>, args: Dict<PyVal>, sorter: Dict<Value>)
    requires UniqueKeys(args)
    requires |sorter| == |AdminUtil.Conditions(args).sorter|
    requires forall i :: 0 <= i < |sorter| ==> sorter[i].0 == AdminUtil.Conditions(args).sorter[i].0
    ensures AsyncDao.OrderOf(columns, Some(sorter)).Ok? ==> AsyncDao.OrderOf(columns, Some(sorter)).value.1
  {
    AdminUtil.ConditionsGet(args, "_desc");
    var built := AdminUtil.Conditions(args).sorter;
    assert forall i :: 0 <= i < |built| ==> built[i].0 != "_desc";
    assert !HasKey(sorter, "_desc");
  }

  /** The conditions under which the unpaged `query` runs: some Dao has
      been defined, its table exists, the database answers, the filter
      compiles and binds, and `_order_by` is a string. */
  predicate UnpagedRuns(db: Db, m: Meta, q: Option<Dict<PyVal>>, sorter: Option<Dict<Value>>)
  {
    && Defined(m) && m.tablename.value in db.tables && db.fault.None?
    && var t := db.tables[m.tablename.value];
    && var ps := Search(t.columns, if q.None? then [] else q.value);
    && ps.Ok? && BindError(ps.value).None?
    && AsyncDao.OrderOf(t.columns, sorter).Ok?
  }

  /** The unpaged `query` runs exactly under `UnpagedRuns`, and then returns
      every row of the table the filter accepts, ordered by the column and
      in the direction the sorter picks. */
  lemma UnpagedQueryIsSortedSelection(db: Db, m: Meta, q: Option<Dict<PyVal>>, sorter: Option<Dict<Value>>)
    ensures Query(db, m, q, None, sorter).Ok? <==> UnpagedRuns(db, m, q, sorter)
    ensures UnpagedRuns(db, m, q, sorter) ==>
      var t := db.tables[m.tablename.value];
      var o := AsyncDao.OrderOf(t.columns, sorter).value;
      Query(db, m, q, None, sorter)
        == Ok(SortRows(Select(t.rows, Search(t.columns, if q.None? then [] else q.value).value), o.0, o.1))
  {
    if UnpagedRuns(db, m, q, sorter) {
      var t := db.tables[m.tablename.value];
      var rows := Select(t.rows, Search(t.columns, if q.None? then [] else q.value).value);
      var o := AsyncDao.OrderOf(t.columns, sorter).value;
      SortRowsLength(rows, o.0, o.1);
      NoPagerKeepsAll(SortRows(rows, o.0, o.1));
    }
  }

  /** The pager `{'_page': p, '_per_page': n}` returns the slice
      `[(p-1)*n, p*n)` of the unpaged result. */
  lemma QueryPageIsSlice(db: Db, m: Meta, q: Option<Dict<PyVal>>, sorter: Option<Dict<Value>>, p: int, n: int)
    requires p >= 1 && n >= 1
    requires Query(db, m, q, None, sorter).Ok?
    ensures var all := Query(db, m, q, None, sorter).value;
      Query(db, m, q, Some([("_page", Int(p)), ("_per_page", Int(n))]), sorter) == Ok(Page(all, p, n))
  {
    UnpagedQueryIsSortedSelection(db, m, q, sorter);
    var t := db.tables[m.tablename.value];
    var o := AsyncDao.OrderOf(t.columns, sorter).value;
    var sorted := SortRows(Select(t.rows, Search(t.columns, if q.None? then [] else q.value).value), o.0, o.1);
    AsyncDao.PagerDictMatchesPager(Some(p), Some(n));
    assert [("_page", Int(p))] + [("_per_page", Int(n))] == [("_page", Int(p)), ("_per_page", Int(n))];
    PageSlice(sorted, p, n);
  }

  /** An `_order_by` that names no column sorts by `id`, as if the sorter
      had said `id`. */
  lemma UnknownOrderByIsId(db: Db, m: Meta, q: Option<Dict<PyVal>>, pager: Option<Dict<Value>>, s: Dict<Value>, c: string)
    requires Defined(m) && m.tablename.value in db.tables
    requires c !in db.tables[m.tablename.value].columns
    requires Dicts.Get(s, "_order_by") == Some(Str(c))
    ensures Query(db, m, q, pager, Some(s)) == Query(db, m, q, pager, Some(Put(s, "_order_by", Str("id"))))
  {
    AsyncDao.UnknownColumnOrder(db.tables[m.tablename.value].columns, s, c);
    SameOrderSameQuery(db, m, q, pager, Some(s), Some(Put(s, "_order_by", Str("id"))));
  }

  /** `query` reads the sorter only through `OrderOf`. */
  lemma SameOrderSameQuery(db: Db, m: Meta, q: Option<Dict<PyVal>>, pager: Option<Dict<Value>>, s1: Option<Dict<Value>>, s2: Option<Dict<Value>>)
    requires Defined(m) && m.tablename.value in db.tables
    requires var cs := db.tables[m.tablename.value].columns; AsyncDao.OrderOf(cs, s1) == AsyncDao.OrderOf(cs, s2)
    ensures Query(db, m, q, pager, s1) == Query(db, m, q, pager, s2)
  {
  }
}

=== FILE: easy_admin_util.dfy ===
/** easy_admin/util.py: `str2hump`, which turns a snake_case name into
    CamelCase, and `default_url_condition`, which splits URL arguments into
    the query, pager and sorter dicts. */
module AdminUtil {
  import opened Wrappers
  import opened Text
  import opened Values
  import opened Dicts
  import Tools

  // ------------------------------------------------------------- str2hump

  /** `s.split('_')`: always one more piece than there are separators. */
  function Split(s: string): (r: seq<string>)
    ensures |r| == Occurrences(s, '_') + 1
    ensures forall i :: 0 <= i < |r| ==> '_' !in r[i]
  {
    if |s| == 0 then [""]
    else
      var rest := Split(s[1..]);
      if s[0] == '_' then [""] + rest
      else [[s[0]] + rest[0]] + rest[1..]
  }

  /** `filter(None, pieces)`: the non-empty pieces, in order. */
  function NonEmpty(pieces: seq<string>): (r: seq<string>)
    ensures forall i :: 0 <= i < |r| ==> |r[i]| > 0
    ensures forall i :: 0 <= i < |r| ==> r[i] in pieces
  {
    if |pieces| == 0 then []
    else if |pieces[0]| == 0 then NonEmpty(pieces[1..])
    else [pieces[0]] + NonEmpty(pieces[1..])
  }

  /** The pieces concatenated. */
  function Concat(pieces: seq<string>): string
  {
    if |pieces| == 0 then "" else pieces[0] + Concat(pieces[1..])
  }

  /** `res = res + i[0].upper() + i[1:]` over the pieces. */
  function Capitalized(pieces: seq<string>): string
    requires forall i :: 0 <= i < |pieces| ==> |pieces[i]| > 0
  {
    if |pieces| == 0 then ""
    else [ToUpper(pieces[0][0])] + pieces[0][1..] + Capitalized(pieces[1..])
  }

  /** `str2hump(text)`. */
  function Str2Hump(text: string): string
  {
    Capitalized(NonEmpty(Split(Lower(text))))
  }

  lemma {:induction false} ConcatSplit(s: string)
    ensures Concat(Split(s)) == Drop(s, '_')
  {
    if |s| > 0 {
      ConcatSplit(s[1..]);
      var rest := Split(s[1..]);
      if s[0] != '_' {
        assert Split(s) == [[s[0]] + rest[0]] + rest[1..];
        assert Concat(rest) == rest[0] + Concat(rest[1..]);
        assert Concat(Split(s)) == [s[0]] + rest[0] + Concat(rest[1..]);
      } else {
        assert Split(s) == [""] + rest;
        assert Concat(Split(s)) == "" + Concat(rest);
      }
    }
  }

  lemma {:induction false} ConcatNonEmpty(pieces: seq<string>)
    ensures Concat(NonEmpty(pieces)) == Concat(pieces)
  {
    if |pieces| > 0 {
      ConcatNonEmpty(pieces[1..]);
      if |pieces[0]| == 0 {
        assert Concat(pieces) == "" + Concat(pieces[1..]);
      } else {
        assert NonEmpty(pieces) == [pieces[0]] + NonEmpty(pieces[1..]);
        assert ([pieces[0]] + NonEmpty(pieces[1..]))[1..] == NonEmpty(pieces[1..]);
      }
    }
  }

  /** Lower-casing a capitalised word undoes the capital when the word had
      no capitals to begin with. */
  lemma {:induction false} LowerCapitalized(pieces: seq<string>)
    requires forall i :: 0 <= i < |pieces| ==> |pieces[i]| > 0
    requires forall i, j :: 0 <= i < |pieces| && 0 <= j < |pieces[i]| ==> !IsUpper(pieces[i][j])
    ensures Lower(Capitalized(pieces)) == Concat(pieces)
  {
    if |pieces| > 0 {
      var p := pieces[0];
      LowerCapitalized(pieces[1..]);
      LowerAppend([ToUpper(p[0])] + p[1..], Capitalized(pieces[1..]));
      LowerAppend([ToUpper(p[0])], p[1..]);
      assert Lower([ToUpper(p[0])]) == [p[0]];
      assert Lower(p[1..]) == p[1..] by {
        forall j | 0 <= j < |p[1..]| ensures Lower(p[1..])[j] == p[1..][j] {
          assert !IsUpper(pieces[0][j + 1]);
        }
      }
      assert [p[0]] + p[1..] == p;
    }
  }

  /** The pieces of a lower-cased text hold no capitals. */
  lemma NoUpperInPieces(s: string, pieces: seq<string>, i: int, j: int)
    requires forall k :: 0 <= k < |s| ==> !IsUpper(s[k])
    requires pieces == NonEmpty(Split(s))
    requires 0 <= i < |pieces| && 0 <= j < |pieces[i]|
    ensures !IsUpper(pieces[i][j])
  {
    SplitCharsFrom(s, pieces[i], j);
  }

  lemma {:induction false} SplitCharsFrom(s: string, piece: string, j: int)
    requires piece in Split(s) && 0 <= j < |piece|
    ensures piece[j] in s
  {
    if |s| > 0 {
      var rest := Split(s[1..]);
      if s[0] == '_' {
        assert piece == "" || piece in rest;
        if piece != "" { SplitCharsFrom(s[1..], piece, j); assert s[1..] <= s[1..]; assert piece[j] in s[1..]; }
      } else {
        assert Split(s) == [[s[0]] + rest[0]] + rest[1..];
        if piece == [s[0]] + rest[0] {
          if j > 0 { SplitCharsFrom(s[1..], rest[0], j - 1); assert piece[j] == rest[0][j - 1]; }
        } else {
          assert piece in rest;
          SplitCharsFrom(s[1..], piece, j);
        }
      }
    }
  }

  /** `str2hump` only drops underscores and changes case: lower-casing its
      result gives the lower-cased text without its underscores. So the result
      holds no `_` and is as long as the text less its underscores. */
  lemma Str2HumpLowersToText(text: string)
    ensures Lower(Str2Hump(text)) == Drop(Lower(text), '_')
    ensures '_' !in Str2Hump(text)
    ensures |Str2Hump(text)| == |text| - Occurrences(Lower(text), '_')
  {
    var s := Lower(text);
    var pieces := NonEmpty(Split(s));
    forall i, j | 0 <= i < |pieces| && 0 <= j < |pieces[i]| ensures !IsUpper(pieces[i][j]) {
      NoUpperInPieces(s, pieces, i, j);
    }
    LowerCapitalized(pieces);
    ConcatNonEmpty(Split(s));
    ConcatSplit(s);
    DropLength(s, '_');
  }

  /** A word without `_` is one piece. */
  lemma {:induction false} SplitWord(w: string)
    requires '_' !in w
    ensures Split(w) == [w]
  {
    if |w| > 0 {
      SplitWord(w[1..]);
      assert [w[0]] + w[1..] == w;
    }
  }

  /** A word followed by `_` is a piece of its own. */
  lemma {:induction false} SplitJoin(w: string, rest: string)
    requires '_' !in w
    ensures Split(w + "_" + rest) == [w] + Split(rest)
  {
    var s := w + "_" + rest;
    if |w| == 0 {
      assert s[0] == '_' && s[1..] == rest;
    } else {
      SplitJoin(w[1..], rest);
      assert s[0] == w[0] && s[1..] == w[1..] + "_" + rest;
      assert [w[0]] + w[1..] == w;
    }
  }

  /** Each piece starts with a capital when it starts with a letter:
      `str2hump('user') == 'User'`, `str2hump('complex_user') == 'ComplexUser'`. */
  lemma UserExample(s: string)
    requires s == "user"
    ensures Str2Hump(s) == "User"
  {
    assert Lower(s) == "user";
    SplitWord("user");
    assert NonEmpty(["user"]) == ["user"];
    assert Capitalized(["user"]) == "User";
  }

  lemma ComplexUserExample(s: string)
    requires s == "Complex_User"
    ensures Str2Hump(s) == "ComplexUser"
  {
    Tools.LowerComplexUser(s);
    CamelOfComplexUser("complex_user");
  }

  lemma CamelOfComplexUser(s: string)
    requires s == "complex_user"
    ensures Capitalized(NonEmpty(Split(s))) == "ComplexUser"
  {
    SplitComplexUser(s);
    var pieces := ["complex", "user"];
    assert NonEmpty(pieces[1..]) == ["user"];
    assert NonEmpty(pieces) == pieces;
    CapitalizedComplexUser(pieces);
  }

  lemma SplitComplexUser(s: string)
    requires s == "complex_user"
    ensures Split(s) == ["complex", "user"]
  {
    var w1, w2 := "complex", "user";
    assert '_' !in w1 && '_' !in w2;
    SplitWord(w2);
    SplitJoin(w1, w2);
    assert w1 + "_" + w2 == s;
  }

  lemma CapitalizedComplexUser(pieces: seq<string>)
    requires pieces == ["complex", "user"]
    ensures Capitalized(pieces) == "ComplexUser"
  {
    assert pieces[1..] == ["user"] && pieces[1..][1..] == [];
    assert Capitalized(["user"]) == [ToUpper('u')] + "ser" + "";
    assert ToUpper('u') == 'U' && ToUpper('c') == 'C';
  }

  // -------------------------------------------------- default_url_condition

  /** The three dicts the URL arguments are split into. */
  datatype Condition = Condition(query: Dict<PyVal>, pager: Dict<PyVal>, sorter: Dict<PyVal>)

  /** `query[k] = v if isinstance(v, list) else [v]`. */
  function AsList(v: PyVal): (r: PyVal)
    ensures r.List?
    ensures v.List? ==> r == v
    ensures v.Scalar? ==> r.items == [v.v]
  {
    if v.List? then v else List([v.v])
  }

  /** The loop of `default_url_condition` over its arguments: `_desc` is
      filed in the sorter under the key `'order'`. */
  function Conditions(args: Dict<PyVal>): Condition
  {
    if |args| == 0 then Condition([], [], [])
    else
      var c := Conditions(args[..|args| - 1]);
      var (k, v) := args[|args| - 1];
      if k == "_per_page" then c.(pager := Put(c.pager, "_per_page", v))
      else if k == "_page" then c.(pager := Put(c.pager, "_page", v))
      else if k == "_order_by" then c.(sorter := Put(c.sorter, "_order_by", v))
      else if k == "_desc" then c.(sorter := Put(c.sorter, "order", v))
      else c.(query := Put(c.query, k, AsList(v)))
  }

  /** `default_url_condition(args)`: `None` and `{}` give three empty dicts. */
  function DefaultUrlCondition(args: Option<Dict<PyVal>>): (r: Condition)
    ensures args.None? || |args.value| == 0 ==> r == Condition([], [], [])
  {
    if args.None? || |args.value| == 0 then Condition([], [], []) else Conditions(args.value)
  }

  /** Where an argument ends up: its key in the sorter, renamed for `_desc`. */
  function SorterKey(k: string): Option<string>
  {
    if k == "_order_by" then Some("_order_by") else if k == "_desc" then Some("order") else None
  }

  predicate IsPagerKey(k: string) { k == "_per_page" || k == "_page" }

  /** Every query entry is the argument of the same key, as a list; the
      pager holds `_per_page` and `_page` as given; the sorter holds
      `_order_by` as given and `_desc` under `'order'`, so it never has a
      `_desc` key. */
  lemma ConditionsGet(args: Dict<PyVal>, k: string)
    requires UniqueKeys(args)
    ensures var c := Conditions(args);
      && Get(c.query, k) == (if IsPagerKey(k) || SorterKey(k).Some? || Get(args, k).None? then None
                             else Some(AsList(Get(args, k).value)))
      && Get(c.pager, k) == (if IsPagerKey(k) then Get(args, k) else None)
      && Get(c.sorter, "_order_by") == Get(args, "_order_by")
      && Get(c.sorter, "order") == Get(args, "_desc")
      && !HasKey(c.sorter, "_desc")
  {
    ConditionsQuery(args, k);
    ConditionsPager(args, k);
    ConditionsSorterGet(args, "_order_by");
    ConditionsSorterGet(args, "_desc");
    ConditionsSorterNoDesc(args);
  }

  /** Dropping the last entry of a dict without repeated keys leaves one
      without repeated keys that lacks the last key. */
  lemma DropLast(args: Dict<PyVal>)
    requires UniqueKeys(args) && |args| > 0
    ensures var init := args[..|args| - 1];
      && args == init + [args[|args| - 1]]
      && UniqueKeys(init) && !HasKey(init, args[|args| - 1].0)
  {
    var init := args[..|args| - 1];
    var k0 := args[|args| - 1].0;
    assert args == init + [args[|args| - 1]];
    assert UniqueKeys(init) by {
      forall i, j | 0 <= i < j < |init| ensures init[i].0 != init[j].0 {
        assert init[i] == args[i] && init[j] == args[j];
      }
    }
    assert !HasKey(init, k0) by {
      forall i | 0 <= i < |init| ensures init[i].0 != k0 {
        assert init[i] == args[i];
      }
    }
  }

  lemma {:induction false} ConditionsQuery(args: Dict<PyVal>, k: string)
    requires UniqueKeys(args)
    ensures Get(Conditions(args).query, k)
         == (if IsPagerKey(k) || SorterKey(k).Some? || Get(args, k).None? then None
             else Some(AsList(Get(args, k).value)))
  {
    if |args| > 0 {
      var init := args[..|args| - 1];
      var (k0, v0) := args[|args| - 1];
      DropLast(args);
      ConditionsQuery(init, k);
      GetAppend(init, k0, v0, k);
    }
  }

  lemma {:induction false} ConditionsPager(args: Dict<PyVal>, k: string)
    requires UniqueKeys(args)
    ensures Get(Conditions(args).pager, k) == (if IsPagerKey(k) then Get(args, k) else None)
  {
    if |args| > 0 {
      var init := args[..|args| - 1];
      var (k0, v0) := args[|args| - 1];
      DropLast(args);
      ConditionsPager(init, k);
      GetAppend(init, k0, v0, k);
    }
  }

  /** `_order_by` and `_desc` land in the sorter under their sorter keys. */
  lemma {:induction false} ConditionsSorterGet(args: Dict<PyVal>, k: string)
    requires UniqueKeys(args) && SorterKey(k).Some?
    ensures Get(Conditions(args).sorter, SorterKey(k).value) == Get(args, k)
  {
    if |args| > 0 {
      var init := args[..|args| - 1];
      var (k0, v0) := args[|args| - 1];
      DropLast(args);
      ConditionsSorterGet(init, k);
      GetAppend(init, k0, v0, k);
      var before := Conditions(init).sorter;
      var after := Conditions(args).sorter;
      if SorterKey(k0).Some? {
        assert after == Put(before, SorterKey(k0).value, v0);
      } else {
        assert after == before;
      }
    }
  }

  /** The sorter never has a `_desc` key. */
  lemma {:induction false} ConditionsSorterNoDesc(args: Dict<PyVal>)
    ensures !HasKey(Conditions(args).sorter, "_desc")
  {
    if |args| > 0 {
      var init := args[..|args| - 1];
      ConditionsSorterNoDesc(init);
      var k0 := args[|args| - 1].0;
      var before := Conditions(init).sorter;
      var after := Conditions(args).sorter;
      if SorterKey(k0).Some? {
        assert after == Put(before, SorterKey(k0).value, args[|args| - 1].1);
      } else {
        assert after == before;
      }
    }
  }
}

=== FILE: easyapi_context.dfy ===
/** easyapi/context.py: `EasyApiContext`, the per-request key/value store
    that also carries the transaction it was created with. The `formatter`
    and `reformatter` attributes it initialises to `None` are never read by
    the engine and are not modelled. */
module ApiContext {
  import opened Wrappers

  /** `_tx` is set once by the constructor; `_data` is the store. */
  datatype Context<T, V> = Context(tx: Option<T>, data: map<string, V>)

  /** `EasyApiContext(tx)`: nothing is stored yet. */
  function NewContext<T, V>(tx: Option<T>): (c: Context<T, V>)
    ensures c.tx == tx
    ensures forall k :: Read(c, k) == None
  {
    Context(tx, map[])
  }

  /** `ctx.read(key)`, i.e. `_data.get(key)`. */
  function Read<T, V>(c: Context<T, V>, k: string): Option<V>
  {
    if k in c.data then Some(c.data[k]) else None
  }

  /** `ctx.set(key, value)`: binds `key`, keeps every other binding and the
      transaction. */
  function Set<T, V>(c: Context<T, V>, k: string, v: V): (r: Context<T, V>)
    ensures r.tx == c.tx
    ensures Read(r, k) == Some(v)
    ensures forall k' :: k' != k ==> Read(r, k') == Read(c, k')
  {
    Context(c.tx, c.data[k := v])
  }

  /** A later `set` of the same key wins; setting other keys in between does
      not disturb it; the transaction is the constructor's throughout. */
  lemma {:induction false} ReadLastSet<T, V>(tx: Option<T>, sets: seq<(string, V)>, k: string)
    ensures var c := SetAll(NewContext(tx), sets);
      && c.tx == tx
      && Read(c, k) == LastFor(sets, k)
  {
    if |sets| > 0 {
      var init := sets[..|sets| - 1];
      ReadLastSet(tx, init, k);
    }
  }

  /** The context after a sequence of `set` calls. */
  function SetAll<T, V>(c: Context<T, V>, sets: seq<(string, V)>): Context<T, V>
  {
    if |sets| == 0 then c else Set(SetAll(c, sets[..|sets| - 1]), sets[|sets| - 1].0, sets[|sets| - 1].1)
  }

  /** The value of the last `set` of `k`, read independently of the store. */
  function LastFor<V>(sets: seq<(string, V)>, k: string): (r: Option<V>)
    ensures r.None? <==> forall i :: 0 <= i < |sets| ==> sets[i].0 != k
    ensures r.Some? ==> exists i :: 0 <= i < |sets| && sets[i] == (k, r.value)
                          && forall j :: i < j < |sets| ==> sets[j].0 != k
  {
    if |sets| == 0 then None
    else if sets[|sets| - 1].0 == k then Some(sets[|sets| - 1].1)
    else LastFor(sets[..|sets| - 1], k)
  }
}

=== FILE: easyapi_controller.dfy ===
/** easyapi/controller.py: `BaseController.get/query/insert/update/delete`.
    A controller class is reduced to its Dao and its validator; the context's
    `query` entry narrows `get`, `update` and `delete`; validation failures
    and the three SQLAlchemy storage errors become `BusinessError`s. */
module EasyController {
  import opened Wrappers
  import opened Values
  import opened Dicts
  import opened Errors
  import opened Preds
  import opened Executor
  import opened Storage
  import opened EasySql
  import opened Tools
  import opened EasyDao
  import opened ApiContext
  import Transactions

  /** `__validator__.validate(data)`: the error it reports, if any. */
  type Validator = Dict<Value> -> Option<Value>

  /** The class attributes the controller reads. `validator` is what
      `cls.__validator__` finds: the class's own attribute when it declares
      one, otherwise the metaclass attribute, i.e. that of the most recently
      defined controller. */
  datatype Controller = Controller(dao: Dao, validator: Option<Validator>)

  /** What a request context may hold: a mapping (the `query` entry is one)
      or another Python value; `Other(Null)` is `None`. */
  datatype CtxVal = Mapping(d: Dict<PyVal>) | Other(v: Value)

  type Ctx = Context<Transactions.Tx, CtxVal>

  /** `ctx.read('query')`, a missing context being a fresh `EasyApiContext()`. */
  function CtxQuery(ctx: Option<Ctx>): Option<CtxVal>
  {
    if ctx.None? then None else Read(ctx.value, "query")
  }

  /** `{"id": id, **query}` after `if query is None: query = {}`. */
  function WhereFor(id: int, q: Option<CtxVal>): (r: Result<Dict<PyVal>, Exc>)
    ensures r.Err? <==> q.Some? && q.value.Other? && q.value.v != Null
    ensures r.Ok? ==> |r.value| > 0 && r.value[0].0 == "id"
  {
    var base := [("id", Scalar(Int(id)))];
    if q.None? || q.value == Other(Null) then Ok(base)
    else if q.value.Mapping? then
      MergeKeepsFirst(base, q.value.d);
      Ok(Merge(base, q.value.d))
    else Err(TypeError("argument after ** must be a mapping"))
  }

  lemma {:induction false} MergeKeepsFirst<V>(d: Dict<V>, e: Dict<V>)
    requires |d| > 0
    ensures |Merge(d, e)| > 0 && Merge(d, e)[0].0 == d[0].0
    decreases |e|
  {
    if |e| > 0 {
      MergeKeepsFirst(Put(d, e[0].0, e[0].1), e[1..]);
    }
  }

  /** The context's `id`, when it has one, overrides the argument; every
      other key of the context query is kept. */
  lemma ContextIdOverrides(id: int, q: Dict<PyVal>, k: string)
    requires UniqueKeys(q)
    ensures var w := WhereFor(id, Some(Mapping(q)));
      && w.Ok?
      && Dicts.Get(w.value, "id") == (if HasKey(q, "id") then Dicts.Get(q, "id") else Some(Scalar(Int(id))))
      && (k != "id" ==> Dicts.Get(w.value, k) == Dicts.Get(q, k))
  {
    MergeGet([("id", Scalar(Int(id)))], q, "id");
    MergeGet([("id", Scalar(Int(id)))], q, k);
  }

  /** `except (OperationalError, IntegrityError, DataError) as e: raise BusinessError(...)`. */
  function Mapped<T>(r: Result<T, Exc>): (m: Result<T, Exc>)
    ensures m.Ok? <==> r.Ok?
    ensures r.Ok? ==> m == r
    ensures m.Err? ==> !IsStorageError(m.error) && m.error == MapStorageError(r.error)
  {
    if r.Ok? then r else Err(MapStorageError(r.error))
  }

  // ------------------------------------------- the Dao calls, by base class

  function DaoGet(db: Db, dao: Dao, q: Dict<PyVal>): Result<Option<Row>, Exc>
  {
    if dao.kind == Plain then EasyDao.Get(db, dao, Some(q)) else BGet(db, dao, Some(q), false)
  }

  /** `dao.query(...)` and the filter dict as the call leaves it. */
  function DaoQuery(db: Db, dao: Dao, q: Dict<PyVal>, pager: Pager, sorter: Sorter): (Dict<PyVal>, Result<seq<Row>, Exc>)
  {
    if dao.kind == Plain then (q, Query(db, dao, Some(q), Some(pager), Some(sorter)))
    else BQuery(db, dao, Some(q), Some(pager), Some(sorter), false)
  }

  function DaoInsert(db: Db, dao: Dao, data: Dict<Value>, now: Timestamp): (r: (Db, Result<Option<int>, Exc>))
    ensures r.1.Err? ==> r.0 == db
    ensures r.1.Ok? ==>
      && r.1.value.Some? && dao.tablename in db.tables && dao.tablename in r.0.tables
      && |r.0.tables[dao.tablename].rows| == |db.tables[dao.tablename].rows| + 1
  {
    if dao.kind == Plain then Insert(db, dao, Some(data)) else BInsert(db, dao, Some(data), "", now)
  }

  function DaoUpdate(db: Db, dao: Dao, w: Dict<PyVal>, data: Dict<Value>, now: Timestamp): (r: (Db, Result<int, Exc>))
    ensures r.1.Err? ==> r.0 == db
    ensures r.1.Ok? ==>
      && dao.tablename in db.tables && dao.tablename in r.0.tables
      && |r.0.tables[dao.tablename].rows| == |db.tables[dao.tablename].rows|
  {
    if dao.kind == Plain then Update(db, dao, Some(w), Some(data)) else BUpdate(db, dao, Some(data), Some(w), false, "", now)
  }

  function DaoDelete(db: Db, dao: Dao, w: Dict<PyVal>, now: Timestamp): (r: (Db, Result<int, Exc>))
    ensures r.1.Err? ==> r.0 == db
    ensures r.1.Ok? ==> dao.tablename in db.tables && dao.tablename in r.0.tables
    ensures r.1.Ok? && dao.kind.Business? ==>
      |r.0.tables[dao.tablename].rows| == |db.tables[dao.tablename].rows|
    ensures r.1.Ok? && dao.kind.Plain? ==>
      |r.0.tables[dao.tablename].rows| + r.1.value == |db.tables[dao.tablename].rows|
  {
    if dao.kind == Plain then Delete(db, dao, Some(w)) else BDelete(db, dao, Some(w), false, "", now)
  }

  // ------------------------------------------------------------- operations

  /** `BaseController.get(id, ctx)`: `None` when the Dao finds nothing (or an
      empty row), else a copy of the Dao's row. */
  function CGet(db: Db, c: Controller, id: int, ctx: Option<Ctx>): (r: Result<Option<Row>, Exc>)
    ensures r.Err? ==> !IsStorageError(r.error)
    ensures r.Ok? && r.value.Some? ==> r.value.value != map[]
  {
    var w :- WhereFor(id, CtxQuery(ctx));
    var data :- Mapped(DaoGet(db, c.dao, w));
    if data.None? || data.value == map[] then Ok(None) else Ok(data)
  }

  /** The controller's default pager and sorter. */
  const DefaultPage := Pager(Some(1), Some(20))
  const DefaultSort := Sorter("id", true)

  /** `BaseController.query(ctx, query, pager, sorter)`: the page and the
      total, counted with the filter dict the Dao's `query` left behind. */
  function CQuery(db: Db, c: Controller, query: Option<Dict<PyVal>>, pager: Option<Pager>, sorter: Option<Sorter>): (r: Result<(seq<Row>, int), Exc>)
    ensures r.Err? ==> !IsStorageError(r.error)
  {
    var p := if pager.None? then DefaultPage else pager.value;
    var s := if sorter.None? then DefaultSort else sorter.value;
    var (after, res) := DaoQuery(db, c.dao, OrEmpty(query), p, s);
    var rows :- Mapped(res);
    var total :- Mapped(Count(db, c.dao, Some(after)));
    Ok((rows, total))
  }

  /** `BaseController.insert(ctx, data)`: the copy is validated before the
      Dao is called. */
  function CInsert(db: Db, c: Controller, data: Option<Dict<Value>>, now: Timestamp): (r: (Db, Result<Option<int>, Exc>))
    ensures r.1.Err? ==> r.0 == db && !IsStorageError(r.1.error)
    ensures c.validator.Some? && c.validator.value(OrEmpty(data)).Some? ==>
      r == (db, Err(ValidationFailure(c.validator.value(OrEmpty(data)).value)))
  {
    var d := OrEmpty(data);
    if c.validator.Some? && c.validator.value(d).Some? then (db, Err(ValidationFailure(c.validator.value(d).value)))
    else
      var (db', res) := DaoInsert(db, c.dao, d, now);
      (db', Mapped(res))
  }

  /** `BaseController.update(id, ctx, data)`: validation comes first, before
      the where-dict is built. */
  function CUpdate(db: Db, c: Controller, id: int, ctx: Option<Ctx>, data: Option<Dict<Value>>, now: Timestamp): (r: (Db, Result<int, Exc>))
    ensures r.1.Err? ==> r.0 == db && !IsStorageError(r.1.error)
    ensures c.validator.Some? && c.validator.value(OrEmpty(data)).Some? ==>
      r == (db, Err(ValidationFailure(c.validator.value(OrEmpty(data)).value)))
  {
    var d := OrEmpty(data);
    if c.validator.Some? && c.validator.value(d).Some? then (db, Err(ValidationFailure(c.validator.value(d).value)))
    else match WhereFor(id, CtxQuery(ctx))
      case Err(e) => (db, Err(e))
      case Ok(w) =>
        var (db', res) := DaoUpdate(db, c.dao, w, d, now);
        (db', Mapped(res))
  }

  /** `BaseController.delete(id, ctx)`. */
  function CDelete(db: Db, c: Controller, id: int, ctx: Option<Ctx>, now: Timestamp): (r: (Db, Result<int, Exc>))
    ensures r.1.Err? ==> r.0 == db && !IsStorageError(r.1.error)
  {
    match WhereFor(id, CtxQuery(ctx))
    case Err(e) => (db, Err(e))
    case Ok(w) =>
      var (db', res) := DaoDelete(db, c.dao, w, now);
      (db', Mapped(res))
  }

  // ----------------------------------------------------------------- lemmas

  lemma SqlEqualsInt(a: int, b: int)
    ensures SqlEquals(Int(a), Int(b)) <==> a == b
  {
    LexCmpZero(SortKey(Int(a)), SortKey(Int(b)));
    assert SortKey(Int(a)) == SortKey(Int(b)) <==> a == b by {
      assert SortKey(Int(a))[1] == a && SortKey(Int(b))[1] == b;
    }
  }

  /** The WHERE chain `get`, `update` and `delete` build for `{"id": n}`
      (business Daos add `deleted_at IS NULL`). */
  function IdPreds(n: int, live: bool): seq<Pred>
  {
    [Eq("id", Scalar(Int(n)))] + (if live then [Eq("deleted_at", Scalar(Null))] else [])
  }

  /** The scoped where-dict of an `id` lookup without a context query. */
  function IdWhere(n: int, live: bool): Dict<PyVal>
  {
    Scope([("id", Scalar(Int(n)))], !live, Scalar(Null))
  }

  /** A bare column key with a scalar compiles to one equality. */
  lemma BareKeyCompiles(columns: seq<string>, k: string, v: Value)
    requires k in columns && |k| > 0 && k[0] != '_'
    ensures CompileKey(columns, k, Scalar(v)) == Ok([Eq(k, Scalar(v))])
  {
    BareShape(k);
  }

  /** Both compilers turn the `id` where-dict into `IdPreds`. */
  lemma IdWhereCompiles(columns: seq<string>, n: int, live: bool)
    requires "id" in columns && (live ==> "deleted_at" in columns)
    ensures SearchSql(columns, IdWhere(n, live)) == Ok(IdPreds(n, live))
    ensures WherePreds(columns, IdWhere(n, live)) == IdPreds(n, live)
  {
    var f := (k, pv) => CompileKey(columns, k, pv);
    var w := IdWhere(n, live);
    var idEq := Eq("id", Scalar(Int(n)));
    BareKeyCompiles(columns, "id", Int(n));
    if live {
      var delEq := Eq("deleted_at", Scalar(Null));
      BareKeyCompiles(columns, "deleted_at", Null);
      assert w == [("id", Scalar(Int(n))), ("deleted_at", Scalar(Null))];
      assert w[1..][1..] == [];
      assert f("id", Scalar(Int(n))) == Ok([idEq]);
      assert f("deleted_at", Scalar(Null)) == Ok([delEq]);
      assert CompileAll(w[1..], f) == Ok([delEq] + []);
      assert w[0] == ("id", Scalar(Int(n))) && w[1..][0] == ("deleted_at", Scalar(Null));
      assert [delEq] + [] == [delEq];
      assert CompileAll(w, f) == Ok([idEq] + [delEq]);
      assert WherePreds(columns, w[1..]) == [delEq] + [];
    } else {
      assert w == [("id", Scalar(Int(n)))];
      assert w[1..] == [];
      assert CompileAll(w, f) == Ok([idEq] + []);
      assert WherePreds(columns, w) == [idEq] + [];
    }
  }

  /** A row passes `IdPreds` iff it has id `n` (and, for business Daos, is live). */
  lemma IdPredsHold(n: int, live: bool, row: Row)
    requires HasId(row)
    ensures EvalAll(IdPreds(n, live), row) <==> IdOf(row) == n && (live ==> Field(row, "deleted_at") == Null)
  {
    SqlEqualsInt(IdOf(row), n);
    var ps := IdPreds(n, live);
    assert ps[0] == Eq("id", Scalar(Int(n)));
    if live { assert ps[1] == Eq("deleted_at", Scalar(Null)); }
  }

  /** After a successful `insert` through a controller over a plain Dao,
      `get` of the returned id yields exactly the inserted row, formatted. */
  lemma InsertThenGet(db: Db, c: Controller, data: Dict<Value>, now: Timestamp)
    requires c.dao.kind == Plain
    requires c.dao.tablename in db.tables && WellFormed(db.tables[c.dao.tablename])
    requires CInsert(db, c, Some(data), now).1.Ok?
    ensures var (db', r) := CInsert(db, c, Some(data), now);
      && r.value.Some?
      && CGet(db', c, r.value.value, None)
         == Ok(Some(TypeToJson(NewRow(db.tables[c.dao.tablename].columns, data, r.value.value))))
  {
    var name := c.dao.tablename;
    var t := db.tables[name];
    var (t', n) := InsertRow(t, data).value;
    var db' := CInsert(db, c, Some(data), now).0;
    assert db' == WithTable(db, name, t');
    var nr := NewRow(t.columns, data, n);
    SelectInserted(t, data);
    IdWhereCompiles(t'.columns, n, false);
    GetOfOne(db', c, n, nr);
  }

  /** A successful `update(id, data=data)` without a context query patches
      exactly the rows with that id, only the live ones for a business Dao,
      reports how many there were and leaves every other row as it was. A
      business Dao's patch also stamps `updated_at` and an empty
      `updated_by`. */
  lemma UpdateThenRows(db: Db, c: Controller, n: int, data: Dict<Value>, now: Timestamp)
    requires c.dao.tablename in db.tables && "id" in db.tables[c.dao.tablename].columns
    requires c.dao.kind == DaoKind.Business ==> "deleted_at" in db.tables[c.dao.tablename].columns
    requires CUpdate(db, c, n, None, Some(data), now).1.Ok?
    ensures var t := db.tables[c.dao.tablename];
      var ps := IdPreds(n, c.dao.kind == DaoKind.Business);
      var written := if c.dao.kind == Plain then data else Put(Put(data, "updated_at", now), "updated_by", Str(""));
      var (db', r) := CUpdate(db, c, n, None, Some(data), now);
      && c.dao.tablename in db'.tables
      && r.value == |Select(t.rows, ps)|
      && db'.tables[c.dao.tablename].rows == PatchRows(t.rows, ps, written)
  {
    var t := db.tables[c.dao.tablename];
    IdWhereCompiles(t.columns, n, c.dao.kind == DaoKind.Business);
    assert WhereFor(n, CtxQuery(None)) == Ok([("id", Scalar(Int(n)))]);
  }

  /** In the table after an INSERT, the new id selects exactly the new row. */
  lemma SelectInserted(t: Table, data: Dict<Value>)
    requires WellFormed(t) && InsertRow(t, data).Ok?
    ensures var (t', n) := InsertRow(t, data).value;
      && WellFormed(t')
      && Select(t'.rows, IdPreds(n, false)) == [NewRow(t.columns, data, n)]
  {
    var (t', n) := InsertRow(t, data).value;
    InsertKeepsWellFormed(t, data);
    var nr := NewRow(t.columns, data, n);
    var ps := IdPreds(n, false);
    var rows := Select(t'.rows, ps);
    assert nr in rows by {
      assert t'.rows[|t.rows|] == nr;
      IdPredsHold(n, false, nr);
    }
    forall row | row in rows ensures row == nr {
      var i :| 0 <= i < |t'.rows| && t'.rows[i] == row;
      IdPredsHold(n, false, row);
      assert i == |t.rows|;
    }
    if |rows| > 1 {
      assert rows[0] in rows && rows[1] in rows;
      SelectDistinct(t'.rows, ps);
    }
    assert rows == [nr];
  }

  /** A controller `get` whose WHERE chain selects a single row returns it. */
  lemma GetOfOne(db: Db, c: Controller, n: int, row: Row)
    requires c.dao.kind == Plain
    requires c.dao.tablename in db.tables && db.fault.None?
    requires var t := db.tables[c.dao.tablename];
      && SearchSql(t.columns, IdWhere(n, false)) == Ok(IdPreds(n, false))
      && Select(t.rows, IdPreds(n, false)) == [row]
    requires "id" in row
    ensures CGet(db, c, n, None) == Ok(Some(TypeToJson(row)))
  {
    assert WhereFor(n, CtxQuery(None)) == Ok(IdWhere(n, false));
    var rows := [row];
    SortRowsLength(rows, "id", true);
    assert SortRows(rows, "id", true)[0] in multiset(rows);
    assert EasyDao.Get(db, c.dao, Some(IdWhere(n, false))) == Ok(Some(TypeToJson(row)));
    assert TypeToJson(row) != map[] by { assert "id" in TypeToJson(row); }
  }

  /** `Select` keeps distinct rows of a table with unique ids apart. */
  lemma SelectDistinct(rows: seq<Row>, ps: seq<Pred>)
    requires forall i :: 0 <= i < |rows| ==> HasId(rows[i])
    requires forall i, j :: 0 <= i < j < |rows| ==> IdOf(rows[i]) != IdOf(rows[j])
    requires |Select(rows, ps)| > 1
    ensures Select(rows, ps)[0] != Select(rows, ps)[1]
  {
    SelectIsSubsequence(rows, ps);
  }

  lemma {:induction false} SelectIsSubsequence(rows: seq<Row>, ps: seq<Pred>)
    requires forall i :: 0 <= i < |rows| ==> HasId(rows[i])
    requires forall i, j :: 0 <= i < j < |rows| ==> IdOf(rows[i]) != IdOf(rows[j])
    ensures forall i, j :: 0 <= i < j < |Select(rows, ps)| ==> Select(rows, ps)[i] != Select(rows, ps)[j]
  {
    if |rows| > 0 {
      var tail := rows[1..];
      SelectIsSubsequence(tail, ps);
      var st := Select(tail, ps);
      forall k | 0 <= k < |st| ensures st[k] != rows[0] {
        assert st[k] in tail;
        var m :| 0 <= m < |tail| && tail[m] == st[k];
        assert rows[m + 1] == st[k];
      }
    }
  }

  /** After a successful `delete` of `id` through a controller (physical for
      a plain Dao, soft for a business Dao), `get` of that id finds nothing. */
  lemma DeleteThenGet(db: Db, c: Controller, n: int, now: Timestamp)
    requires c.dao.tablename in db.tables && WellFormed(db.tables[c.dao.tablename])
    requires c.dao.kind == DaoKind.Business ==> "deleted_at" in db.tables[c.dao.tablename].columns
    requires CDelete(db, c, n, None, now).1.Ok?
    ensures CGet(CDelete(db, c, n, None, now).0, c, n, None) == Ok(None)
  {
    var name := c.dao.tablename;
    var t := db.tables[name];
    var live := c.dao.kind == DaoKind.Business;
    var ps := IdPreds(n, live);
    IdWhereCompiles(t.columns, n, live);
    assert WhereFor(n, CtxQuery(None)) == Ok([("id", Scalar(Int(n)))]);
    var db' := CDelete(db, c, n, None, now).0;
    var t' := db'.tables[name];
    assert t'.columns == t.columns && db'.fault.None?;
    if live {
      assert t'.rows == PatchRows(t.rows, ps, SoftDeleteData("", now));
      SoftDeletedFail(t, n, now);
    }
    forall i | 0 <= i < |t'.rows| ensures !EvalAll(ps, t'.rows[i]) {
      assert t'.rows[i] in t'.rows;
    }
    NoneSelected(t'.rows, ps);
    assert DaoGet(db', c.dao, [("id", Scalar(Int(n)))]) == Ok(None);
  }

  /** Rows a soft delete of id `n` patched no longer pass its WHERE chain. */
  lemma SoftDeletedFail(t: Table, n: int, now: Timestamp)
    requires WellFormed(t) && "deleted_at" in t.columns
    ensures var ps := IdPreds(n, true);
      forall row :: row in PatchRows(t.rows, ps, SoftDeleteData("", now)) ==> !EvalAll(ps, row)
  {
    var ps := IdPreds(n, true);
    var data := SoftDeleteData("", now);
    var patched := PatchRows(t.rows, ps, data);
    forall row | row in patched ensures !EvalAll(ps, row) {
      var i :| 0 <= i < |patched| && patched[i] == row;
      if EvalAll(ps, t.rows[i]) {
        assert "deleted_at" in t.rows[i];
        assert Dicts.Get(data, "deleted_at") == Some(now);
        assert row["deleted_at"] == now;
        assert !Eval(ps[1], row);
      }
    }
  }

  /** `query`'s total counts the unpaged result of the filter the Dao ran,
      i.e. for a business Dao only rows whose `deleted_at` is NULL, and every
      returned row of a business Dao is live. */
  lemma QueryTotal(db: Db, c: Controller, query: Option<Dict<PyVal>>, pager: Option<Pager>, sorter: Option<Sorter>)
    requires CQuery(db, c, query, pager, sorter).Ok?
    ensures var s := if sorter.None? then DefaultSort else sorter.value;
      var ran := if c.dao.kind == Plain then OrEmpty(query) else Put(OrEmpty(query), "deleted_at", Scalar(Null));
      && Query(db, c.dao, Some(ran), None, Some(s)).Ok?
      && CQuery(db, c, query, pager, sorter).value.1 == |Query(db, c.dao, Some(ran), None, Some(s)).value|
    ensures c.dao.kind == DaoKind.Business && c.dao.tablename in db.tables && "deleted_at" in db.tables[c.dao.tablename].columns ==>
      forall r :: r in CQuery(db, c, query, pager, sorter).value.0 ==> "deleted_at" in r ==> r["deleted_at"] == Null
  {
    var p := if pager.None? then DefaultPage else pager.value;
    var s := if sorter.None? then DefaultSort else sorter.value;
    var ran := if c.dao.kind == Plain then OrEmpty(query) else Put(OrEmpty(query), "deleted_at", Scalar(Null));
    CountIsUnpagedQueryLength(db, c.dao, Some(ran), Some(s));
    if c.dao.kind == DaoKind.Business && c.dao.tablename in db.tables && "deleted_at" in db.tables[c.dao.tablename].columns {
      BQueryReturnsLiveRows(db, c.dao, query, Some(p), Some(s));
    }
  }

  /** `query`'s rows are what the Dao's `query` returned for the filter it
      ran, with `Pager(page=1, per_page=20)` and `Sorter('id', desc=True)`
      standing in for a missing pager or sorter. Without a pager they are
      the first 20 rows of the unpaged, ordered result. */
  lemma QueryRows(db: Db, c: Controller, query: Option<Dict<PyVal>>, pager: Option<Pager>, sorter: Option<Sorter>)
    requires CQuery(db, c, query, pager, sorter).Ok?
    ensures var p := if pager.None? then DefaultPage else pager.value;
      var s := if sorter.None? then DefaultSort else sorter.value;
      var ran := if c.dao.kind == Plain then OrEmpty(query) else Put(OrEmpty(query), "deleted_at", Scalar(Null));
      && Query(db, c.dao, Some(ran), Some(p), Some(s)).Ok?
      && CQuery(db, c, query, pager, sorter).value.0 == Query(db, c.dao, Some(ran), Some(p), Some(s)).value
    ensures pager.None? ==>
      var s := if sorter.None? then DefaultSort else sorter.value;
      var ran := if c.dao.kind == Plain then OrEmpty(query) else Put(OrEmpty(query), "deleted_at", Scalar(Null));
      && Query(db, c.dao, Some(ran), None, Some(s)).Ok?
      && CQuery(db, c, query, pager, sorter).value.0 == Page(Query(db, c.dao, Some(ran), None, Some(s)).value, 1, 20)
  {
    var s := if sorter.None? then DefaultSort else sorter.value;
    var ran := if c.dao.kind == Plain then OrEmpty(query) else Put(OrEmpty(query), "deleted_at", Scalar(Null));
    if pager.None? {
      QueryTotal(db, c, query, pager, sorter);
      QueryPageIsSlice(db, c.dao, Some(ran), Some(s), 1, 20);
    }
  }
}

=== FILE: easyapi_dao.dfy ===
/** easyapi/dao.py: `DaoMetaClass` (table name and column-name constants),
    `BaseDao.get/query/count/insert/update/delete` over one table, and the
    `BusinessBaseDao` overrides that soft-delete and stamp audit columns.
    A Dao class is reduced to its table name; `db` is the database state it
    reads and writes, and the clock is the `now` parameter. */
module EasyDao {
  import opened Wrappers
  import opened Text
  import opened Values
  import opened Dicts
  import opened Errors
  import opened Preds
  import opened Executor
  import opened Storage
  import opened EasySql
  import opened Tools

  /** `BaseDao` or `BusinessBaseDao` as the Dao's base class. */
  datatype DaoKind = Plain | Business

  datatype Dao = Dao(tablename: string, kind: DaoKind)

  /** A value `datetime.now()` can return. */
  type Timestamp = v: Value | v.DateTime? witness DateTime(1, 1, 1, 0, 0, 0)

  function OrEmpty<V>(d: Option<Dict<V>>): Dict<V>
  {
    if d.None? then [] else d.value
  }

  // ------------------------------------------------------------ DaoMetaClass

  /** `str2hump(name[:-3]) + 's'`. */
  function DefaultTableName(name: string): Result<string, Exc>
  {
    var stem := if |name| >= 3 then name[..|name| - 3] else "";
    var h :- Str2HumpSpec(stem);
    Ok(h + "s")
  }

  /** The prefixes of the per-column constants, in the order they are set. */
  const ConstantPrefixes: seq<string> := ["", "_gte_", "_gt_", "_lte_", "_lt_", "_like_", "_in_"]

  /** `attrs[n] = n` for every name in `names`. */
  function PutNames(d: Dict<string>, names: seq<string>): (r: Dict<string>)
    decreases |names|
  {
    if |names| == 0 then d else PutNames(Put(d, names[0], names[0]), names[1..])
  }

  function ColumnNames(c: string): seq<string>
  {
    seq(|ConstantPrefixes|, i requires 0 <= i < |ConstantPrefixes| => ConstantPrefixes[i] + c)
  }

  /** The attributes the metaclass adds, one group per column in table order. */
  function ColumnConstants(columns: seq<string>): Dict<string>
  {
    if |columns| == 0 then []
    else PutNames(ColumnConstants(columns[..|columns| - 1]), ColumnNames(columns[|columns| - 1]))
  }

  predicate IsConstantName(columns: seq<string>, k: string)
  {
    exists c :: c in columns && k in ColumnNames(c)
  }

  lemma {:induction false} PutNamesGet(d: Dict<string>, names: seq<string>, k: string)
    ensures Dicts.Get(PutNames(d, names), k) == if k in names then Some(k) else Dicts.Get(d, k)
    decreases |names|
  {
    if |names| > 0 {
      var d' := Put(d, names[0], names[0]);
      assert names == [names[0]] + names[1..];
      assert k in names <==> k == names[0] || k in names[1..];
      PutNamesGet(d', names[1..], k);
      assert Dicts.Get(d', k) == if k == names[0] then Some(k) else Dicts.Get(d, k);
    }
  }

  /** Every column `c` yields the constants `c`, `_gte_c`, `_gt_c`, `_lte_c`,
      `_lt_c`, `_like_c` and `_in_c`, each bound to its own name; nothing else. */
  lemma {:induction false} ColumnConstantsGet(columns: seq<string>, k: string)
    ensures Dicts.Get(ColumnConstants(columns), k) == if IsConstantName(columns, k) then Some(k) else None
  {
    if |columns| > 0 {
      var init := columns[..|columns| - 1];
      var last := columns[|columns| - 1];
      assert columns == init + [last];
      ColumnConstantsGet(init, k);
      PutNamesGet(ColumnConstants(init), ColumnNames(last), k);
      ConstantNameSnoc(init, last, k);
    }
  }

  lemma ConstantNameSnoc(init: seq<string>, last: string, k: string)
    ensures IsConstantName(init + [last], k) <==> IsConstantName(init, k) || k in ColumnNames(last)
  {
    var columns := init + [last];
    if k in ColumnNames(last) {
      assert last in columns;
    }
    if IsConstantName(init, k) {
      var c :| c in init && k in ColumnNames(c);
      assert c in columns;
    }
    if IsConstantName(columns, k) && k !in ColumnNames(last) {
      var c :| c in columns && k in ColumnNames(c);
      assert c in init;
    }
  }

  /** No constant of a column that does not start with `_` is a `_search_` name. */
  lemma SearchIsNoColumnName(c: string, x: string)
    requires |c| == 0 || c[0] != '_'
    ensures "_search_" + x !in ColumnNames(c)
  {
    var k := "_search_" + x;
    assert k[0] == '_' && k[1] == 's';
    forall i | 0 <= i < |ConstantPrefixes| ensures ColumnNames(c)[i] != k {
      var p := ConstantPrefixes[i];
      assert ColumnNames(c)[i] == p + c;
      if i == 0 {
        assert p + c == c;
        if |c| > 0 { assert c[0] != k[0]; }
      } else {
        assert |p| >= 2 && p[1] != 's';
        assert (p + c)[1] == p[1];
      }
    }
  }

  /** There is no `_search_` constant: with column names that do not start
      with `_`, no `_search_...` name is bound. */
  lemma NoSearchConstant(columns: seq<string>, x: string)
    requires forall c :: c in columns ==> |c| == 0 || c[0] != '_'
    ensures Dicts.Get(ColumnConstants(columns), "_search_" + x) == None
  {
    ColumnConstantsGet(columns, "_search_" + x);
    forall c | c in columns ensures "_search_" + x !in ColumnNames(c) {
      SearchIsNoColumnName(c, x);
    }
  }

  /** What `DaoMetaClass.__new__` leaves behind for a Dao class. */
  datatype DaoDef = DaoDef(dao: Dao, constants: Dict<string>)

  /** `DaoMetaClass.__new__(name, bases, attrs)`: base classes pass through;
      others need `__db__`, take `__tablename__` or the derived name, and must
      find that table. `tablenameAttr == Some("")` is a falsy attribute. */
  function DefineDao(name: string, db: Option<Db>, tablenameAttr: Option<string>, kind: DaoKind): (r: Result<Option<DaoDef>, Exc>)
    ensures Contains(name, "BaseDao") ==> r == Ok(None)
    ensures !Contains(name, "BaseDao") && db.None? ==> r.Err? && r.error.NotImplementedError?
    ensures r.Ok? && r.value.Some? ==>
      && db.Some? && r.value.value.dao.tablename in db.value.tables
      && (tablenameAttr.Some? && tablenameAttr.value != "" ==> r.value.value.dao.tablename == tablenameAttr.value)
      && (tablenameAttr.None? || tablenameAttr.value == "" ==> Ok(r.value.value.dao.tablename) == DefaultTableName(name))
  {
    if Contains(name, "BaseDao") then Ok(None)
    else if db.None? then Err(NotImplementedError("Should have __db__ value."))
    else
      var tn :- if tablenameAttr.Some? && tablenameAttr.value != "" then Ok(tablenameAttr.value) else DefaultTableName(name);
      var t :- LookupTable(db.value, tn);
      Ok(Some(DaoDef(Dao(tn, kind), ColumnConstants(t.columns))))
  }

  /** `UserDao` maps to the `users` table. */
  lemma UserDaoTable(name: string)
    requires name == "UserDao"
    ensures DefaultTableName(name) == Ok("users")
  {
    assert |name| == 7 && name[..|name| - 3] == "User";
    UserStem(name[..|name| - 3]);
    assert Str2HumpSpec(name[..|name| - 3]) == Ok("user");
    assert "user" + "s" == "users";
  }

  lemma UserStem(s: string)
    requires s == "User"
    ensures Str2HumpSpec(s) == Ok("user")
  {
    assert s[0] == 'U' && s[1] == 's' && s[2] == 'e' && s[3] == 'r';
    HumpedStep(s, 1, "U");
    HumpedStep(s, 2, "Us");
    HumpedStep(s, 3, "Use");
    assert !HumpFails(s) by { assert !IsUpper(s[3]); }
    LowerUser(Humped(s, 4));
  }

  lemma LowerUser(h: string)
    requires h == "User"
    ensures Lower(h) == "user"
  {
    forall i | 0 <= i < |h| ensures Lower(h)[i] == "user"[i] {
    }
  }

  // ------------------------------------------------------------------ BaseDao

  /** `formatter`: `type_to_json` on every row. */
  function Format(rows: seq<Row>): (r: seq<Row>)
    ensures |r| == |rows|
    ensures forall i :: 0 <= i < |rows| ==> r[i] == TypeToJson(rows[i])
  {
    seq(|rows|, i requires 0 <= i < |rows| => TypeToJson(rows[i]))
  }

  /** `getattr(table.c, sort_by, table.c.id)`. */
  function SortColumn(columns: seq<string>, s: Sorter): string
  {
    if s.sortBy in columns then s.sortBy else "id"
  }

  /** The LIMIT/OFFSET a `Pager` argument renders; `None` applies none. */
  function PagerWindow(pager: Option<Pager>): Window
  {
    if pager.None? then FullWindow else PageWindow(pager.value.page, pager.value.perPage)
  }

  /** `BaseDao.get(query=q)`: ORDER BY id DESC, first row, formatted, or
      `None` when nothing matches. The sorter only adds a secondary ORDER BY
      key, which cannot reorder rows whose ids differ. */
  function Get(db: Db, dao: Dao, q: Option<Dict<PyVal>>): (r: Result<Option<Row>, Exc>)
    ensures r.Ok? <==> Selected(db, dao, q).Ok?
    ensures r.Ok? ==> (r.value.None? <==> |Selected(db, dao, q).value.1| == 0)
  {
    var t :- LookupTable(db, dao.tablename);
    var ps :- SearchSql(t.columns, OrEmpty(q));
    var rows :- RunSelect(db, t, ps);
    if |rows| == 0 then Ok(None) else Ok(Some(TypeToJson(SortRows(rows, "id", true)[0])))
  }

  /** `BaseDao.query(query=q, pager=pager, sorter=sorter)`. */
  function Query(db: Db, dao: Dao, q: Option<Dict<PyVal>>, pager: Option<Pager>, sorter: Option<Sorter>): (r: Result<seq<Row>, Exc>)
    ensures r.Ok? ==> Selected(db, dao, q).Ok? && |r.value| <= |Selected(db, dao, q).value.1|
    ensures pager.None? ==> (r.Ok? <==> Selected(db, dao, q).Ok?)
    ensures pager.None? && r.Ok? ==> |r.value| == |Selected(db, dao, q).value.1|
  {
    var sel :- Selected(db, dao, q);
    var page :- ApplyWindow(Ordered(sel.0.columns, sel.1, sorter), PagerWindow(pager));
    Ok(Format(page))
  }

  /** The table and the rows the WHERE chain of `q` picks, in storage order. */
  function Selected(db: Db, dao: Dao, q: Option<Dict<PyVal>>): (r: Result<(Table, seq<Row>), Exc>)
    ensures r.Ok? ==>
      && dao.tablename in db.tables && db.fault.None?
      && r.value.0 == db.tables[dao.tablename]
      && SearchSql(r.value.0.columns, OrEmpty(q)).Ok?
      && r.value.1 == Select(r.value.0.rows, SearchSql(r.value.0.columns, OrEmpty(q)).value)
  {
    var t :- LookupTable(db, dao.tablename);
    var ps :- SearchSql(t.columns, OrEmpty(q));
    var rows :- RunSelect(db, t, ps);
    Ok((t, rows))
  }

  /** ORDER BY the sorter's column when there is a sorter; storage order otherwise. */
  function Ordered(columns: seq<string>, rows: seq<Row>, sorter: Option<Sorter>): (r: seq<Row>)
    ensures multiset(r) == multiset(rows) && |r| == |rows|
    ensures sorter.None? ==> r == rows
    ensures sorter.Some? ==> SortedBy(r, SortColumn(columns, sorter.value), sorter.value.desc)
  {
    if sorter.None? then rows
    else
      SortRowsLength(rows, SortColumn(columns, sorter.value), sorter.value.desc);
      SortRows(rows, SortColumn(columns, sorter.value), sorter.value.desc)
  }

  /** `BaseDao.count(query=q)`: the number of rows the filter picks. */
  function Count(db: Db, dao: Dao, q: Option<Dict<PyVal>>): (r: Result<int, Exc>)
    ensures r.Ok? <==> Selected(db, dao, q).Ok?
    ensures r.Ok? ==> dao.tablename in db.tables && 0 <= r.value <= |db.tables[dao.tablename].rows|
  {
    var sel :- Selected(db, dao, q);
    Ok(|sel.1|)
  }

  /** `BaseDao.insert(data=data)`: `None` data returns `None` before anything
      else; otherwise the new row's primary key. */
  function Insert(db: Db, dao: Dao, data: Option<Dict<Value>>): (r: (Db, Result<Option<int>, Exc>))
    ensures data.None? ==> r == (db, Ok(None))
    ensures r.1.Err? ==> r.0 == db
    ensures data.Some? && r.1.Ok? ==>
      && r.1.value.Some? && dao.tablename in db.tables && dao.tablename in r.0.tables
      && var t := db.tables[dao.tablename];
      && var id := r.1.value.value;
      && !IdTaken(t.rows, id)
      && r.0.tables[dao.tablename].columns == t.columns
      && r.0.tables[dao.tablename].rows == t.rows + [NewRow(t.columns, data.value, id)]
    ensures data.Some? && r.1.Ok? ==>
      forall n :: n in db.tables && n != dao.tablename ==> n in r.0.tables && r.0.tables[n] == db.tables[n]
  {
    if data.None? then (db, Ok(None))
    else
      match LookupTable(db, dao.tablename)
      case Err(e) => (db, Err(e))
      case Ok(t) =>
        var (db', res) := RunInsert(db, dao.tablename, t, data.value);
        (db', if res.Ok? then Ok(Some(res.value)) else Err(res.error))
  }

  /** The WHERE chain of `update` and `delete`: one equality per key that
      names a column, in dict order; other keys are dropped. */
  function WherePreds(columns: seq<string>, w: Dict<PyVal>): (r: seq<Pred>)
    ensures forall i :: 0 <= i < |r| ==> r[i].Eq? && r[i].col in columns
  {
    if |w| == 0 then []
    else (if w[0].0 in columns then [Eq(w[0].0, w[0].1)] else []) + WherePreds(columns, w[1..])
  }

  /** The WHERE chain holds on a row iff every column key's equality does. */
  lemma {:induction false} WherePredsEval(columns: seq<string>, w: Dict<PyVal>, row: Row)
    ensures EvalAll(WherePreds(columns, w), row)
        <==> forall i :: 0 <= i < |w| && w[i].0 in columns ==> EqHolds(Field(row, w[i].0), w[i].1)
  {
    if |w| > 0 {
      WherePredsEval(columns, w[1..], row);
      var head := if w[0].0 in columns then [Eq(w[0].0, w[0].1)] else [];
      EvalAllAppend(head, WherePreds(columns, w[1..]), row);
      if head != [] { EvalAllSingleton(head[0], row); }
      assert forall i :: 1 <= i < |w| ==> w[i] == w[1..][i - 1];
    }
  }

  /** `BaseDao.update(where_dict=w, data=data)`: the matched-row count. A
      `None` data becomes `{}`, which SQLAlchemy refuses. */
  function Update(db: Db, dao: Dao, w: Option<Dict<PyVal>>, data: Option<Dict<Value>>): (r: (Db, Result<int, Exc>))
    ensures r.1.Err? ==> r.0 == db
    ensures r.1.Ok? ==>
      && dao.tablename in db.tables && dao.tablename in r.0.tables
      && var t := db.tables[dao.tablename];
      && var ps := WherePreds(t.columns, OrEmpty(w));
      && r.1.value == |Select(t.rows, ps)|
      && r.0.tables[dao.tablename].rows == PatchRows(t.rows, ps, OrEmpty(data))
  {
    match LookupTable(db, dao.tablename)
    case Err(e) => (db, Err(e))
    case Ok(t) => RunUpdate(db, dao.tablename, t, WherePreds(t.columns, OrEmpty(w)), OrEmpty(data))
  }

  /** `BaseDao.delete(where_dict=w)`: the number of rows removed. */
  function Delete(db: Db, dao: Dao, w: Option<Dict<PyVal>>): (r: (Db, Result<int, Exc>))
    ensures r.1.Err? ==> r.0 == db
    ensures r.1.Ok? ==>
      && dao.tablename in db.tables && dao.tablename in r.0.tables
      && var t := db.tables[dao.tablename];
      && var ps := WherePreds(t.columns, OrEmpty(w));
      && r.1.value == |Select(t.rows, ps)|
      && forall row :: row in r.0.tables[dao.tablename].rows <==> row in t.rows && !EvalAll(ps, row)
  {
    match LookupTable(db, dao.tablename)
    case Err(e) => (db, Err(e))
    case Ok(t) => RunDelete(db, dao.tablename, t, WherePreds(t.columns, OrEmpty(w)))
  }

  // --------------------------------------------------------- BusinessBaseDao

  /** `where_dict['deleted_at'] = None` unless `unscoped`. */
  function Scope<V>(w: Dict<V>, unscoped: bool, none: V): Dict<V>
  {
    if unscoped then w else Put(w, "deleted_at", none)
  }

  /** `BusinessBaseDao.update(data=data, where_dict=w, unscoped, modify_by)`:
      stamps `updated_at`/`updated_by` into `data` (a `None` data raises) and
      restricts to live rows. */
  function BUpdate(db: Db, dao: Dao, data: Option<Dict<Value>>, w: Option<Dict<PyVal>>, unscoped: bool, modifyBy: string, now: Timestamp): (r: (Db, Result<int, Exc>))
    ensures data.None? ==> r == (db, Err(TypeError("'NoneType' object does not support item assignment")))
  {
    if data.None? then (db, Err(TypeError("'NoneType' object does not support item assignment")))
    else
      var stamped := Put(Put(data.value, "updated_at", now), "updated_by", Str(modifyBy));
      Update(db, dao, Some(Scope(OrEmpty(w), unscoped, Scalar(Null))), Some(stamped))
  }

  /** The columns a soft delete sets. */
  function SoftDeleteData(modifyBy: string, now: Timestamp): Dict<Value>
  {
    [("deleted_at", now), ("updated_by", Str(modifyBy))]
  }

  /** `BusinessBaseDao.delete(where_dict=w, unscoped, modify_by)`: an UPDATE of
      `deleted_at` and `updated_by`; no row is removed. */
  function BDelete(db: Db, dao: Dao, w: Option<Dict<PyVal>>, unscoped: bool, modifyBy: string, now: Timestamp): (r: (Db, Result<int, Exc>))
    ensures r.1.Err? ==> r.0 == db
    ensures r.1.Ok? ==>
      && dao.tablename in db.tables && dao.tablename in r.0.tables
      && |r.0.tables[dao.tablename].rows| == |db.tables[dao.tablename].rows|
  {
    Update(db, dao, Some(Scope(OrEmpty(w), unscoped, Scalar(Null))), Some(SoftDeleteData(modifyBy, now)))
  }

  /** `BusinessBaseDao.insert(data=data, modify_by)`: stamps `created_at` and
      `created_by`; `None` data is `{}`. */
  function BInsert(db: Db, dao: Dao, data: Option<Dict<Value>>, modifyBy: string, now: Timestamp): (r: (Db, Result<Option<int>, Exc>))
    ensures r.1.Err? ==> r.0 == db
    ensures r.1.Ok? ==>
      && r.1.value.Some? && dao.tablename in db.tables && dao.tablename in r.0.tables
      && |r.0.tables[dao.tablename].rows| == |db.tables[dao.tablename].rows| + 1
  {
    Insert(db, dao, Some(Put(Put(OrEmpty(data), "created_at", now), "created_by", Str(modifyBy))))
  }

  /** `BusinessBaseDao.get(query=q, unscoped)`: the caller's sorter is not passed on. */
  function BGet(db: Db, dao: Dao, q: Option<Dict<PyVal>>, unscoped: bool): (r: Result<Option<Row>, Exc>)
    ensures !unscoped && r.Ok? && r.value.Some? && dao.tablename in db.tables
      && "deleted_at" in db.tables[dao.tablename].columns && "deleted_at" in r.value.value
      ==> r.value.value["deleted_at"] == Null
  {
    var r := Get(db, dao, Some(Scope(OrEmpty(q), unscoped, Scalar(Null))));
    if !unscoped && r.Ok? && r.value.Some? && dao.tablename in db.tables && "deleted_at" in db.tables[dao.tablename].columns
    then ScopedGetIsLive(db, dao, q); r
    else r
  }

  /** `BusinessBaseDao.query(query=q, ...)`: also returns the filter dict as
      it is afterwards, since the caller's dict receives `deleted_at`. */
  function BQuery(db: Db, dao: Dao, q: Option<Dict<PyVal>>, pager: Option<Pager>, sorter: Option<Sorter>, unscoped: bool): (r: (Dict<PyVal>, Result<seq<Row>, Exc>))
    ensures r.0 == Scope(OrEmpty(q), unscoped, Scalar(Null))
  {
    var scoped := Scope(OrEmpty(q), unscoped, Scalar(Null));
    (scoped, Query(db, dao, Some(scoped), pager, sorter))
  }

  // ------------------------------------------------------------------ lemmas

  /** A `get` whose filter carries `deleted_at = None` finds only a row whose
      `deleted_at` is NULL. */
  lemma ScopedGetIsLive(db: Db, dao: Dao, q: Option<Dict<PyVal>>)
    requires dao.tablename in db.tables && "deleted_at" in db.tables[dao.tablename].columns
    requires var r := Get(db, dao, Some(Put(OrEmpty(q), "deleted_at", Scalar(Null)))); r.Ok? && r.value.Some?
    ensures var row := Get(db, dao, Some(Put(OrEmpty(q), "deleted_at", Scalar(Null)))).value.value;
      "deleted_at" in row ==> row["deleted_at"] == Null
  {
    var t := db.tables[dao.tablename];
    var scoped := Put(OrEmpty(q), "deleted_at", Scalar(Null));
    var rows := Select(t.rows, SearchSql(t.columns, scoped).value);
    SortRowsLength(rows, "id", true);
    var top := SortRows(rows, "id", true)[0];
    assert top in rows by { assert top in multiset(rows); }
    ScopedSelectIsLive(t.columns, OrEmpty(q), top);
  }

  /** A business insert appends one row holding `now` in `created_at` and the
      caller in `created_by`, whatever the data said about them. */
  lemma BInsertStamps(db: Db, dao: Dao, data: Option<Dict<Value>>, modifyBy: string, now: Timestamp)
    requires dao.tablename in db.tables
    requires "created_at" in db.tables[dao.tablename].columns && "created_by" in db.tables[dao.tablename].columns
    requires BInsert(db, dao, data, modifyBy, now).1.Ok?
    ensures var (db', r) := BInsert(db, dao, data, modifyBy, now);
      && r.value.Some? && dao.tablename in db'.tables
      && var rows := db'.tables[dao.tablename].rows;
      && |rows| == |db.tables[dao.tablename].rows| + 1
      && IdOf(rows[|rows| - 1]) == r.value.value
      && rows[|rows| - 1]["created_at"] == now
      && rows[|rows| - 1]["created_by"] == Str(modifyBy)
  {
    var t := db.tables[dao.tablename];
    var stamped := Put(Put(OrEmpty(data), "created_at", now), "created_by", Str(modifyBy));
    assert Dicts.Get(stamped, "created_at") == Some(now);
    assert Dicts.Get(stamped, "created_by") == Some(Str(modifyBy));
  }

  /** A business update writes `now` into `updated_at` and the caller into
      `updated_by` of every row its scoped WHERE chain matches and leaves
      every other row as it was. */
  lemma BUpdateStamps(db: Db, dao: Dao, data: Dict<Value>, w: Option<Dict<PyVal>>, unscoped: bool, modifyBy: string, now: Timestamp)
    requires BUpdate(db, dao, Some(data), w, unscoped, modifyBy, now).1.Ok?
    ensures dao.tablename in db.tables
    ensures var db' := BUpdate(db, dao, Some(data), w, unscoped, modifyBy, now).0;
      var t := db.tables[dao.tablename];
      var ps := WherePreds(t.columns, Scope(OrEmpty(w), unscoped, Scalar(Null)));
      && dao.tablename in db'.tables
      && |db'.tables[dao.tablename].rows| == |t.rows|
      && forall i :: 0 <= i < |t.rows| ==>
           var row' := db'.tables[dao.tablename].rows[i];
           if EvalAll(ps, t.rows[i]) then
             && row'.Keys == t.rows[i].Keys
             && ("updated_at" in row' ==> row'["updated_at"] == now)
             && ("updated_by" in row' ==> row'["updated_by"] == Str(modifyBy))
           else row' == t.rows[i]
  {
    var stamped := Put(Put(data, "updated_at", now), "updated_by", Str(modifyBy));
    assert Dicts.Get(stamped, "updated_at") == Some(now);
    assert Dicts.Get(stamped, "updated_by") == Some(Str(modifyBy));
  }

  lemma OrderLeInt(a: int, b: int)
    ensures OrderLe(Int(a), Int(b)) <==> a <= b
  {
    assert SortKey(Int(a))[1..] == [a] && SortKey(Int(b))[1..] == [b];
    assert LexCmp(SortKey(Int(a)), SortKey(Int(b))) == LexCmp([a], [b]);
    assert [a][1..] == [] && [b][1..] == [];
    assert LexCmp([a], [b]) == if a < b then -1 else if a > b then 1 else LexCmp([], []);
  }

  /** `get` returns the matching row with the largest id, formatted, and
      `None` exactly when no row matches. */
  lemma GetReturnsLargestId(db: Db, dao: Dao, q: Dict<PyVal>)
    requires dao.tablename in db.tables && WellFormed(db.tables[dao.tablename])
    requires Get(db, dao, Some(q)).Ok?
    ensures var t := db.tables[dao.tablename];
      var rows := Select(t.rows, SearchSql(t.columns, q).value);
      && (Get(db, dao, Some(q)).value.None? <==> |rows| == 0)
      && (Get(db, dao, Some(q)).value.Some? ==>
            exists top :: top in rows && Get(db, dao, Some(q)).value.value == TypeToJson(top)
              && forall row :: row in rows ==> IdOf(row) <= IdOf(top))
  {
    var t := db.tables[dao.tablename];
    var rows := Select(t.rows, SearchSql(t.columns, q).value);
    GetIsTop(db, dao, q);
    if |rows| > 0 {
      HighestId(t, rows);
    }
  }

  /** What a successful `get` returns, in terms of the selected rows. */
  lemma GetIsTop(db: Db, dao: Dao, q: Dict<PyVal>)
    requires Get(db, dao, Some(q)).Ok?
    ensures dao.tablename in db.tables
    ensures var t := db.tables[dao.tablename];
      var rows := Select(t.rows, SearchSql(t.columns, q).value);
      Get(db, dao, Some(q)).value == if |rows| == 0 then None else Some(TypeToJson(SortRows(rows, "id", true)[0]))
  {
    var t := db.tables[dao.tablename];
    assert LookupTable(db, dao.tablename) == Ok(t);
    var ps := SearchSql(t.columns, q).value;
    assert RunSelect(db, t, ps) == Ok(Select(t.rows, ps));
  }

  /** The head of the rows sorted by descending `id` has the largest id. */
  lemma HighestId(t: Table, rows: seq<Row>)
    requires WellFormed(t) && |rows| > 0
    requires forall row :: row in rows ==> row in t.rows
    ensures var top := SortRows(rows, "id", true)[0];
      top in rows && forall row :: row in rows ==> HasId(row) && IdOf(row) <= IdOf(top)
  {
    SortedHeadIsMax(rows, "id");
    var top := SortRows(rows, "id", true)[0];
    forall row | row in rows ensures HasId(row) && IdOf(row) <= IdOf(top) {
      assert row in t.rows && top in t.rows;
      OrderLeInt(IdOf(row), IdOf(top));
    }
  }

  /** `count(q)` is the length of the unpaged `query(q)`, whatever the sorter. */
  lemma CountIsUnpagedQueryLength(db: Db, dao: Dao, q: Option<Dict<PyVal>>, sorter: Option<Sorter>)
    ensures Count(db, dao, q).Ok? <==> Query(db, dao, q, None, sorter).Ok?
    ensures Count(db, dao, q).Ok? ==> Count(db, dao, q).value == |Query(db, dao, q, None, sorter).value|
  {
    var sel := Selected(db, dao, q);
    if sel.Ok? {
      NoPagerKeepsAll(Ordered(sel.value.0.columns, sel.value.1, sorter));
    }
  }

  /** Page `p` of size `n` is the slice `[(p-1)*n, p*n)` of the unpaged result. */
  lemma QueryPageIsSlice(db: Db, dao: Dao, q: Option<Dict<PyVal>>, sorter: Option<Sorter>, p: int, n: int)
    requires p >= 1 && n >= 1
    requires Query(db, dao, q, None, sorter).Ok?
    ensures var all := Query(db, dao, q, None, sorter).value;
      Query(db, dao, q, Some(Pager(Some(p), Some(n))), sorter) == Ok(Page(all, p, n))
  {
    var sel := Selected(db, dao, q).value;
    var ordered := Ordered(sel.0.columns, sel.1, sorter);
    QueryWindow(db, dao, q, None, sorter);
    QueryWindow(db, dao, q, Some(Pager(Some(p), Some(n))), sorter);
    PagedFormat(ordered, p, n);
  }

  /** Without a pager, `query` runs exactly when the selection does and
      returns every selected row, formatted: in storage order when there is
      no sorter (no ORDER BY), and otherwise sorted by the sorter's column,
      `id` when it names none, in the direction `desc` picks. */
  lemma UnpagedQueryIsSortedSelection(db: Db, dao: Dao, q: Option<Dict<PyVal>>, sorter: Option<Sorter>)
    ensures Query(db, dao, q, None, sorter).Ok? <==> Selected(db, dao, q).Ok?
    ensures Selected(db, dao, q).Ok? ==>
      var sel := Selected(db, dao, q).value;
      Query(db, dao, q, None, sorter) == Ok(Format(Ordered(sel.0.columns, sel.1, sorter)))
  {
    if Selected(db, dao, q).Ok? {
      var sel := Selected(db, dao, q).value;
      NoPagerKeepsAll(Ordered(sel.0.columns, sel.1, sorter));
    }
  }

  /** `query` formats the window of the ordered selection. */
  lemma QueryWindow(db: Db, dao: Dao, q: Option<Dict<PyVal>>, pager: Option<Pager>, sorter: Option<Sorter>)
    requires Selected(db, dao, q).Ok?
    ensures var sel := Selected(db, dao, q).value;
      var w := ApplyWindow(Ordered(sel.0.columns, sel.1, sorter), PagerWindow(pager));
      Query(db, dao, q, pager, sorter) == if w.Ok? then Ok(Format(w.value)) else Err(w.error)
  {
  }

  /** The unpaged and the paged window of the same rows, formatted. */
  lemma PagedFormat(rows: seq<Row>, p: int, n: int)
    requires p >= 1 && n >= 1
    ensures ApplyWindow(rows, PagerWindow(None)) == Ok(rows)
    ensures ApplyWindow(rows, PagerWindow(Some(Pager(Some(p), Some(n))))) == Ok(Page(rows, p, n))
    ensures Format(Page(rows, p, n)) == Page(Format(rows), p, n)
  {
    NoPagerKeepsAll(rows);
    PageSlice(rows, p, n);
    assert (p - 1) * n <= p * n;
    var lo, hi := Min((p - 1) * n, |rows|), Min(p * n, |rows|);
    assert Page(rows, p, n) == rows[lo..hi];
    assert Page(Format(rows), p, n) == Format(rows)[lo..hi];
    FormatSlice(rows, lo, hi);
  }

  lemma FormatSlice(rows: seq<Row>, lo: int, hi: int)
    requires 0 <= lo <= hi <= |rows|
    ensures Format(rows[lo..hi]) == Format(rows)[lo..hi]
  {
    var a, b := Format(rows[lo..hi]), Format(rows)[lo..hi];
    assert |a| == |b|;
    forall i | 0 <= i < |a| ensures a[i] == b[i] {
      assert rows[lo..hi][i] == rows[lo + i];
    }
  }

  /** A `sort_by` that names no column sorts by `id`. */
  lemma UnknownSortByIsId(db: Db, dao: Dao, q: Option<Dict<PyVal>>, pager: Option<Pager>, s: Sorter)
    requires dao.tablename in db.tables && s.sortBy !in db.tables[dao.tablename].columns
    ensures Query(db, dao, q, pager, Some(s)) == Query(db, dao, q, pager, Some(Sorter("id", s.desc)))
  {
    var t := db.tables[dao.tablename];
    if "id" in t.columns {
      assert SortColumn(t.columns, Sorter("id", s.desc)) == "id";
    }
  }

  /** An empty where-dict, or one naming no column, deletes every row. */
  lemma UnknownKeysDeleteEverything(db: Db, dao: Dao, w: Dict<PyVal>)
    requires dao.tablename in db.tables && db.fault.None?
    requires forall i :: 0 <= i < |w| ==> w[i].0 !in db.tables[dao.tablename].columns
    ensures Delete(db, dao, Some(w)).1 == Ok(|db.tables[dao.tablename].rows|)
    ensures Delete(db, dao, Some(w)).0.tables[dao.tablename].rows == []
  {
    var t := db.tables[dao.tablename];
    var ps := WherePreds(t.columns, w);
    assert ps == [] by {
      if |ps| > 0 { assert ps[0].col in t.columns; WherePredsKeys(t.columns, w, 0); }
    }
    SelectAll(t.rows);
  }

  lemma {:induction false} WherePredsKeys(columns: seq<string>, w: Dict<PyVal>, j: int)
    requires 0 <= j < |WherePreds(columns, w)|
    ensures exists i :: 0 <= i < |w| && w[i].0 == WherePreds(columns, w)[j].col
  {
    var head := if w[0].0 in columns then [Eq(w[0].0, w[0].1)] else [];
    if j < |head| {
      assert WherePreds(columns, w)[j] == head[0];
    } else {
      WherePredsKeys(columns, w[1..], j - |head|);
      var i :| 0 <= i < |w[1..]| && w[1..][i].0 == WherePreds(columns, w[1..])[j - |head|].col;
      assert w[i + 1] == w[1..][i];
    }
  }

  lemma {:induction false} SelectAll(rows: seq<Row>)
    ensures Select(rows, []) == rows
    ensures Reject(rows, []) == []
  {
    if |rows| > 0 {
      SelectAll(rows[1..]);
      assert rows == [rows[0]] + rows[1..];
    }
  }

  /** Rows a soft-deleting filter lets through have a NULL `deleted_at`. */
  lemma ScopedSelectIsLive(columns: seq<string>, q: Dict<PyVal>, row: Row)
    requires "deleted_at" in columns
    requires SearchSql(columns, Put(q, "deleted_at", Scalar(Null))).Ok?
    requires EvalAll(SearchSql(columns, Put(q, "deleted_at", Scalar(Null))).value, row)
    ensures Field(row, "deleted_at") == Null
  {
    var scoped := Put(q, "deleted_at", Scalar(Null));
    var f := (k, pv) => CompileKey(columns, k, pv);
    CompileAllEval(scoped, f, row);
    var i := GetIndex(scoped, "deleted_at");
    NoneIsNull(columns, "deleted_at", row);
    assert EvalAll(f(scoped[i].0, scoped[i].1).value, row);
  }

  /** The business `query` returns only rows whose `deleted_at` is NULL
      unless `unscoped` is set. */
  lemma BQueryReturnsLiveRows(db: Db, dao: Dao, q: Option<Dict<PyVal>>, pager: Option<Pager>, sorter: Option<Sorter>)
    requires dao.tablename in db.tables && "deleted_at" in db.tables[dao.tablename].columns
    requires BQuery(db, dao, q, pager, sorter, false).1.Ok?
    ensures forall r :: r in BQuery(db, dao, q, pager, sorter, false).1.value ==> "deleted_at" in r ==> r["deleted_at"] == Null
  {
    var t := db.tables[dao.tablename];
    var scoped := Put(OrEmpty(q), "deleted_at", Scalar(Null));
    QueryWindow(db, dao, Some(scoped), pager, sorter);
    var rows := Selected(db, dao, Some(scoped)).value.1;
    var ordered := Ordered(t.columns, rows, sorter);
    var page := ApplyWindow(ordered, PagerWindow(pager)).value;
    assert BQuery(db, dao, q, pager, sorter, false).1.value == Format(page);
    forall x | x in page ensures Field(x, "deleted_at") == Null {
      assert x in rows by {
        assert x in multiset(ordered);
      }
      ScopedSelectIsLive(t.columns, OrEmpty(q), x);
    }
    FormatKeepsNull(page, "deleted_at");
  }

  /** Formatting leaves a NULL field NULL. */
  lemma FormatKeepsNull(rows: seq<Row>, col: string)
    requires forall x :: x in rows ==> Field(x, col) == Null
    ensures forall r :: r in Format(rows) ==> col in r ==> r[col] == Null
  {
    forall r | r in Format(rows) && col in r ensures r[col] == Null {
      var j :| 0 <= j < |rows| && Format(rows)[j] == r;
      assert rows[j] in rows;
    }
  }

  /** A soft delete never removes a row, and repeating it affects no row. */
  lemma SoftDeleteIdempotent(db: Db, dao: Dao, w: Dict<PyVal>, modifyBy: string, now: Timestamp, now2: Timestamp)
    requires dao.tablename in db.tables && WellFormed(db.tables[dao.tablename])
    requires "deleted_at" in db.tables[dao.tablename].columns
    requires BDelete(db, dao, Some(w), false, modifyBy, now).1.Ok?
    ensures var db1 := BDelete(db, dao, Some(w), false, modifyBy, now).0;
      && |db1.tables[dao.tablename].rows| == |db.tables[dao.tablename].rows|
      && BDelete(db1, dao, Some(w), false, modifyBy, now2).1.Ok?
      && BDelete(db1, dao, Some(w), false, modifyBy, now2).1.value == 0
  {
    var t := db.tables[dao.tablename];
    var ps := WherePreds(t.columns, Put(w, "deleted_at", Scalar(Null)));
    SoftDeleteRuns(db, dao, w, modifyBy, now);
    var t1 := UpdateRows(t, ps, SoftDeleteData(modifyBy, now)).value.0;
    var db1 := WithTable(db, dao.tablename, t1);
    assert db1.tables[dao.tablename] == t1;
    DeletedRowsNotLive(t, w, modifyBy, now);
    NoneSelected(t1.rows, ps);
    SoftDeleteRuns(db1, dao, w, modifyBy, now2);
    SoftDeleteAllowed(t, t1, ps, modifyBy, now, now2);
    UpdateNothing(db1, dao.tablename, t1, ps, SoftDeleteData(modifyBy, now2));
  }

  /** The soft-delete SET list is refused or accepted whatever the time,
      on any table with the same columns. */
  lemma SoftDeleteAllowed(t: Table, t1: Table, ps: seq<Pred>, modifyBy: string, now: Timestamp, now2: Timestamp)
    requires t1.columns == t.columns
    requires UpdateError(t, ps, SoftDeleteData(modifyBy, now)).None?
    ensures UpdateError(t1, ps, SoftDeleteData(modifyBy, now2)).None?
  {
    assert !HasKey(SoftDeleteData(modifyBy, now2), "id");
  }

  /** An accepted UPDATE whose WHERE chain selects nothing affects no row. */
  lemma UpdateNothing(db: Db, name: string, t: Table, ps: seq<Pred>, data: Dict<Value>)
    requires db.fault.None? && UpdateError(t, ps, data).None? && Select(t.rows, ps) == []
    ensures RunUpdate(db, name, t, ps, data).1 == Ok(0)
  {
  }

  /** A soft delete is the UPDATE of the live rows `w` selects. */
  lemma SoftDeleteRuns(db: Db, dao: Dao, w: Dict<PyVal>, modifyBy: string, now: Timestamp)
    requires dao.tablename in db.tables
    ensures var t := db.tables[dao.tablename];
      BDelete(db, dao, Some(w), false, modifyBy, now)
        == RunUpdate(db, dao.tablename, t, WherePreds(t.columns, Put(w, "deleted_at", Scalar(Null))), SoftDeleteData(modifyBy, now))
  {
  }

  /** After a soft delete no row of the table passes the live filter. */
  lemma DeletedRowsNotLive(t: Table, w: Dict<PyVal>, modifyBy: string, now: Timestamp)
    requires WellFormed(t) && "deleted_at" in t.columns
    requires var ps := WherePreds(t.columns, Put(w, "deleted_at", Scalar(Null)));
      UpdateRows(t, ps, SoftDeleteData(modifyBy, now)).Ok?
    ensures var ps := WherePreds(t.columns, Put(w, "deleted_at", Scalar(Null)));
      var t1 := UpdateRows(t, ps, SoftDeleteData(modifyBy, now)).value.0;
      forall i :: 0 <= i < |t1.rows| ==> !EvalAll(ps, t1.rows[i])
  {
    var scoped := Put(w, "deleted_at", Scalar(Null));
    var ps := WherePreds(t.columns, scoped);
    var data := SoftDeleteData(modifyBy, now);
    var t1 := UpdateRows(t, ps, data).value.0;
    var i0 := GetIndex(scoped, "deleted_at");
    forall i | 0 <= i < |t1.rows| ensures !EvalAll(ps, t1.rows[i]) {
      WherePredsEval(t.columns, scoped, t1.rows[i]);
      if EvalAll(ps, t.rows[i]) {
        assert t1.rows[i] == Patch(t.rows[i], data);
        assert "deleted_at" in t.rows[i];
        assert t1.rows[i]["deleted_at"] == now;
      } else {
        WherePredsEval(t.columns, scoped, t.rows[i]);
      }
    }
  }

  lemma {:induction false} NoneSelected(rows: seq<Row>, ps: seq<Pred>)
    requires forall i :: 0 <= i < |rows| ==> !EvalAll(ps, rows[i])
    ensures Select(rows, ps) == []
  {
    if |rows| > 0 {
      NoneSelected(rows[1..], ps);
    }
  }
}

=== FILE: easyapi_sql.dfy ===
/** easyapi's filter compiler `search_sql` (easyapi/sql.py) and the `Pager`
    and `Sorter` records. A filter dict maps a bare column name, or a column
    name behind one of the prefixes `_gt_`, `_gte_`, `_lt_`, `_lte_`, `_like_`,
    `_search_`, `_in_`, to a value or a list of values. */
module EasySql {
  import opened Wrappers
  import opened Text
  import opened Values
  import opened Dicts
  import opened Errors
  import opened Preds
  import Like

  /** `Pager(page=None, per_page=None)`. */
  datatype Pager = Pager(page: Option<int>, perPage: Option<int>)

  /** `Sorter(sort_by='id', desc=True)`. */
  datatype Sorter = Sorter(sortBy: string, desc: bool)

  const DefaultPager := Pager(None, None)
  const DefaultSorter := Sorter("id", true)

  /** The values a key is compiled against: a list as it is, anything else
      as a one-element list. */
  function ValuesOf(pv: PyVal): seq<Value>
  {
    match pv
    case Scalar(v) => [v]
    case List(items) => items
  }

  predicate AllStr(vs: seq<Value>)
  {
    forall i :: 0 <= i < |vs| ==> vs[i].Str?
  }

  /** `for v in values: sql = sql.where(getattr(table.c, col) <op> v)`. The
      column is looked up inside the loop, so an empty list neither adds a
      predicate nor raises. */
  function EachCmp(columns: seq<string>, col: string, vs: seq<Value>, op: CmpOp): Result<seq<Pred>, Exc>
  {
    if |vs| == 0 then Ok([])
    else if col !in columns then Err(AttributeError(col))
    else Ok(seq(|vs|, i requires 0 <= i < |vs| => Cmp(op, col, vs[i])))
  }

  /** `for v in values: sql = sql.where(getattr(table.c, col).like(pre + v + post))`:
      the column lookup raises before the concatenation, which raises a
      TypeError for a value that is not a string. */
  function EachLike(columns: seq<string>, col: string, vs: seq<Value>, pre: string, post: string): Result<seq<Pred>, Exc>
  {
    if |vs| == 0 then Ok([])
    else if col !in columns then Err(AttributeError(col))
    else if !AllStr(vs) then Err(TypeError("can only concatenate str to str"))
    else Ok(seq(|vs|, i requires 0 <= i < |vs| => LikePat(col, Str(pre + vs[i].s + post))))
  }

  /** What one key of the filter contributes to the WHERE chain. */
  function CompileKey(columns: seq<string>, k: string, pv: PyVal): (r: Result<seq<Pred>, Exc>)
    ensures r.Ok? ==> OnColumns(r.value, columns)
    ensures r.Err? ==> r.error.AttributeError? || r.error.IndexError? || r.error.TypeError?
  {
    var vs := ValuesOf(pv);
    if StartsWith(k, "_gt_") then EachCmp(columns, k[4..], vs, Gt)
    else if StartsWith(k, "_gte_") then EachCmp(columns, k[5..], vs, Gte)
    else if StartsWith(k, "_lt_") then EachCmp(columns, k[4..], vs, Lt)
    else if StartsWith(k, "_lte_") then EachCmp(columns, k[5..], vs, Lte)
    else if StartsWith(k, "_like_") then EachLike(columns, k[6..], vs, "", "%")
    else if StartsWith(k, "_search_") then EachLike(columns, k[6..], vs, "%", "%")
    else if StartsWith(k, "_in_") then
      if |vs| == 0 then Ok([])
      else if k[4..] !in columns then Err(AttributeError(k[4..]))
      else Ok([In(k[4..], vs)])
    else if k !in columns then Err(AttributeError(k))
    else if |vs| == 0 then Err(IndexError)
    else Ok([Eq(k, Scalar(vs[0]))])
  }

  /** `search_sql(sql, query, table)`: the predicates ANDed onto `sql`. */
  function SearchSql(columns: seq<string>, q: Dict<PyVal>): (r: Result<seq<Pred>, Exc>)
    ensures r.Ok? ==> OnColumns(r.value, columns)
  {
    CompileAllOnColumns(q, (k, pv) => CompileKey(columns, k, pv), columns);
    CompileAll(q, (k, pv) => CompileKey(columns, k, pv))
  }

  /** The operator prefix of a key, the column it names and the pattern
      wrapper of the LIKE prefixes. */
  datatype KeyShape =
    | CmpKey(op: CmpOp, col: string)
    | LikeKey(col: string, pre: string, post: string)
    | InKey(col: string)
    | EqKey(col: string)

  function Shape(k: string): KeyShape
  {
    if StartsWith(k, "_gt_") then CmpKey(Gt, k[4..])
    else if StartsWith(k, "_gte_") then CmpKey(Gte, k[5..])
    else if StartsWith(k, "_lt_") then CmpKey(Lt, k[4..])
    else if StartsWith(k, "_lte_") then CmpKey(Lte, k[5..])
    else if StartsWith(k, "_like_") then LikeKey(k[6..], "", "%")
    else if StartsWith(k, "_search_") then LikeKey(k[6..], "%", "%")
    else if StartsWith(k, "_in_") then InKey(k[4..])
    else EqKey(k)
  }

  /** When a key compiles: an empty list always does, except for a bare key,
      which needs a first value; otherwise the column must exist and LIKE
      operands must be strings. */
  predicate KeyOk(columns: seq<string>, k: string, pv: PyVal)
  {
    var vs := ValuesOf(pv);
    match Shape(k)
    case CmpKey(_, c) => |vs| == 0 || c in columns
    case LikeKey(c, _, _) => |vs| == 0 || (c in columns && AllStr(vs))
    case InKey(c) => |vs| == 0 || c in columns
    case EqKey(c) => c in columns && |vs| > 0
  }

  /** What a key asks of a row, stated on the values rather than on the
      emitted SQL: every value bounds the column, every LIKE value is a
      prefix (`_like_`) or a substring (`_search_`) of the column's text, the
      column is one of the `_in_` values, or equals the first value. */
  predicate KeyHolds(k: string, pv: PyVal, row: Row)
  {
    var vs := ValuesOf(pv);
    match Shape(k)
    case CmpKey(op, c) => forall i :: 0 <= i < |vs| ==> CmpHolds(op, Field(row, c), vs[i])
    case LikeKey(c, pre, _) => forall i :: 0 <= i < |vs| ==> TextMatches(Field(row, c), pre == "", vs[i])
    case InKey(c) => |vs| == 0 || InList(Field(row, c), vs)
    case EqKey(c) => |vs| > 0 && EqHolds(Field(row, c), Scalar(vs[0]))
  }

  /** The column's text starts with (`prefix`) or contains the string `v`. */
  predicate TextMatches(a: Value, prefix: bool, v: Value)
  {
    v.Str? && LikeText(a).Some?
    && (if prefix then StartsWith(LikeText(a).value, v.s) else Contains(LikeText(a).value, v.s))
  }

  /** A filter whose LIKE values hold no `%` of their own. */
  predicate NoWildcards(q: Dict<PyVal>)
  {
    forall i :: 0 <= i < |q| ==> forall j :: 0 <= j < |ValuesOf(q[i].1)| ==>
      ValuesOf(q[i].1)[j].Str? ==> '%' !in ValuesOf(q[i].1)[j].s
  }

  /** A key compiles exactly when `KeyOk` says so. */
  lemma CompileKeyOk(columns: seq<string>, k: string, pv: PyVal)
    ensures CompileKey(columns, k, pv).Ok? <==> KeyOk(columns, k, pv)
  {
  }

  /** `search_sql` succeeds iff every key compiles; the first failing key's
      exception is the one raised. */
  lemma SearchSqlOk(columns: seq<string>, q: Dict<PyVal>)
    ensures SearchSql(columns, q).Ok? <==> forall i :: 0 <= i < |q| ==> KeyOk(columns, q[i].0, q[i].1)
  {
    var f := (k, pv) => CompileKey(columns, k, pv);
    CompileAllOk(q, f);
    forall i | 0 <= i < |q| ensures f(q[i].0, q[i].1).Ok? <==> KeyOk(columns, q[i].0, q[i].1) {
      CompileKeyOk(columns, q[i].0, q[i].1);
    }
  }

  lemma EvalEachCmp(columns: seq<string>, col: string, vs: seq<Value>, op: CmpOp, row: Row)
    requires EachCmp(columns, col, vs, op).Ok?
    ensures EvalAll(EachCmp(columns, col, vs, op).value, row)
        <==> forall i :: 0 <= i < |vs| ==> CmpHolds(op, Field(row, col), vs[i])
  {
    var ps := EachCmp(columns, col, vs, op).value;
    if |vs| > 0 {
      assert forall i :: 0 <= i < |vs| ==> ps[i] == Cmp(op, col, vs[i]);
    }
  }

  /** `v%` is a prefix test and `%v%` a substring test on the column's text. */
  lemma LikeOneValue(a: Value, pre: string, v: string, post: string)
    requires '%' !in v
    requires (pre == "" && post == "%") || (pre == "%" && post == "%")
    ensures LikeHolds(a, Str(pre + v + post))
        <==> LikeText(a).Some? && (if pre == "" then StartsWith(LikeText(a).value, v) else Contains(LikeText(a).value, v))
  {
    assert LikeText(Str(pre + v + post)) == Some(pre + v + post);
    if LikeText(a).Some? {
      if pre == "" {
        assert pre + v + post == v + "%";
        Like.PrefixPattern(LikeText(a).value, v);
      } else {
        Like.SubstringPattern(LikeText(a).value, v);
      }
    }
  }

  lemma EvalEachLike(columns: seq<string>, col: string, vs: seq<Value>, pre: string, post: string, row: Row)
    requires EachLike(columns, col, vs, pre, post).Ok?
    requires (pre == "" && post == "%") || (pre == "%" && post == "%")
    requires forall j :: 0 <= j < |vs| ==> vs[j].Str? ==> '%' !in vs[j].s
    ensures EvalAll(EachLike(columns, col, vs, pre, post).value, row)
        <==> forall i :: 0 <= i < |vs| ==> TextMatches(Field(row, col), pre == "", vs[i])
  {
    var ps := EachLike(columns, col, vs, pre, post).value;
    forall i | 0 <= i < |vs| ensures Eval(ps[i], row) <==> TextMatches(Field(row, col), pre == "", vs[i]) {
      assert ps[i] == LikePat(col, Str(pre + vs[i].s + post));
      LikeOneValue(Field(row, col), pre, vs[i].s, post);
    }
  }

  /** The predicates a key compiles to hold on a row iff the key's meaning does. */
  lemma CompileKeySound(columns: seq<string>, k: string, pv: PyVal, row: Row)
    requires CompileKey(columns, k, pv).Ok?
    requires forall j :: 0 <= j < |ValuesOf(pv)| ==> ValuesOf(pv)[j].Str? ==> '%' !in ValuesOf(pv)[j].s
    ensures EvalAll(CompileKey(columns, k, pv).value, row) <==> KeyHolds(k, pv, row)
  {
    var vs := ValuesOf(pv);
    match Shape(k)
    case CmpKey(op, c) => EvalEachCmp(columns, c, vs, op, row);
    case LikeKey(c, pre, post) => EvalEachLike(columns, c, vs, pre, post, row);
    case InKey(c) =>
      if |vs| > 0 {
        assert CompileKey(columns, k, pv).value == [In(c, vs)];
        EvalAllSingleton(In(c, vs), row);
      }
    case EqKey(c) =>
      var p := Eq(c, Scalar(vs[0]));
      assert CompileKey(columns, k, pv).value == [p];
      EvalAllSingleton(p, row);
  }

  lemma EvalAllSingleton(p: Pred, row: Row)
    ensures EvalAll([p], row) <==> Eval(p, row)
  {
    assert [p][0] == p;
  }

  /** A key that does not start with `_` is a bare column name. */
  lemma BareShape(k: string)
    requires |k| == 0 || k[0] != '_'
    ensures Shape(k) == EqKey(k)
  {
    if |k| > 0 {
      forall p | |p| > 0 && p[0] == '_' ensures !StartsWith(k, p) {
        if |p| <= |k| { assert k[..|p|][0] == k[0]; }
      }
    }
  }

  /** Soundness of `search_sql`: a row passes the compiled WHERE chain iff it
      satisfies every key of the filter. */
  lemma SearchSqlSound(columns: seq<string>, q: Dict<PyVal>, row: Row)
    requires SearchSql(columns, q).Ok?
    requires NoWildcards(q)
    ensures EvalAll(SearchSql(columns, q).value, row) <==> forall i :: 0 <= i < |q| ==> KeyHolds(q[i].0, q[i].1, row)
  {
    var f := (k, pv) => CompileKey(columns, k, pv);
    CompileAllEval(q, f, row);
    forall i | 0 <= i < |q| ensures EvalAll(f(q[i].0, q[i].1).value, row) <==> KeyHolds(q[i].0, q[i].1, row) {
      CompileKeySound(columns, q[i].0, q[i].1, row);
    }
  }

  /** A scalar value compiles exactly as the one-element list holding it. */
  lemma ScalarIsSingleton(columns: seq<string>, k: string, v: Value)
    ensures CompileKey(columns, k, Scalar(v)) == CompileKey(columns, k, List([v]))
  {
  }

  /** A comparison prefix adds one predicate per value, on the column named by
      the rest of the key. */
  lemma ComparisonPerValue(columns: seq<string>, c: string, vs: seq<Value>)
    requires c in columns
    ensures var r := CompileKey(columns, "_gte_" + c, List(vs));
      r.Ok? && |r.value| == |vs| && forall i :: 0 <= i < |vs| ==> r.value[i] == Cmp(Gte, c, vs[i])
  {
    var k := "_gte_" + c;
    assert k[..5] == "_gte_" && k[5..] == c;
    assert !StartsWith(k, "_gt_") by { assert k[3] == 'e'; }
  }

  /** `_in_` with an empty list contributes nothing: the filter compiles as if
      the key were absent. */
  lemma EmptyInIsIgnored(columns: seq<string>, c: string, q: Dict<PyVal>)
    ensures SearchSql(columns, [("_in_" + c, List([]))] + q) == SearchSql(columns, q)
  {
    var k := "_in_" + c;
    assert k[..4] == "_in_";
    assert !StartsWith(k, "_gt_") && !StartsWith(k, "_gte_") && !StartsWith(k, "_lt_") && !StartsWith(k, "_lte_") by { assert k[1] == 'i'; }
    assert !StartsWith(k, "_like_") && !StartsWith(k, "_search_") by { assert k[1] == 'i'; }
    CompileAllSkip(k, List([]), q, (k, pv) => CompileKey(columns, k, pv));
  }

  /** A bare key keeps only the first value; an empty list raises IndexError
      once the column is found; a missing column raises AttributeError first. */
  lemma BareKeyUsesFirstValue(columns: seq<string>, c: string, vs: seq<Value>)
    requires |c| == 0 || c[0] != '_'
    ensures c !in columns ==> CompileKey(columns, c, List(vs)) == Err(AttributeError(c))
    ensures c in columns && |vs| == 0 ==> CompileKey(columns, c, List(vs)) == Err(IndexError)
    ensures c in columns && |vs| > 0 ==> CompileKey(columns, c, List(vs)) == Ok([Eq(c, Scalar(vs[0]))])
  {
    BareShape(c);
  }

  /** A bare key bound to `None` compiles to `IS NULL`. */
  lemma NoneIsNull(columns: seq<string>, c: string, row: Row)
    requires c in columns && (|c| == 0 || c[0] != '_')
    ensures CompileKey(columns, c, Scalar(Null)).Ok?
    ensures EvalAll(CompileKey(columns, c, Scalar(Null)).value, row) <==> Field(row, c) == Null
  {
    BareShape(c);
    assert CompileKey(columns, c, Scalar(Null)).value == [Eq(c, Scalar(Null))];
    EvalAllSingleton(Eq(c, Scalar(Null)), row);
  }

  /** `_search_` strips six characters, not eight: `_search_name` looks up the
      column `h_name`, which a table with a `name` column lacks. */
  lemma SearchStripsSix(columns: seq<string>, v: string)
    requires "h_name" !in columns
    ensures CompileKey(columns, "_search_name", Scalar(Str(v))) == Err(AttributeError("h_name"))
  {
    var k := "_search_name";
    assert k[..4] == "_sea" && k[..5] == "_sear" && k[..6] == "_searc" && k[..8] == "_search_";
    assert k[6..] == "h_name";
  }
}

=== FILE: easyapi_tools_util.dfy ===
/** easyapi_tools/util.py: `str2hump` (CamelCase to snake_case, used for
    default table names), `type_to_json` (temporal values to text) and
    `DefaultUrlCondition.parser` (request arguments to query, pager and
    sorter dicts). */
module Tools {
  import opened Wrappers
  import opened Text
  import opened Values
  import opened Dicts
  import opened Errors

  // ---------------------------------------------------------------- str2hump

  /** An underscore goes before `s[i]` (i >= 1): it is upper case and either
      follows a character that is not, or starts a word after an acronym
      (the next character is lower case). */
  predicate Boundary(s: string, i: int)
    requires 1 <= i < |s|
  {
    IsUpper(s[i]) && (!IsUpper(s[i - 1]) || (i + 1 < |s| && IsLower(s[i + 1])))
  }

  /** The first `n` characters of `s` with the underscores inserted, before
      lower-casing. */
  function Humped(s: string, n: nat): (r: string)
    requires 1 <= n <= |s|
  {
    if n == 1 then [s[0]]
    else Humped(s, n - 1) + (if Boundary(s, n - 1) then "_" else "") + [s[n - 1]]
  }

  /** Number of underscores inserted among the first `n` characters. */
  function Insertions(s: string, n: nat): nat
    requires 1 <= n <= |s|
  {
    if n == 1 then 0 else Insertions(s, n - 1) + (if Boundary(s, n - 1) then 1 else 0)
  }

  /** `str2hump` raises IndexError on `""` (`listx[0]`) and when the last two
      characters are upper case (the second test reads `listx[i + 1]`). */
  predicate HumpFails(s: string)
  {
    |s| == 0 || (|s| >= 2 && IsUpper(s[|s| - 1]) && IsUpper(s[|s| - 2]))
  }

  function Str2HumpSpec(s: string): Result<string, Exc>
  {
    if HumpFails(s) then Err(IndexError) else Ok(Lower(Humped(s, |s|)))
  }

  /** `str2hump(listx)`, following the loop of the source. */
  method Str2Hump(s: string) returns (r: Result<string, Exc>)
    ensures r.Err? <==> HumpFails(s)
    ensures r == Str2HumpSpec(s)
    ensures r.Ok? ==> forall i :: 0 <= i < |r.value| ==> !IsUpper(r.value[i])
  {
    if |s| == 0 {
      return Err(IndexError);
    }
    var y := [s[0]];
    var i := 1;
    while i < |s|
      invariant 1 <= i <= |s|
      invariant y == Humped(s, i)
      invariant i == |s| && |s| >= 2 ==> !(IsUpper(s[|s| - 1]) && IsUpper(s[|s| - 2]))
    {
      if IsUpper(s[i]) && !IsUpper(s[i - 1]) {
        y := y + "_" + [s[i]];
      } else if IsUpper(s[i]) && IsUpper(s[i - 1]) {
        if i + 1 >= |s| {
          return Err(IndexError);
        }
        if IsLower(s[i + 1]) {
          y := y + "_" + [s[i]];
        } else {
          y := y + [s[i]];
        }
      } else {
        y := y + [s[i]];
      }
      i := i + 1;
    }
    return Ok(Lower(y));
  }

  /** Removing underscores from the humped prefix gives the prefix with its
      own underscores removed; its length grows by the insertions. */
  lemma {:induction false} HumpedShape(s: string, n: nat)
    requires 1 <= n <= |s|
    ensures Drop(Humped(s, n), '_') == Drop(s[..n], '_')
    ensures |Humped(s, n)| == n + Insertions(s, n)
  {
    if n == 1 {
      assert s[..1] == [s[0]];
    } else {
      HumpedShape(s, n - 1);
      var prev := Humped(s, n - 1);
      var mid := if Boundary(s, n - 1) then "_" else "";
      assert Humped(s, n) == prev + mid + [s[n - 1]];
      assert Insertions(s, n) == Insertions(s, n - 1) + |mid|;
      assert s[..n] == s[..n - 1] + [s[n - 1]];
      var c := [s[n - 1]];
      DropAppend(prev + mid, c, '_');
      DropAppend(prev, mid, '_');
      DropAppend(s[..n - 1], c, '_');
      assert Drop(mid, '_') == [] by {
        if mid == "_" { assert mid[1..] == []; }
      }
      assert Drop(prev + mid, '_') == Drop(prev, '_');
      assert Drop(Humped(s, n), '_') == Drop(prev, '_') + Drop(c, '_');
      assert |Humped(s, n)| == |prev| + |mid| + 1;
    }
  }

  /** Lower-casing keeps underscores where they are. */
  lemma {:induction false} DropLower(s: string)
    ensures Drop(Lower(s), '_') == Lower(Drop(s, '_'))
  {
    if |s| > 0 {
      DropLower(s[1..]);
      assert Lower(s)[1..] == Lower(s[1..]);
      assert ToLower(s[0]) == '_' <==> s[0] == '_';
      LowerAppend(if s[0] == '_' then [] else [s[0]], Drop(s[1..], '_'));
    }
  }

  /** The result of `str2hump` is the lower-cased input with one underscore
      inserted per word boundary: removing underscores from both gives the
      same text, and the length grows by exactly the number of insertions. */
  lemma Str2HumpInsertsUnderscores(s: string)
    requires !HumpFails(s)
    ensures Drop(Str2HumpSpec(s).value, '_') == Drop(Lower(s), '_')
    ensures |Str2HumpSpec(s).value| == |s| + Insertions(s, |s|)
  {
    HumpedShape(s, |s|);
    assert s[..|s|] == s;
    DropLower(Humped(s, |s|));
    DropLower(s);
  }

  lemma HumpedStep(s: string, n: nat, prev: string)
    requires 1 <= n < |s| && Humped(s, n) == prev
    ensures Humped(s, n + 1) == prev + (if Boundary(s, n) then "_" else "") + [s[n]]
  {
  }

  lemma LowerComplexUser(h: string)
    requires h == "Complex_User"
    ensures Lower(h) == "complex_user"
  {
    forall i | 0 <= i < |h| ensures Lower(h)[i] == "complex_user"[i] {
    }
  }

  lemma LowerHttpServer(h: string)
    requires h == "HTTP_Server"
    ensures Lower(h) == "http_server"
  {
    forall i | 0 <= i < |h| ensures Lower(h)[i] == "http_server"[i] {
    }
  }

  /** `ComplexUser` becomes `complex_user`. */
  lemma ComplexUserExample(s: string)
    requires s == "ComplexUser"
    ensures Str2HumpSpec(s) == Ok("complex_user")
  {
    assert s[0] == 'C' && s[1] == 'o' && s[2] == 'm' && s[3] == 'p' && s[4] == 'l' && s[5] == 'e'
      && s[6] == 'x' && s[7] == 'U' && s[8] == 's' && s[9] == 'e' && s[10] == 'r';
    HumpedStep(s, 1, "C");
    HumpedStep(s, 2, "Co");
    HumpedStep(s, 3, "Com");
    HumpedStep(s, 4, "Comp");
    HumpedStep(s, 5, "Compl");
    HumpedStep(s, 6, "Comple");
    HumpedStep(s, 7, "Complex");
    HumpedStep(s, 8, "Complex_U");
    HumpedStep(s, 9, "Complex_Us");
    HumpedStep(s, 10, "Complex_Use");
    assert !HumpFails(s) by { assert !IsUpper(s[9]); }
    LowerComplexUser(Humped(s, 11));
  }

  /** `HTTPServer` becomes `http_server`: the acronym stays one word. */
  lemma HttpServerExample(s: string)
    requires s == "HTTPServer"
    ensures Str2HumpSpec(s) == Ok("http_server")
  {
    assert s[0] == 'H' && s[1] == 'T' && s[2] == 'T' && s[3] == 'P' && s[4] == 'S' && s[5] == 'e'
      && s[6] == 'r' && s[7] == 'v' && s[8] == 'e' && s[9] == 'r';
    HumpedStep(s, 1, "H");
    HumpedStep(s, 2, "HT");
    HumpedStep(s, 3, "HTT");
    HumpedStep(s, 4, "HTTP");
    HumpedStep(s, 5, "HTTP_S");
    HumpedStep(s, 6, "HTTP_Se");
    HumpedStep(s, 7, "HTTP_Ser");
    HumpedStep(s, 8, "HTTP_Serv");
    HumpedStep(s, 9, "HTTP_Serve");
    assert !HumpFails(s) by { assert !IsUpper(s[8]); }
    LowerHttpServer(Humped(s, 10));
  }

  // ------------------------------------------------------------ type_to_json

  /** One value of `type_to_json`: `datetime` (checked before `date`, its
      base class) as `%Y-%m-%d %H:%M:%S`, `date` as `%Y-%m-%d`, `time` as
      `%H:%M:%S`; anything else unchanged. */
  function ToJson(v: Value): (r: Value)
  {
    match v
    case DateTime(y, mo, d, h, mi, s) => Str(FormatDateTime(y, mo, d, h, mi, s))
    case Date(y, mo, d) => Str(FormatDate(y, mo, d))
    case TimeOfDay(h, mi, s) => Str(FormatClock(h, mi, s))
    case _ => v
  }

  predicate Temporal(v: Value)
  {
    v.DateTime? || v.Date? || v.TimeOfDay?
  }

  /** `type_to_json(data)`. */
  function TypeToJson(data: Row): (r: Row)
    ensures r.Keys == data.Keys
    ensures forall k :: k in data && !Temporal(data[k]) ==> r[k] == data[k]
    ensures forall k :: k in data && Temporal(data[k]) ==> r[k].Str?
  {
    map k | k in data :: ToJson(data[k])
  }

  /** Formatting is idempotent: a formatted row has no temporal values left. */
  lemma TypeToJsonIdempotent(data: Row)
    ensures TypeToJson(TypeToJson(data)) == TypeToJson(data)
  {
  }

  /** Reads `YYYY-MM-DD HH:MM:SS` back into its six fields. */
  function ParseDateTime(s: string): Option<(int, int, int, int, int, int)>
  {
    if |s| != 19 || s[4] != '-' || s[7] != '-' || s[10] != ' ' || s[13] != ':' || s[16] != ':' then None
    else
      match (ParseNat(s[..4]), ParseNat(s[5..7]), ParseNat(s[8..10]), ParseNat(s[11..13]), ParseNat(s[14..16]), ParseNat(s[17..]))
      case (Some(y), Some(mo), Some(d), Some(h), Some(mi), Some(sec)) => Some((y, mo, d, h, mi, sec))
      case _ => None
  }

  /** The rendering of a `datetime` determines it. */
  lemma DateTimeRoundTrip(y: Year, mo: Month, d: Day, h: Hour, mi: Minute, sec: Second)
    ensures ToJson(DateTime(y, mo, d, h, mi, sec)).Str?
    ensures ParseDateTime(ToJson(DateTime(y, mo, d, h, mi, sec)).s) == Some((y as int, mo as int, d as int, h as int, mi as int, sec as int))
  {
    var s := FormatDateTime(y, mo, d, h, mi, sec);
    assert s == Pad4(y) + "-" + Pad2(mo) + "-" + Pad2(d) + " " + Pad2(h) + ":" + Pad2(mi) + ":" + Pad2(sec);
    assert s[..4] == Pad4(y);
    assert s[5..7] == Pad2(mo);
    assert s[8..10] == Pad2(d);
    assert s[11..13] == Pad2(h);
    assert s[14..16] == Pad2(mi);
    assert s[17..] == Pad2(sec);
    Pad4Parse(y);
    Pad2Parse(mo);
    Pad2Parse(d);
    Pad2Parse(h);
    Pad2Parse(mi);
    Pad2Parse(sec);
  }

  /** Reads `YYYY-MM-DD` back into its three fields. */
  function ParseDate(s: string): Option<(int, int, int)>
  {
    if |s| != 10 || s[4] != '-' || s[7] != '-' then None
    else
      match (ParseNat(s[..4]), ParseNat(s[5..7]), ParseNat(s[8..]))
      case (Some(y), Some(mo), Some(d)) => Some((y, mo, d))
      case _ => None
  }

  /** Reads `HH:MM:SS` back into its three fields. */
  function ParseClock(s: string): Option<(int, int, int)>
  {
    if |s| != 8 || s[2] != ':' || s[5] != ':' then None
    else
      match (ParseNat(s[..2]), ParseNat(s[3..5]), ParseNat(s[6..]))
      case (Some(h), Some(mi), Some(sec)) => Some((h, mi, sec))
      case _ => None
  }

  /** The `%Y-%m-%d` rendering of a `date` determines it. */
  lemma DateRoundTrip(y: Year, mo: Month, d: Day)
    ensures ToJson(Date(y, mo, d)).Str?
    ensures ParseDate(ToJson(Date(y, mo, d)).s) == Some((y as int, mo as int, d as int))
  {
    var s := FormatDate(y, mo, d);
    assert s == Pad4(y) + "-" + Pad2(mo) + "-" + Pad2(d);
    assert s[..4] == Pad4(y);
    assert s[5..7] == Pad2(mo);
    assert s[8..] == Pad2(d);
    Pad4Parse(y);
    Pad2Parse(mo);
    Pad2Parse(d);
  }

  /** The `%H:%M:%S` rendering of a `time` determines it. */
  lemma TimeRoundTrip(h: Hour, mi: Minute, sec: Second)
    ensures ToJson(TimeOfDay(h, mi, sec)).Str?
    ensures ParseClock(ToJson(TimeOfDay(h, mi, sec)).s) == Some((h as int, mi as int, sec as int))
  {
    var s := FormatClock(h, mi, sec);
    assert s == Pad2(h) + ":" + Pad2(mi) + ":" + Pad2(sec);
    assert s[..2] == Pad2(h);
    assert s[3..5] == Pad2(mi);
    assert s[6..] == Pad2(sec);
    Pad2Parse(h);
    Pad2Parse(mi);
    Pad2Parse(sec);
  }

  // --------------------------------------------------- DefaultUrlCondition

  datatype Bucket = ToQuery | ToPager | ToSorter

  /** Where `parser` files an argument: `_per_page` and `_page` in the pager,
      `_order_by` and `_desc` in the sorter, under the same key. */
  function Route(k: string): Bucket
  {
    if k == "_per_page" || k == "_page" then ToPager
    else if k == "_order_by" || k == "_desc" then ToSorter
    else ToQuery
  }

  datatype Parsed<V> = Parsed(query: Dict<V>, pager: Dict<V>, sorter: Dict<V>)

  /** The loop of `parser` over the first `|args|` entries. */
  function ParseEntries<V>(args: Dict<V>): (r: Parsed<V>)
    ensures forall k :: HasKey(r.query, k) ==> Route(k) == ToQuery
    ensures forall k :: HasKey(r.pager, k) ==> Route(k) == ToPager
    ensures forall k :: HasKey(r.sorter, k) ==> Route(k) == ToSorter
  {
    if |args| == 0 then Parsed([], [], [])
    else
      var p := ParseEntries(args[..|args| - 1]);
      var (k, v) := args[|args| - 1];
      match Route(k)
      case ToPager => p.(pager := Put(p.pager, k, v))
      case ToSorter => p.(sorter := Put(p.sorter, k, v))
      case ToQuery => p.(query := Put(p.query, k, v))
  }

  /** `DefaultUrlCondition.parser(args)`: `None` and `{}` give three empty dicts. */
  function UrlParser<V>(args: Option<Dict<V>>): (r: Parsed<V>)
    ensures args.None? || |args.value| == 0 ==> r == Parsed([], [], [])
  {
    if args.None? || |args.value| == 0 then Parsed([], [], []) else ParseEntries(args.value)
  }

  /** Each argument lands in exactly the dict its key routes to, with its
      value; the three dicts hold nothing else. */
  lemma {:induction false} ParseEntriesGet<V>(args: Dict<V>, k: string)
    requires UniqueKeys(args)
    ensures var p := ParseEntries(args);
      && Get(p.query, k) == (if Route(k) == ToQuery then Get(args, k) else None)
      && Get(p.pager, k) == (if Route(k) == ToPager then Get(args, k) else None)
      && Get(p.sorter, k) == (if Route(k) == ToSorter then Get(args, k) else None)
  {
    if |args| > 0 {
      var init := args[..|args| - 1];
      var (k0, v0) := args[|args| - 1];
      assert args == init + [(k0, v0)];
      ParseEntriesGet(init, k);
      GetAppend(init, k0, v0, k);
      if k == k0 {
        assert !HasKey(init, k0) by {
          forall i | 0 <= i < |init| ensures init[i].0 != k0 {
            assert init[i] == args[i];
          }
        }
        ParseEntriesGet(init, k0);
      }
    }
  }

  /** `parser` partitions the arguments: every key lands in the dict it routes
      to with its value, and in no other. */
  lemma UrlParserPartition<V>(args: Dict<V>, k: string)
    requires UniqueKeys(args)
    ensures var p := UrlParser(Some(args));
      && Get(p.query, k) == (if Route(k) == ToQuery then Get(args, k) else None)
      && Get(p.pager, k) == (if Route(k) == ToPager then Get(args, k) else None)
      && Get(p.sorter, k) == (if Route(k) == ToSorter then Get(args, k) else None)
  {
    ParseEntriesGet(args, k);
  }
}

=== FILE: errors.dfy ===
/** The exceptions that cross the layers of the engine, and the `BusinessError`
    record controllers raise (easy_admin/errors.py) with its `__str__`. */
module Errors {
  import opened Wrappers
  import opened Text
  import opened Values

  /** `BusinessError(code, http_code, err_info)`: the constructor stores the
      three fields unchanged, whatever their Python type. */
  datatype BusinessError = BusinessError(code: Value, httpCode: Value, errInfo: Value)

  /** The exceptions the model distinguishes. The first three are the
      SQLAlchemy classes controllers translate into a `BusinessError`. */
  datatype Exc =
    | OperationalError(msg: string)
    | IntegrityError(msg: string)
    | DataError(msg: string)
    | ProgrammingError(msg: string)       // other DB-API errors (bad SQL, e.g. a negative LIMIT)
    | StatementError(msg: string)         // SQLAlchemy refusing to build or bind a statement
    | AttributeError(name: string)
    | KeyError(key: string)
    | IndexError
    | TypeError(msg: string)
    | NotImplementedError(msg: string)
    | RecursionError
    | Business(err: BusinessError)

  /** The classes caught by `except (OperationalError, IntegrityError, DataError)`. */
  predicate IsStorageError(e: Exc)
  {
    e.OperationalError? || e.IntegrityError? || e.DataError?
  }

  const CodePrefix := "code: "
  const StatusInfix := " status code: "
  const InfoInfix := " err information: "

  /** `BusinessError.__str__`: every field goes through `str()`. */
  function Render(e: BusinessError): string
  {
    CodePrefix + PyStr(e.code) + StatusInfix + PyStr(e.httpCode) + InfoInfix + PyStr(e.errInfo)
  }

  predicate IsIntChar(c: char)
  {
    IsDigit(c) || c == '-'
  }

  /** Length of the longest prefix of `s` made of digits and minus signs. */
  function IntSpan(s: string): (n: nat)
    ensures n <= |s|
    ensures forall i :: 0 <= i < n ==> IsIntChar(s[i])
    ensures n < |s| ==> !IsIntChar(s[n])
  {
    if |s| == 0 || !IsIntChar(s[0]) then 0 else 1 + IntSpan(s[1..])
  }

  /** Reads back the integer code, integer status and message text of a
      rendered error; `None` when `s` is not such a rendering. */
  function ParseRendered(s: string): Option<(int, int, string)>
  {
    if !StartsWith(s, CodePrefix) then None
    else
      var a := s[|CodePrefix|..];
      var n := IntSpan(a);
      var b := a[n..];
      if !StartsWith(b, StatusInfix) then None
      else
        var c := b[|StatusInfix|..];
        var m := IntSpan(c);
        var d := c[m..];
        if !StartsWith(d, InfoInfix) then None
        else
          match (ParseInt(a[..n]), ParseInt(c[..m]))
          case (Some(code), Some(status)) => Some((code, status, d[|InfoInfix|..]))
          case _ => None
  }

  lemma {:induction false} IntSpanOfRendering(t: string, rest: string)
    requires forall i :: 0 <= i < |t| ==> IsIntChar(t[i])
    requires |rest| > 0 && !IsIntChar(rest[0])
    ensures IntSpan(t + rest) == |t|
  {
    if |t| > 0 {
      assert (t + rest)[1..] == t[1..] + rest;
      IntSpanOfRendering(t[1..], rest);
    } else {
      assert t + rest == rest;
    }
  }

  /** An integer rendering followed by a separator splits off exactly. */
  lemma SplitInt(t: string, rest: string)
    requires forall i :: 0 <= i < |t| ==> IsIntChar(t[i])
    requires |rest| > 0 && !IsIntChar(rest[0])
    ensures IntSpan(t + rest) == |t|
    ensures (t + rest)[..|t|] == t && (t + rest)[|t|..] == rest
  {
    IntSpanOfRendering(t, rest);
  }

  lemma StripPrefix(p: string, rest: string)
    ensures StartsWith(p + rest, p) && (p + rest)[|p|..] == rest
  {
    assert (p + rest)[..|p|] == p;
  }

  /** The layout `__str__` produces, read back from its parts. */
  lemma ParseLayout(ct: string, ht: string, info: string)
    requires forall i :: 0 <= i < |ct| ==> IsIntChar(ct[i])
    requires forall i :: 0 <= i < |ht| ==> IsIntChar(ht[i])
    requires ParseInt(ct).Some? && ParseInt(ht).Some?
    ensures ParseRendered(CodePrefix + ct + StatusInfix + ht + InfoInfix + info)
         == Some((ParseInt(ct).value, ParseInt(ht).value, info))
  {
    var d := InfoInfix + info;
    var c := ht + d;
    var b := StatusInfix + c;
    var a := ct + b;
    var s := CodePrefix + a;
    assert CodePrefix + ct + StatusInfix + ht + InfoInfix + info == s;
    StripPrefix(CodePrefix, a);
    SplitInt(ct, b);
    StripPrefix(StatusInfix, c);
    SplitInt(ht, d);
    StripPrefix(InfoInfix, info);
  }

  /** With integer `code` and `http_code` the rendering determines the code,
      the status and the text of the message. */
  lemma RenderRoundTrip(e: BusinessError)
    requires e.code.Int? && e.httpCode.Int?
    ensures ParseRendered(Render(e)) == Some((e.code.i, e.httpCode.i, PyStr(e.errInfo)))
  {
    var ct, ht := IntToString(e.code.i), IntToString(e.httpCode.i);
    assert Render(e) == CodePrefix + ct + StatusInfix + ht + InfoInfix + PyStr(e.errInfo);
    ParseIntToString(e.code.i);
    ParseIntToString(e.httpCode.i);
    ParseLayout(ct, ht, PyStr(e.errInfo));
  }

  /** What a controller's handler for the three storage errors raises
      instead: a `BusinessError` with code and status 500 and the message. */
  function MapStorageError(e: Exc): (r: Exc)
    ensures !IsStorageError(r)
    ensures r == e <==> !IsStorageError(e)
    ensures IsStorageError(e) ==>
      && r.Business? && r.err.code == Int(500) && r.err.httpCode == Int(500)
      && r.err.errInfo == Str(e.msg)
  {
    if IsStorageError(e) then Business(BusinessError(Int(500), Int(500), Str(e.msg))) else e
  }

  /** Mapping twice maps once: a `BusinessError` raised from the handler is
      not wrapped again. */
  lemma MapStorageErrorIdempotent(e: Exc)
    ensures MapStorageError(MapStorageError(e)) == MapStorageError(e)
  {
  }

  /** A validator's complaint: `BusinessError(code=500, http_code=200, err_info=err)`. */
  function ValidationFailure(err: Value): Exc
  {
    Business(BusinessError(Int(500), Int(200), err))
  }
}

=== FILE: executor.dfy ===
/** What the SQL engine does with a SELECT once the WHERE chain has picked its
    rows: ORDER BY one column and LIMIT/OFFSET. MySQL leaves the order of tied
    rows unspecified; the model keeps them in storage order (a stable sort). */
module Executor {
  import opened Wrappers
  import opened Values
  import opened Errors

  /** `a` may precede `b` under `ORDER BY col [DESC]`. */
  predicate RowLe(col: string, desc: bool, a: Row, b: Row)
  {
    if desc then OrderLe(Field(b, col), Field(a, col)) else OrderLe(Field(a, col), Field(b, col))
  }

  lemma RowLeTotal(col: string, desc: bool, a: Row, b: Row)
    ensures RowLe(col, desc, a, b) || RowLe(col, desc, b, a)
  {
    OrderLeTotal(Field(a, col), Field(b, col));
  }

  lemma RowLeTransitive(col: string, desc: bool, a: Row, b: Row, c: Row)
    requires RowLe(col, desc, a, b) && RowLe(col, desc, b, c)
    ensures RowLe(col, desc, a, c)
  {
    if desc {
      OrderLeTransitive(Field(c, col), Field(b, col), Field(a, col));
    } else {
      OrderLeTransitive(Field(a, col), Field(b, col), Field(c, col));
    }
  }

  predicate SortedBy(rows: seq<Row>, col: string, desc: bool)
  {
    forall i, j :: 0 <= i < j < |rows| ==> RowLe(col, desc, rows[i], rows[j])
  }

  /** Prepending a row that may precede every row keeps a sequence sorted. */
  lemma ConsSorted(a: Row, t: seq<Row>, col: string, desc: bool)
    requires SortedBy(t, col, desc)
    requires forall j :: 0 <= j < |t| ==> RowLe(col, desc, a, t[j])
    ensures SortedBy([a] + t, col, desc)
  {
    var r := [a] + t;
    forall i, j | 0 <= i < j < |r| ensures RowLe(col, desc, r[i], r[j]) {
      assert r[j] == t[j - 1];
      if i > 0 { assert r[i] == t[i - 1]; }
    }
  }

  lemma HeadPrecedesAll(x: Row, s: seq<Row>, col: string, desc: bool)
    requires |s| > 0 && SortedBy(s, col, desc) && RowLe(col, desc, x, s[0])
    ensures forall j :: 0 <= j < |s| ==> RowLe(col, desc, x, s[j])
  {
    forall j | 0 < j < |s| ensures RowLe(col, desc, x, s[j]) {
      RowLeTransitive(col, desc, x, s[0], s[j]);
    }
  }

  lemma HeadPrecedesInserted(x: Row, s: seq<Row>, t: seq<Row>, col: string, desc: bool)
    requires |s| > 0 && SortedBy(s, col, desc) && RowLe(col, desc, s[0], x)
    requires multiset(t) == multiset(s[1..]) + multiset{x}
    ensures forall j :: 0 <= j < |t| ==> RowLe(col, desc, s[0], t[j])
  {
    forall j | 0 <= j < |t| ensures RowLe(col, desc, s[0], t[j]) {
      assert t[j] in multiset(t);
      if t[j] != x {
        assert t[j] in multiset(s[1..]);
        var k :| 0 <= k < |s[1..]| && s[1..][k] == t[j];
        assert s[k + 1] == t[j];
      }
    }
  }

  /** Places `x` before the first row it may precede, after all rows it ties with. */
  function InsertSorted(x: Row, s: seq<Row>, col: string, desc: bool): (r: seq<Row>)
    requires SortedBy(s, col, desc)
    ensures multiset(r) == multiset(s) + multiset{x}
    ensures SortedBy(r, col, desc)
  {
    if |s| == 0 then [x]
    else if RowLe(col, desc, x, s[0]) then
      HeadPrecedesAll(x, s, col, desc);
      ConsSorted(x, s, col, desc);
      [x] + s
    else
      assert SortedBy(s[1..], col, desc);
      var t := InsertSorted(x, s[1..], col, desc);
      assert s == [s[0]] + s[1..];
      RowLeTotal(col, desc, x, s[0]);
      HeadPrecedesInserted(x, s, t, col, desc);
      ConsSorted(s[0], t, col, desc);
      [s[0]] + t
  }

  /** `ORDER BY col [DESC]` as a stable sort of `rows`. */
  function SortRows(rows: seq<Row>, col: string, desc: bool): (r: seq<Row>)
    ensures multiset(r) == multiset(rows)
    ensures SortedBy(r, col, desc)
  {
    if |rows| == 0 then []
    else
      assert rows == [rows[0]] + rows[1..];
      InsertSorted(rows[0], SortRows(rows[1..], col, desc), col, desc)
  }

  lemma SortRowsLength(rows: seq<Row>, col: string, desc: bool)
    ensures |SortRows(rows, col, desc)| == |rows|
  {
    assert |multiset(SortRows(rows, col, desc))| == |multiset(rows)|;
  }

  /** The first row of a descending sort holds the largest value of the column. */
  lemma SortedHeadIsMax(rows: seq<Row>, col: string)
    requires |rows| > 0
    ensures var s := SortRows(rows, col, true);
      |s| > 0 && s[0] in rows
      && forall row :: row in rows ==> OrderLe(Field(row, col), Field(s[0], col))
  {
    var s := SortRows(rows, col, true);
    SortRowsLength(rows, col, true);
    assert s[0] in multiset(s);
    forall row | row in rows ensures OrderLe(Field(row, col), Field(s[0], col)) {
      assert row in multiset(rows);
      assert row in multiset(s);
      var j :| 0 <= j < |s| && s[j] == row;
      if j == 0 {
        OrderLeTotal(Field(row, col), Field(row, col));
      }
    }
  }

  /** LIMIT/OFFSET as the SELECT renders them; `limit == None` is no LIMIT. */
  datatype Window = Window(offset: int, limit: Option<int>)

  const FullWindow := Window(0, None)

  /** Rows a page shows when only `page` is given. */
  const DefaultPerPage := 30

  /** The pager logic shared by every version of the DAO:
      `if per_page: limit(per_page)`; `if page:` offset `(page-1)*per_page`,
      or `(page-1)*30` with LIMIT 30 when `per_page is None`. Zero is falsy. */
  function PageWindow(page: Option<int>, perPage: Option<int>): Window
  {
    var limit := if perPage.Some? && perPage.value != 0 then perPage else None;
    if page.Some? && page.value != 0 then
      if perPage.None? then Window((page.value - 1) * DefaultPerPage, Some(DefaultPerPage))
      else Window((page.value - 1) * perPage.value, limit)
    else Window(0, limit)
  }

  function Min(a: int, b: int): int { if a <= b then a else b }

  /** Page `p` of size `n`: the elements at `[(p-1)*n, p*n)` that exist. */
  function Page<T>(xs: seq<T>, p: int, n: int): (r: seq<T>)
    requires p >= 1 && n >= 1
  {
    assert (p - 1) * n <= p * n;
    xs[Min((p - 1) * n, |xs|)..Min(p * n, |xs|)]
  }

  /** Applies a window; MySQL rejects a negative LIMIT or OFFSET. */
  function ApplyWindow(rows: seq<Row>, w: Window): (r: Result<seq<Row>, Exc>)
    ensures r.Err? <==> w.offset < 0 || (w.limit.Some? && w.limit.value < 0)
    ensures r.Ok? ==> |r.value| <= |rows|
    ensures r.Ok? && w.limit.Some? ==> |r.value| <= w.limit.value
    ensures r.Ok? ==> forall x :: x in r.value ==> x in rows
  {
    if w.offset < 0 || (w.limit.Some? && w.limit.value < 0) then
      Err(ProgrammingError("You have an error in your SQL syntax"))
    else
      var start := Min(w.offset, |rows|);
      var end := if w.limit.None? then |rows| else Min(w.offset + w.limit.value, |rows|);
      Ok(rows[start..end])
  }

  /** Page `p` of size `n` is the slice `[(p-1)*n, p*n)`, clipped to the rows. */
  lemma PageSlice(rows: seq<Row>, p: int, n: int)
    requires p >= 1 && n >= 1
    ensures ApplyWindow(rows, PageWindow(Some(p), Some(n)))
         == Ok(rows[Min((p - 1) * n, |rows|)..Min(p * n, |rows|)])
  {
    assert (p - 1) * n >= 0;
    assert (p - 1) * n + n == p * n;
  }

  /** `page` alone behaves as `page` with `per_page = 30`. */
  lemma PageOnlyUses30(rows: seq<Row>, p: int)
    requires p != 0
    ensures ApplyWindow(rows, PageWindow(Some(p), None))
         == ApplyWindow(rows, PageWindow(Some(p), Some(DefaultPerPage)))
  {
  }

  /** `per_page` alone keeps the first `per_page` rows. */
  lemma PerPageOnly(rows: seq<Row>, n: int)
    requires n >= 1
    ensures ApplyWindow(rows, PageWindow(None, Some(n))) == Ok(rows[..Min(n, |rows|)])
  {
  }

  /** No pager keeps every row. */
  lemma NoPagerKeepsAll(rows: seq<Row>)
    ensures ApplyWindow(rows, PageWindow(None, None)) == Ok(rows)
  {
    assert rows[0..|rows|] == rows;
  }

  /** Pages tile the result: row `i` is entry `i % n` of page `i / n + 1`. */
  lemma PagesTile(rows: seq<Row>, n: int, i: int)
    requires n >= 1 && 0 <= i < |rows|
    ensures var pg := ApplyWindow(rows, PageWindow(Some(i / n + 1), Some(n)));
      pg.Ok? && i % n < |pg.value| && pg.value[i % n] == rows[i]
  {
    var p := i / n + 1;
    PageSlice(rows, p, n);
    assert (p - 1) * n == (i / n) * n;
    assert (i / n) * n + i % n == i;
    assert (i / n) * n <= i < p * n by {
      assert p * n == (i / n) * n + n;
    }
  }
}

=== FILE: like.dfy ===
/** SQL `LIKE` with the `%` wildcard (any run of characters). Every other
    pattern character, `_` included, matches itself. */
module Like {
  import opened Text

  function Match(s: string, p: string): bool
    decreases |s| + |p|
  {
    if |p| == 0 then |s| == 0
    else if p[0] == '%' then Match(s, p[1..]) || (|s| > 0 && Match(s[1..], p))
    else |s| > 0 && s[0] == p[0] && Match(s[1..], p[1..])
  }

  /** A pattern with no `%` matches exactly itself. */
  lemma {:induction false} LiteralPattern(s: string, v: string)
    requires '%' !in v
    ensures Match(s, v) <==> s == v
  {
    if |v| > 0 && |s| > 0 {
      LiteralPattern(s[1..], v[1..]);
      if s[1..] == v[1..] && s[0] == v[0] {
        assert s == [s[0]] + s[1..] && v == [v[0]] + v[1..];
      }
    }
  }

  /** `%` alone matches every string. */
  lemma {:induction false} PercentMatchesAll(s: string)
    ensures Match(s, "%")
  {
    assert "%"[1..] == "";
    if |s| > 0 {
      PercentMatchesAll(s[1..]);
    }
  }

  /** `v%` is a prefix test. */
  lemma {:induction false} PrefixPattern(s: string, v: string)
    requires '%' !in v
    ensures Match(s, v + "%") <==> StartsWith(s, v)
  {
    if |v| == 0 {
      assert v + "%" == "%";
      PercentMatchesAll(s);
    } else {
      assert (v + "%")[1..] == v[1..] + "%";
      assert (v + "%")[0] == v[0];
      if |s| > 0 {
        PrefixPattern(s[1..], v[1..]);
        if StartsWith(s[1..], v[1..]) && s[0] == v[0] {
          assert s[..|v|] == [s[0]] + s[1..][..|v| - 1];
        }
        if StartsWith(s, v) {
          assert s[1..][..|v| - 1] == s[..|v|][1..];
        }
      }
    }
  }

  /** A leading `%` tries every suffix of the subject. */
  lemma {:induction false} LeadingPercent(s: string, q: string)
    ensures Match(s, "%" + q) <==> exists i :: 0 <= i <= |s| && Match(s[i..], q)
  {
    assert ("%" + q)[1..] == q;
    if |s| == 0 {
      assert s[0..] == s;
    } else {
      LeadingPercent(s[1..], q);
      if Match(s, "%" + q) {
        if !Match(s, q) {
          var i :| 0 <= i <= |s[1..]| && Match(s[1..][i..], q);
          assert s[1..][i..] == s[i + 1..];
        } else {
          assert s[0..] == s;
        }
      }
      if exists i :: 0 <= i <= |s| && Match(s[i..], q) {
        var i :| 0 <= i <= |s| && Match(s[i..], q);
        if i == 0 {
          assert s[0..] == s;
        } else {
          assert s[1..][i - 1..] == s[i..];
        }
      }
    }
  }

  /** `%v` is a suffix test. */
  lemma SuffixPattern(s: string, v: string)
    requires '%' !in v
    ensures Match(s, "%" + v) <==> (|v| <= |s| && s[|s| - |v|..] == v)
  {
    LeadingPercent(s, v);
    if Match(s, "%" + v) {
      var i :| 0 <= i <= |s| && Match(s[i..], v);
      LiteralPattern(s[i..], v);
    }
    if |v| <= |s| && s[|s| - |v|..] == v {
      LiteralPattern(s[|s| - |v|..], v);
    }
  }

  /** `%v%` is a substring test. */
  lemma SubstringPattern(s: string, v: string)
    requires '%' !in v
    ensures Match(s, "%" + v + "%") <==> Contains(s, v)
  {
    assert "%" + v + "%" == "%" + (v + "%");
    LeadingPercent(s, v + "%");
    if Match(s, "%" + v + "%") {
      var i :| 0 <= i <= |s| && Match(s[i..], v + "%");
      PrefixPattern(s[i..], v);
      assert s[i..][..|v|] == s[i..i + |v|];
      assert OccursAt(s, v, i);
    }
    if Contains(s, v) {
      var i :| 0 <= i <= |s| && OccursAt(s, v, i);
      PrefixPattern(s[i..], v);
      assert s[i..][..|v|] == s[i..i + |v|];
    }
  }
}

=== FILE: permission.dfy ===
/** easyapi/permission.py and async_easyapi/permission.py:
    `AbcPermission.permission`, a decorator whose wrapper runs the wrapped
    function only when the subclass's `check`, applied to the arguments given
    to the decorator, is truthy, and otherwise returns `fail()`. Decorating
    calls nothing; every call of the wrapper calls `check` first. */
module Permissions {
  import opened Wrappers
  import opened Values
  import opened Errors

  /** The calls one call of the wrapper makes, in order. */
  datatype Call = Check(args: seq<Value>) | Body(args: seq<Value>) | Fail

  /** The two classmethods a concrete permission class supplies. */
  datatype Permission = Permission(check: seq<Value> -> Value, fail: Result<Value, Exc>)

  /** A wrapped function: its positional arguments to its outcome. */
  type Fn = seq<Value> -> Result<Value, Exc>

  /** The `wrapper` closure: the permission, the decorator's arguments and
      the wrapped function, nothing having been called yet. */
  datatype Guarded = Guarded(perm: Permission, checkArgs: seq<Value>, f: Fn)

  /** easyapi: `cls.permission(*args)` returns `f_wrapper`, which wraps `f`. */
  function Decorate(perm: Permission, args: seq<Value>): (d: Fn -> Guarded)
    ensures forall f :: d(f).checkArgs == args && d(f).f == f && d(f).perm == perm
  {
    (f: Fn) => Guarded(perm, args, f)
  }

  /** async_easyapi: `permission(f, *args)` wraps `f` directly. `permission`
      is not a classmethod there, so this is the binding of a call on an
      instance, `P().permission(f, *args)`; `AsyncPermissionOnClass` is the
      call on the class. */
  function AsyncPermission(perm: Permission, f: Fn, args: seq<Value>): (g: Guarded)
    ensures g.checkArgs == args && g.f == f && g.perm == perm
  {
    Guarded(perm, args, f)
  }

  /** async_easyapi's `P.permission(f, *args)` called on the class, as
      easyapi's classmethod is: `cls` binds to `f` and the parameter `f` to
      the first of `args`. With no `args` the call lacks `f` and raises
      TypeError. Otherwise the wrapper is built, and each call of it looks up
      `check` on a plain function and raises AttributeError before anything
      runs: the outcome of every call, with its (empty) trace. */
  function AsyncPermissionOnClass(f: Fn, args: seq<Value>): (r: Result<seq<Value> -> (seq<Call>, Result<Value, Exc>), Exc>)
    ensures r.Err? <==> |args| == 0
    ensures r.Err? ==> r.error.TypeError?
    ensures r.Ok? ==> forall callArgs :: r.value(callArgs).0 == [] && r.value(callArgs).1 == Err(AttributeError("check"))
  {
    if |args| == 0 then Err(TypeError("permission() missing 1 required positional argument: 'f'"))
    else Ok((callArgs: seq<Value>) => ([], Err(AttributeError("check"))))
  }

  /** `wrapper(*call_args)`: the calls made and the outcome. */
  function Invoke(g: Guarded, callArgs: seq<Value>): (r: (seq<Call>, Result<Value, Exc>))
    ensures |r.0| == 2 && r.0[0] == Check(g.checkArgs)
    ensures Body(callArgs) in r.0 <==> Truthy(g.perm.check(g.checkArgs))
    ensures Body(callArgs) in r.0 ==> r.1 == g.f(callArgs)
    ensures Body(callArgs) !in r.0 ==> r.1 == g.perm.fail
  {
    if Truthy(g.perm.check(g.checkArgs)) then ([Check(g.checkArgs), Body(callArgs)], g.f(callArgs))
    else ([Check(g.checkArgs), Fail], g.perm.fail)
  }

  /** Number of calls of the wrapped function in a trace. */
  function BodyCalls(trace: seq<Call>): nat
  {
    if |trace| == 0 then 0 else (if trace[0].Body? then 1 else 0) + BodyCalls(trace[1..])
  }

  // ------------------------------------------------------------------ lemmas

  /** Every call checks first, with the decorator's arguments; the wrapped
      function then runs once, with the call's arguments unchanged, exactly
      when the check is truthy, and `fail` runs exactly when it is not. */
  lemma GuardDecides(g: Guarded, callArgs: seq<Value>)
    ensures var (trace, out) := Invoke(g, callArgs);
      && |trace| == 2 && trace[0] == Check(g.checkArgs)
      && (BodyCalls(trace) == 1 <==> Truthy(g.perm.check(g.checkArgs)))
      && (BodyCalls(trace) == 0 <==> Fail in trace)
      && (Body(callArgs) in trace ==> out == g.f(callArgs))
      && (Fail in trace ==> out == g.perm.fail)
  {
    var (trace, _) := Invoke(g, callArgs);
    assert trace[1..] == [trace[1]] && trace[1..][1..] == [];
    assert BodyCalls(trace) == BodyCalls(trace[1..]) == (if trace[1].Body? then 1 else 0);
  }

  /** The decision does not depend on the call's arguments: a wrapper
      either runs its function for every call or for none. */
  lemma DecisionIgnoresCallArgs(g: Guarded, a: seq<Value>, b: seq<Value>)
    ensures Invoke(g, a).0[1].Body? <==> Invoke(g, b).0[1].Body?
    ensures Invoke(g, a).0[1].Fail? ==> Invoke(g, a).1 == Invoke(g, b).1
  {
  }

  /** Both decorators build the same wrapper when the async `permission` is
      called on an instance. */
  lemma VersionsAgree(perm: Permission, args: seq<Value>, f: Fn, callArgs: seq<Value>)
    ensures Invoke(Decorate(perm, args)(f), callArgs) == Invoke(AsyncPermission(perm, f, args), callArgs)
  {
  }

  /** Called on the class, the async `permission` never builds a working
      guard: unlike easyapi's wrapper, which always calls `check` first,
      its wrapper calls nothing and raises. */
  lemma ClassCallNeverChecks(perm: Permission, args: seq<Value>, f: Fn, callArgs: seq<Value>)
    requires |args| > 0
    ensures AsyncPermissionOnClass(f, args).Ok?
    ensures var w := AsyncPermissionOnClass(f, args).value;
      && |w(callArgs).0| == 0 < |Invoke(Decorate(perm, args[1..])(f), callArgs).0|
      && w(callArgs).1.Err? && w(callArgs).1.error.AttributeError?
  {
  }
}

=== FILE: preds.dfy ===
/** The WHERE-clause predicates the filter compilers emit, their meaning on a
    row, and the SELECT that keeps the rows satisfying all of them. SQL's
    three-valued logic is collapsed to "a comparison against NULL fails";
    `col == None` is SQLAlchemy's `IS NULL`. */
module Preds {
  import opened Wrappers
  import opened Values
  import opened Dicts
  import opened Errors
  import Like

  datatype CmpOp = Gt | Gte | Lt | Lte

  datatype Pred =
    | Cmp(op: CmpOp, col: string, operand: Value)   // col > v, col >= v, col < v, col <= v
    | LikePat(col: string, pattern: Value)          // col LIKE pattern
    | In(col: string, options: seq<Value>)          // col IN (options)
    | Eq(col: string, rhs: PyVal)                   // col == rhs

  predicate CmpHolds(op: CmpOp, a: Value, b: Value)
  {
    match SqlCompare(a, b)
    case None => false
    case Some(c) =>
      match op
      case Gt => c > 0
      case Gte => c >= 0
      case Lt => c < 0
      case Lte => c <= 0
  }

  /** The text MySQL matches a LIKE operand as; NULL has none. */
  function LikeText(v: Value): Option<string>
  {
    match v
    case Null => None
    case Bool(b) => Some(if b then "1" else "0")
    case _ => Some(PyStr(v))
  }

  predicate LikeHolds(a: Value, pattern: Value)
  {
    match (LikeText(a), LikeText(pattern))
    case (Some(s), Some(p)) => Like.Match(s, p)
    case _ => false
  }

  predicate InList(a: Value, options: seq<Value>)
  {
    exists i :: 0 <= i < |options| && SqlEquals(a, options[i])
  }

  /** `col == rhs`: `IS NULL` for a `None` right-hand side; a one-element list
      is bound by the driver as the parenthesised scalar `(v)`. */
  predicate EqHolds(a: Value, rhs: PyVal)
  {
    match rhs
    case Scalar(Null) => a == Null
    case Scalar(v) => SqlEquals(a, v)
    case List(items) => |items| == 1 && SqlEquals(a, items[0])
  }

  predicate Eval(p: Pred, row: Row)
  {
    match p
    case Cmp(op, c, v) => CmpHolds(op, Field(row, c), v)
    case LikePat(c, pat) => LikeHolds(Field(row, c), pat)
    case In(c, vs) => InList(Field(row, c), vs)
    case Eq(c, rhs) => EqHolds(Field(row, c), rhs)
  }

  /** The conjunction of a WHERE chain. */
  predicate EvalAll(ps: seq<Pred>, row: Row)
  {
    forall i :: 0 <= i < |ps| ==> Eval(ps[i], row)
  }

  lemma EvalAllAppend(a: seq<Pred>, b: seq<Pred>, row: Row)
    ensures EvalAll(a + b, row) <==> EvalAll(a, row) && EvalAll(b, row)
  {
    if EvalAll(a, row) && EvalAll(b, row) {
      forall i | 0 <= i < |a + b| ensures Eval((a + b)[i], row) {
        if i >= |a| {
          assert (a + b)[i] == b[i - |a|];
        }
      }
    }
    if EvalAll(a + b, row) {
      forall i | 0 <= i < |a| ensures Eval(a[i], row) {
        assert (a + b)[i] == a[i];
      }
      forall i | 0 <= i < |b| ensures Eval(b[i], row) {
        assert (a + b)[|a| + i] == b[i];
      }
    }
  }

  /** The error the driver raises binding a list as a scalar: pymysql renders
      `[]` as `()` (a syntax error) and a longer list as a row value that MySQL
      refuses to compare with one column. */
  function BindError(ps: seq<Pred>): (r: Option<Exc>)
    ensures r.None? <==> forall i :: 0 <= i < |ps| ==> !(ps[i].Eq? && ps[i].rhs.List? && |ps[i].rhs.items| != 1)
  {
    if |ps| == 0 then None
    else if ps[0].Eq? && ps[0].rhs.List? && |ps[0].rhs.items| == 0 then
      Some(ProgrammingError("You have an error in your SQL syntax"))
    else if ps[0].Eq? && ps[0].rhs.List? && |ps[0].rhs.items| > 1 then
      Some(OperationalError("Operand should contain 1 column(s)"))
    else BindError(ps[1..])
  }

  /** The rows of `rows` satisfying every predicate, in storage order. */
  function Select(rows: seq<Row>, ps: seq<Pred>): (r: seq<Row>)
    ensures |r| <= |rows|
    ensures forall i :: 0 <= i < |r| ==> EvalAll(ps, r[i])
    ensures forall row :: row in r <==> row in rows && EvalAll(ps, row)
  {
    if |rows| == 0 then []
    else if EvalAll(ps, rows[0]) then [rows[0]] + Select(rows[1..], ps)
    else Select(rows[1..], ps)
  }

  lemma {:induction false} SelectAppend(a: seq<Row>, b: seq<Row>, ps: seq<Pred>)
    ensures Select(a + b, ps) == Select(a, ps) + Select(b, ps)
  {
    if |a| == 0 {
      assert a + b == b;
    } else {
      assert (a + b)[1..] == a[1..] + b;
      SelectAppend(a[1..], b, ps);
    }
  }

  /** Selecting with a chain that holds on the same rows selects the same rows. */
  lemma {:induction false} SelectEquivalent(rows: seq<Row>, ps: seq<Pred>, qs: seq<Pred>)
    requires forall i :: 0 <= i < |rows| ==> (EvalAll(ps, rows[i]) <==> EvalAll(qs, rows[i]))
    ensures Select(rows, ps) == Select(rows, qs)
  {
    if |rows| > 0 {
      SelectEquivalent(rows[1..], ps, qs);
    }
  }

  /** Compiles a filter dict key by key in iteration order, ANDing what every
      key contributes; the first key that raises stops the compilation. */
  function CompileAll(q: Dict<PyVal>, f: (string, PyVal) -> Result<seq<Pred>, Exc>): Result<seq<Pred>, Exc>
  {
    if |q| == 0 then Ok([])
    else
      match f(q[0].0, q[0].1)
      case Err(e) => Err(e)
      case Ok(ps) =>
        match CompileAll(q[1..], f)
        case Err(e) => Err(e)
        case Ok(rest) => Ok(ps + rest)
  }

  /** Every predicate names one of the table's columns, as `getattr(table.c, col)`
      demands. */
  predicate OnColumns(ps: seq<Pred>, columns: seq<string>)
  {
    forall i :: 0 <= i < |ps| ==> ps[i].col in columns
  }

  /** A chain built from per-key chains on real columns is on real columns. */
  lemma {:induction false} CompileAllOnColumns(q: Dict<PyVal>, f: (string, PyVal) -> Result<seq<Pred>, Exc>, columns: seq<string>)
    requires forall k, pv :: f(k, pv).Ok? ==> OnColumns(f(k, pv).value, columns)
    ensures CompileAll(q, f).Ok? ==> OnColumns(CompileAll(q, f).value, columns)
  {
    if |q| > 0 {
      CompileAllOnColumns(q[1..], f, columns);
    }
  }

  /** Compilation succeeds iff every key compiles. */
  lemma {:induction false} CompileAllOk(q: Dict<PyVal>, f: (string, PyVal) -> Result<seq<Pred>, Exc>)
    ensures CompileAll(q, f).Ok? <==> forall i :: 0 <= i < |q| ==> f(q[i].0, q[i].1).Ok?
  {
    if |q| > 0 {
      CompileAllOk(q[1..], f);
      assert forall i :: 1 <= i < |q| ==> q[i] == q[1..][i - 1];
    }
  }

  /** The compiled chain holds on a row iff every key's contribution does. */
  lemma {:induction false} CompileAllEval(q: Dict<PyVal>, f: (string, PyVal) -> Result<seq<Pred>, Exc>, row: Row)
    requires CompileAll(q, f).Ok?
    ensures forall i :: 0 <= i < |q| ==> f(q[i].0, q[i].1).Ok?
    ensures EvalAll(CompileAll(q, f).value, row)
        <==> forall i :: 0 <= i < |q| ==> EvalAll(f(q[i].0, q[i].1).value, row)
  {
    CompileAllOk(q, f);
    if |q| > 0 {
      CompileAllEval(q[1..], f, row);
      assert forall i :: 1 <= i < |q| ==> q[i] == q[1..][i - 1];
      EvalAllAppend(f(q[0].0, q[0].1).value, CompileAll(q[1..], f).value, row);
    }
  }

  /** An entry that contributes nothing can be dropped. */
  lemma CompileAllSkip(k: string, pv: PyVal, q: Dict<PyVal>, f: (string, PyVal) -> Result<seq<Pred>, Exc>)
    requires f(k, pv) == Ok([])
    ensures CompileAll([(k, pv)] + q, f) == CompileAll(q, f)
  {
    assert ([(k, pv)] + q)[1..] == q;
    match CompileAll(q, f)
    case Err(e) =>
    case Ok(rest) => assert [] + rest == rest;
  }
}

=== FILE: storage.dfy ===
/** The database the DAOs talk to, reduced to what the engine observes: named
    tables of rows with a unique integer `id` and an AUTO_INCREMENT counter,
    and the INSERT, UPDATE and DELETE statements over one table. `fault`
    stands for a failing connection: when set, every statement raises it. */
module Storage {
  import opened Wrappers
  import opened Values
  import opened Dicts
  import opened Errors
  import opened Preds

  datatype Table = Table(columns: seq<string>, rows: seq<Row>, nextId: int)

  datatype Db = Db(tables: map<string, Table>, fault: Option<Exc>)

  /** The `users` table the repository's tests create. */
  const UsersColumns: seq<string> :=
    ["id", "name", "note", "created_at", "updated_at", "deleted_at", "updated_by", "created_by"]

  predicate HasId(row: Row)
  {
    "id" in row && row["id"].Int?
  }

  function IdOf(row: Row): int
    requires HasId(row)
  {
    row["id"].i
  }

  /** The table invariant: an `id` column, rows carrying exactly the declared
      columns, and unique integer ids. */
  predicate WellFormed(t: Table)
  {
    && "id" in t.columns
    && (forall i :: 0 <= i < |t.rows| ==> t.rows[i].Keys == set c | c in t.columns)
    && (forall i :: 0 <= i < |t.rows| ==> HasId(t.rows[i]))
    && (forall i, j :: 0 <= i < j < |t.rows| ==> IdOf(t.rows[i]) != IdOf(t.rows[j]))
  }

  /** `db[name]`. */
  function LookupTable(db: Db, name: string): (r: Result<Table, Exc>)
    ensures r.Ok? <==> name in db.tables
    ensures r.Ok? ==> r.value == db.tables[name]
  {
    if name in db.tables then Ok(db.tables[name]) else Err(KeyError(name))
  }

  function WithTable(db: Db, name: string, t: Table): Db
  {
    db.(tables := db.tables[name := t])
  }

  predicate IdTaken(rows: seq<Row>, id: int)
  {
    exists i :: 0 <= i < |rows| && HasId(rows[i]) && IdOf(rows[i]) == id
  }

  /** Every key of `data` names a column (else SQLAlchemy refuses the
      statement with "Unconsumed column names"). */
  predicate KeysAreColumns(columns: seq<string>, data: Dict<Value>)
  {
    forall i :: 0 <= i < |data| ==> data[i].0 in columns
  }

  /** The row an INSERT stores: the given values, NULL for the other columns. */
  function NewRow(columns: seq<string>, data: Dict<Value>, id: int): (row: Row)
    ensures row.Keys == (set c | c in columns) + {"id"}
    ensures HasId(row) && IdOf(row) == id
  {
    (map c | c in columns :: if c != "id" && HasKey(data, c) then Get(data, c).value else Null)["id" := Int(id)]
  }

  /** `table.insert().values(**data)`: returns the new table and the inserted
      primary key. An `id` of None takes the AUTO_INCREMENT value. */
  function InsertRow(t: Table, data: Dict<Value>): (r: Result<(Table, int), Exc>)
    ensures r.Ok? ==> r.value.0.columns == t.columns
    ensures r.Ok? ==> r.value.0.rows == t.rows + [NewRow(t.columns, data, r.value.1)]
    ensures r.Ok? ==> !IdTaken(t.rows, r.value.1)
    ensures !KeysAreColumns(t.columns, data) ==> r.Err?
  {
    if !KeysAreColumns(t.columns, data) then Err(StatementError("Unconsumed column names"))
    else
      var given := Get(data, "id");
      if given.Some? && !given.value.Int? && !given.value.Null? then
        Err(DataError("Incorrect integer value for column 'id'"))
      else
        var id := if given.Some? && given.value.Int? then given.value.i else t.nextId;
        if IdTaken(t.rows, id) then Err(IntegrityError("Duplicate entry for key 'PRIMARY'"))
        else
          var next := if id >= t.nextId then id + 1 else t.nextId;
          Ok((Table(t.columns, t.rows + [NewRow(t.columns, data, id)], next), id))
  }

  lemma InsertKeepsWellFormed(t: Table, data: Dict<Value>)
    requires WellFormed(t)
    requires InsertRow(t, data).Ok?
    ensures WellFormed(InsertRow(t, data).value.0)
  {
    var (t', id) := InsertRow(t, data).value;
    var n := |t.rows|;
    assert t'.rows[n] == NewRow(t.columns, data, id);
    assert (set c | c in t.columns) + {"id"} == set c | c in t.columns;
    forall i, j | 0 <= i < j < |t'.rows| ensures IdOf(t'.rows[i]) != IdOf(t'.rows[j]) {
      if j == n {
        assert t'.rows[i] == t.rows[i];
      }
    }
  }

  /** A matched row after `SET data`. */
  function Patch(row: Row, data: Dict<Value>): (r: Row)
    ensures r.Keys == row.Keys
  {
    map c | c in row :: if HasKey(data, c) then Get(data, c).value else row[c]
  }

  /** Every row the WHERE chain matches patched with `data`, the others kept. */
  function PatchRows(rows: seq<Row>, ps: seq<Pred>, data: Dict<Value>): (r: seq<Row>)
    ensures |r| == |rows|
    ensures forall i :: 0 <= i < |rows| ==> r[i] == if EvalAll(ps, rows[i]) then Patch(rows[i], data) else rows[i]
  {
    seq(|rows|, i requires 0 <= i < |rows| => if EvalAll(ps, rows[i]) then Patch(rows[i], data) else rows[i])
  }

  /** Why an UPDATE is refused before any row changes: SQLAlchemy's checks on
      the SET list, the driver's binding of the WHERE chain, then MySQL's
      checks on a new primary key. */
  function UpdateError(t: Table, ps: seq<Pred>, data: Dict<Value>): (r: Option<Exc>)
    ensures |data| == 0 || !KeysAreColumns(t.columns, data) || BindError(ps).Some? ==> r.Some?
  {
    if |data| == 0 then Some(StatementError("A value is required for bind parameter"))
    else if !KeysAreColumns(t.columns, data) then Some(StatementError("Unconsumed column names"))
    else if BindError(ps).Some? then BindError(ps)
    else
      var matched := Select(t.rows, ps);
      var newId := Get(data, "id");
      if newId.None? then None
      else if newId.value.Null? then Some(IntegrityError("Column 'id' cannot be null"))
      else if !newId.value.Int? then Some(DataError("Incorrect integer value for column 'id'"))
      else if |matched| > 1 || (|matched| == 1 && IdTaken(t.rows, newId.value.i) && !IdTaken(matched, newId.value.i)) then
        Some(IntegrityError("Duplicate entry for key 'PRIMARY'"))
      else None
  }

  /** `table.update().where(ps).values(**data)`: the new table and the number
      of rows the WHERE chain matched. */
  function UpdateRows(t: Table, ps: seq<Pred>, data: Dict<Value>): (r: Result<(Table, nat), Exc>)
    ensures r.Err? <==> UpdateError(t, ps, data).Some?
    ensures r.Ok? ==> r.value.0.columns == t.columns && r.value.0.nextId == t.nextId
    ensures r.Ok? ==> r.value.1 == |Select(t.rows, ps)|
    ensures r.Ok? ==> r.value.0.rows == PatchRows(t.rows, ps, data)
  {
    match UpdateError(t, ps, data)
    case Some(e) => Err(e)
    case None => Ok((Table(t.columns, PatchRows(t.rows, ps, data), t.nextId), |Select(t.rows, ps)|))
  }

  /** `table.delete().where(ps)`: the surviving rows and the number removed. */
  function DeleteRows(t: Table, ps: seq<Pred>): (r: Result<(Table, nat), Exc>)
    ensures r.Ok? ==> r.value.0.columns == t.columns && r.value.0.nextId == t.nextId
    ensures r.Ok? ==> r.value.1 == |Select(t.rows, ps)|
    ensures r.Ok? ==> forall row :: row in r.value.0.rows <==> row in t.rows && !EvalAll(ps, row)
  {
    if BindError(ps).Some? then Err(BindError(ps).value)
    else Ok((Table(t.columns, Reject(t.rows, ps), t.nextId), |Select(t.rows, ps)|))
  }

  /** The rows failing the WHERE chain, in storage order. */
  function Reject(rows: seq<Row>, ps: seq<Pred>): (r: seq<Row>)
    ensures forall row :: row in r <==> row in rows && !EvalAll(ps, row)
    ensures |r| + |Select(rows, ps)| == |rows|
  {
    if |rows| == 0 then []
    else if EvalAll(ps, rows[0]) then Reject(rows[1..], ps)
    else [rows[0]] + Reject(rows[1..], ps)
  }

  /** Every row has an integer id and no two rows share one. */
  predicate UniqueIds(rows: seq<Row>)
  {
    && (forall i :: 0 <= i < |rows| ==> HasId(rows[i]))
    && (forall i, j :: 0 <= i < j < |rows| ==> IdOf(rows[i]) != IdOf(rows[j]))
  }

  /** The survivors of a DELETE are a subsequence, so their ids stay unique. */
  lemma {:induction false} RejectUniqueIds(rows: seq<Row>, ps: seq<Pred>)
    requires UniqueIds(rows)
    ensures UniqueIds(Reject(rows, ps))
    decreases |rows|
  {
    if |rows| > 0 {
      var rest := rows[1..];
      TailIds(rows);
      RejectUniqueIds(rest, ps);
      if !EvalAll(ps, rows[0]) {
        var tail := Reject(rest, ps);
        assert Reject(rows, ps) == [rows[0]] + tail;
        ConsIds(rows[0], tail);
      }
    }
  }

  /** The tail of rows with unique ids has unique ids, none the head's. */
  lemma TailIds(rows: seq<Row>)
    requires UniqueIds(rows) && |rows| > 0
    ensures UniqueIds(rows[1..])
    ensures forall row :: row in rows[1..] ==> IdOf(row) != IdOf(rows[0])
  {
    var rest := rows[1..];
    forall i, j | 0 <= i < j < |rest| ensures IdOf(rest[i]) != IdOf(rest[j]) {
      assert rest[i] == rows[i + 1] && rest[j] == rows[j + 1];
    }
    forall row | row in rest ensures IdOf(row) != IdOf(rows[0]) {
      var k :| 0 <= k < |rest| && rest[k] == row;
      assert rows[k + 1] == row;
    }
  }

  /** A row whose id is new, in front of rows with unique ids. */
  lemma ConsIds(x: Row, t: seq<Row>)
    requires UniqueIds(t) && HasId(x)
    requires forall row :: row in t ==> IdOf(row) != IdOf(x)
    ensures UniqueIds([x] + t)
  {
    var r := [x] + t;
    forall i, j | 0 <= i < j < |r| ensures IdOf(r[i]) != IdOf(r[j]) {
      assert r[j] == t[j - 1];
      assert r[j] in t;
      if i > 0 { assert r[i] == t[i - 1]; }
    }
  }

  /** Deleting keeps the table well formed: the survivors are a subsequence. */
  lemma RejectKeepsWellFormed(t: Table, ps: seq<Pred>)
    requires WellFormed(t)
    ensures WellFormed(t.(rows := Reject(t.rows, ps)))
  {
    RejectUniqueIds(t.rows, ps);
    var r := Reject(t.rows, ps);
    forall i | 0 <= i < |r| ensures r[i].Keys == set c | c in t.columns {
      assert r[i] in t.rows;
    }
  }

  /** An UPDATE that leaves `id` alone keeps the table well formed. */
  lemma UpdateKeepsWellFormed(t: Table, ps: seq<Pred>, data: Dict<Value>)
    requires WellFormed(t)
    requires UpdateRows(t, ps, data).Ok?
    requires !HasKey(data, "id")
    ensures WellFormed(UpdateRows(t, ps, data).value.0)
  {
    var t' := UpdateRows(t, ps, data).value.0;
    forall i | 0 <= i < |t.rows| ensures HasId(t'.rows[i]) && IdOf(t'.rows[i]) == IdOf(t.rows[i]) {
      if EvalAll(ps, t.rows[i]) {
        assert t'.rows[i]["id"] == t.rows[i]["id"];
      }
    }
  }

  /** A SELECT sent to the database: a connection fault or a bind error raises. */
  function RunSelect(db: Db, t: Table, ps: seq<Pred>): (r: Result<seq<Row>, Exc>)
    ensures r.Ok? <==> db.fault.None? && BindError(ps).None?
    ensures r.Ok? ==> r.value == Select(t.rows, ps)
  {
    if db.fault.Some? then Err(db.fault.value)
    else if BindError(ps).Some? then Err(BindError(ps).value)
    else Ok(Select(t.rows, ps))
  }

  /** An INSERT into table `name` sent to the database: the database changes only on success. */
  function RunInsert(db: Db, name: string, t: Table, data: Dict<Value>): (r: (Db, Result<int, Exc>))
    ensures r.1.Err? ==> r.0 == db
    ensures r.1.Ok? ==>
      && db.fault.None? && InsertRow(t, data).Ok? && r.1.value == InsertRow(t, data).value.1
      && r.0 == WithTable(db, name, InsertRow(t, data).value.0)
  {
    if db.fault.Some? then (db, Err(db.fault.value))
    else match InsertRow(t, data)
      case Err(e) => (db, Err(e))
      case Ok((t', id)) => (WithTable(db, name, t'), Ok(id))
  }

  /** An UPDATE of table `name` sent to the database; the result is the matched-row count. */
  function RunUpdate(db: Db, name: string, t: Table, ps: seq<Pred>, data: Dict<Value>): (r: (Db, Result<int, Exc>))
    ensures r.1.Err? ==> r.0 == db
    ensures r.1.Ok? ==>
      && db.fault.None? && UpdateRows(t, ps, data).Ok? && r.1.value == |Select(t.rows, ps)|
      && r.0 == WithTable(db, name, UpdateRows(t, ps, data).value.0)
  {
    if db.fault.Some? then (db, Err(db.fault.value))
    else match UpdateRows(t, ps, data)
      case Err(e) => (db, Err(e))
      case Ok((t', n)) => (WithTable(db, name, t'), Ok(n))
  }

  /** A DELETE from table `name` sent to the database; the result is the number removed. */
  function RunDelete(db: Db, name: string, t: Table, ps: seq<Pred>): (r: (Db, Result<int, Exc>))
    ensures r.1.Err? ==> r.0 == db
    ensures r.1.Ok? ==>
      && db.fault.None? && DeleteRows(t, ps).Ok? && r.1.value == |Select(t.rows, ps)|
      && r.0 == WithTable(db, name, DeleteRows(t, ps).value.0)
  {
    if db.fault.Some? then (db, Err(db.fault.value))
    else match DeleteRows(t, ps)
      case Err(e) => (db, Err(e))
      case Ok((t', n)) => (WithTable(db, name, t'), Ok(n))
  }
}

=== FILE: text.dfy ===
/** Character classes, ASCII case mapping and the decimal renderings Python's
    `str()` and `strftime` produce for integers. Only ASCII letters are cased
    here; every other character is neither upper- nor lower-case. */
module Text {
  import opened Wrappers

  predicate IsUpper(c: char) { 'A' <= c <= 'Z' }

  predicate IsLower(c: char) { 'a' <= c <= 'z' }

  predicate IsDigit(c: char) { '0' <= c <= '9' }

  function ToLower(c: char): (d: char)
    ensures !IsUpper(d)
    ensures IsUpper(c) ==> IsLower(d)
    ensures !IsUpper(c) ==> d == c
  {
    if IsUpper(c) then (c as int + 32) as char else c
  }

  function ToUpper(c: char): (d: char)
    ensures !IsLower(d)
    ensures IsLower(c) ==> IsUpper(d) && ToLower(d) == c
    ensures !IsLower(c) ==> d == c
  {
    if IsLower(c) then (c as int - 32) as char else c
  }

  /** Python's `str.lower()` restricted to ASCII. */
  function Lower(s: string): (r: string)
    ensures |r| == |s|
    ensures forall i :: 0 <= i < |s| ==> r[i] == ToLower(s[i])
  {
    if |s| == 0 then [] else [ToLower(s[0])] + Lower(s[1..])
  }

  lemma LowerAppend(a: string, b: string)
    ensures Lower(a + b) == Lower(a) + Lower(b)
  {
  }

  /** `s` with every occurrence of `c` removed. */
  function Drop(s: string, c: char): (r: string)
    ensures c !in r
    ensures |r| <= |s|
  {
    if |s| == 0 then [] else (if s[0] == c then [] else [s[0]]) + Drop(s[1..], c)
  }

  lemma DropAppend(a: string, b: string, c: char)
    ensures Drop(a + b, c) == Drop(a, c) + Drop(b, c)
  {
    if |a| == 0 {
      assert a + b == b;
    } else {
      assert (a + b)[1..] == a[1..] + b;
      DropAppend(a[1..], b, c);
    }
  }

  /** Number of occurrences of `c` in `s`. */
  function Occurrences(s: string, c: char): nat
  {
    if |s| == 0 then 0 else (if s[0] == c then 1 else 0) + Occurrences(s[1..], c)
  }

  lemma DropLength(s: string, c: char)
    ensures |Drop(s, c)| + Occurrences(s, c) == |s|
  {
  }

  /** `v` occurs in `s` as a contiguous block (Python's `v in s`). */
  predicate Contains(s: string, v: string)
  {
    exists i :: 0 <= i <= |s| && OccursAt(s, v, i)
  }

  /** `v` occurs in `s` starting at index `i`. */
  predicate OccursAt(s: string, v: string, i: int)
  {
    0 <= i && i + |v| <= |s| && s[i..i + |v|] == v
  }

  /** Python's `s.startswith(p)`. */
  predicate StartsWith(s: string, p: string)
  {
    |p| <= |s| && s[..|p|] == p
  }

  function DigitChar(d: nat): (c: char)
    requires d < 10
    ensures IsDigit(c)
  {
    ('0' as int + d) as char
  }

  function DigitValue(c: char): (d: nat)
    requires IsDigit(c)
    ensures d < 10
  {
    c as int - '0' as int
  }

  /** Decimal rendering of a natural number without leading zeros. */
  function NatToString(n: nat): (s: string)
    ensures |s| >= 1
    ensures forall i :: 0 <= i < |s| ==> IsDigit(s[i])
  {
    if n < 10 then [DigitChar(n)] else NatToString(n / 10) + [DigitChar(n % 10)]
  }

  /** Value of a non-empty run of decimal digits, most significant first. */
  function DigitsValue(s: string): nat
    requires forall i :: 0 <= i < |s| ==> IsDigit(s[i])
  {
    if |s| == 0 then 0 else DigitsValue(s[..|s| - 1]) * 10 + DigitValue(s[|s| - 1])
  }

  predicate AllDigits(s: string)
  {
    forall i :: 0 <= i < |s| ==> IsDigit(s[i])
  }

  /** Python's `int(s)` for unsigned decimal text; `None` where it would raise. */
  function ParseNat(s: string): Option<nat>
  {
    if |s| > 0 && AllDigits(s) then Some(DigitsValue(s)) else None
  }

  lemma {:induction false} DigitsValueOfNat(n: nat)
    ensures DigitsValue(NatToString(n)) == n
  {
    if n >= 10 {
      var s := NatToString(n);
      var p := NatToString(n / 10);
      assert s == p + [DigitChar(n % 10)];
      assert s[..|s| - 1] == p;
      DigitsValueOfNat(n / 10);
    }
  }

  lemma ParseNatToString(n: nat)
    ensures ParseNat(NatToString(n)) == Some(n)
  {
    DigitsValueOfNat(n);
  }

  /** Python's `str(i)` for an `int`. */
  function IntToString(i: int): (s: string)
    ensures |s| >= 1
    ensures forall k :: 0 <= k < |s| ==> IsDigit(s[k]) || s[k] == '-'
  {
    if i < 0 then "-" + NatToString(-i) else NatToString(i)
  }

  /** Python's `int(s)` for optionally signed decimal text. */
  function ParseInt(s: string): Option<int>
  {
    if |s| > 0 && s[0] == '-' then
      match ParseNat(s[1..])
      case Some(n) => Some(-(n as int))
      case None => None
    else
      match ParseNat(s)
      case Some(n) => Some(n)
      case None => None
  }

  lemma ParseIntToString(i: int)
    ensures ParseInt(IntToString(i)) == Some(i)
  {
    if i < 0 {
      var s := IntToString(i);
      assert s[1..] == NatToString(-i);
      ParseNatToString(-i);
    } else {
      ParseNatToString(i);
      assert IsDigit(NatToString(i)[0]);
    }
  }

  /** Zero-padded two-digit rendering (`%02d`). */
  function Pad2(n: nat): (s: string)
    requires n < 100
    ensures |s| == 2 && AllDigits(s)
  {
    [DigitChar(n / 10), DigitChar(n % 10)]
  }

  /** Zero-padded four-digit rendering (`%04d`). */
  function Pad4(n: nat): (s: string)
    requires n < 10000
    ensures |s| == 4 && AllDigits(s)
  {
    Pad2(n / 100) + Pad2(n % 100)
  }

  lemma Pad2Parse(n: nat)
    requires n < 100
    ensures ParseNat(Pad2(n)) == Some(n)
  {
    var s := Pad2(n);
    assert s[..1] == [DigitChar(n / 10)];
    assert DigitsValue(s[..1]) == n / 10 by {
      assert s[..1][..0] == [];
    }
  }

  lemma Pad4Parse(n: nat)
    requires n < 10000
    ensures ParseNat(Pad4(n)) == Some(n)
  {
    var s := Pad4(n);
    var hi := n / 100;
    var lo := n % 100;
    var d0, d1, d2, d3 := hi / 10, hi % 10, lo / 10, lo % 10;
    assert s == [DigitChar(d0), DigitChar(d1), DigitChar(d2), DigitChar(d3)];
    assert s[..3] == [DigitChar(d0), DigitChar(d1), DigitChar(d2)];
    assert s[..3][..2] == [DigitChar(d0), DigitChar(d1)];
    assert s[..3][..2][..1] == [DigitChar(d0)];
    assert s[..3][..2][..1][..0] == [];
    assert DigitsValue(s[..3][..2][..1]) == d0;
    assert DigitsValue(s[..3][..2]) == d0 * 10 + d1 == hi;
    assert DigitsValue(s[..3]) == hi * 10 + d2;
  }
}

=== FILE: transaction.dfy ===
/** easyapi/transcation.py and the async variant in async_easyapi/dao.py:
    `Transaction` as a context manager over one connection. The engine's
    connection and transaction objects are reduced to the calls made on them
    (an event trace) and to the exception each call may raise (`Backend`). */
module Transactions {
  import opened Wrappers
  import opened Errors

  /** The calls the context manager makes on the engine. */
  datatype Event = Connect | Begin | Commit | Rollback | Close

  /** What each engine call raises, if anything. `close` is assumed not to raise. */
  datatype Backend = Backend(
    connectFault: Option<Exc>,
    beginFault: Option<Exc>,
    commitFault: Option<Exc>,
    rollbackFault: Option<Exc>)

  /** Whether `_connect` and `_transaction` have been set. */
  datatype Tx = Tx(connected: bool, begun: bool)

  /** How a `with` statement ended: the calls made and the exception it raises. */
  datatype Outcome = Outcome(events: seq<Event>, raised: Option<Exc>)

  function Occurrences(events: seq<Event>, e: Event): nat
  {
    if |events| == 0 then 0
    else (if events[0] == e then 1 else 0) + Occurrences(events[1..], e)
  }

  lemma {:induction false} OccurrencesAppend(a: seq<Event>, b: seq<Event>, e: Event)
    ensures Occurrences(a + b, e) == Occurrences(a, e) + Occurrences(b, e)
  {
    if |a| > 0 {
      assert (a + b)[0] == a[0] && (a + b)[1..] == a[1..] + b;
      OccurrencesAppend(a[1..], b, e);
    } else {
      assert a + b == b;
    }
  }

  /** `get_tx(db)`: a `Transaction` that holds neither a connection nor a
      transaction. */
  function GetTx(): (tx: Tx)
    ensures !tx.connected && !tx.begun
  {
    Tx(false, false)
  }

  /** `__enter__` (and `__aenter__`): connect, then begin. When `begin` raises,
      `_connect` stays set and the connection is never closed, since `with`
      calls `__exit__` only after `__enter__` returned. */
  function Enter(tx: Tx, b: Backend): (r: (Tx, seq<Event>, Option<Exc>))
    ensures r.2.None? <==> b.connectFault.None? && b.beginFault.None?
    ensures r.2.None? ==> r.0 == Tx(true, true) && r.1 == [Connect, Begin]
    ensures Occurrences(r.1, Close) == 0
  {
    if b.connectFault.Some? then (tx, [Connect], b.connectFault)
    else if b.beginFault.Some? then (tx.(connected := true), [Connect, Begin], b.beginFault)
    else (Tx(true, true), [Connect, Begin], None)
  }

  /** The `try: commit / except: rollback; raise` part shared by both exits.
      Attribute lookups on a `None` transaction raise `AttributeError`. */
  function CommitOrRollback(tx: Tx, b: Backend): (r: (Option<Exc>, seq<Event>))
    ensures r.0.None? <==> tx.begun && b.commitFault.None?
    ensures tx.begun ==> |r.1| > 0 && r.1[0] == Commit
    ensures Rollback in r.1 <==> tx.begun && b.commitFault.Some?
    ensures Close !in r.1 && Occurrences(r.1, Close) == 0
  {
    if !tx.begun then
      (Some(AttributeError("rollback")), [])
    else if b.commitFault.None? then (None, [Commit])
    else if b.rollbackFault.Some? then (b.rollbackFault, [Commit, Rollback])
    else (b.commitFault, [Commit, Rollback])
  }

  /** `__exit__(exc_type, exc, tb)`: the body's exception is not looked at;
      the method returns `None`, so it never suppresses one. */
  function Exit(tx: Tx, b: Backend, bodyExc: Option<Exc>): (r: (seq<Event>, Option<Exc>))
    ensures tx.connected ==> Occurrences(r.0, Close) == 1 && r.0[|r.0| - 1] == Close
    ensures tx.begun ==> |r.0| > 0 && r.0[0] == Commit
    ensures r.1.None? <==> tx.connected && tx.begun && b.commitFault.None?
  {
    var (err, events) := CommitOrRollback(tx, b);
    if tx.connected then
      OccurrencesAppend(events, [Close], Close);
      (events + [Close], err)
    else
      (events, Some(AttributeError("close")))
  }

  /** `__aexit__`: as `__exit__` without the `finally: close()`. */
  function AsyncExit(tx: Tx, b: Backend, bodyExc: Option<Exc>): (r: (seq<Event>, Option<Exc>))
    ensures Occurrences(r.0, Close) == 0
    ensures tx.begun ==> |r.0| > 0 && r.0[0] == Commit
    ensures r.1.None? <==> tx.begun && b.commitFault.None?
  {
    var (err, events) := CommitOrRollback(tx, b);
    (events, err)
  }

  /** `with get_tx(db): body`: the body runs only if entering succeeded; an
      exception raised by `__exit__` replaces the body's, otherwise the
      body's propagates. */
  function With(b: Backend, bodyExc: Option<Exc>): (r: Outcome)
    ensures bodyExc.Some? ==> r.raised.Some?
    ensures r.raised.None? ==> r.events == [Connect, Begin, Commit, Close]
    ensures Occurrences(r.events, Close) <= 1
  {
    var (tx, enterEvents, enterExc) := Enter(GetTx(), b);
    if enterExc.Some? then Outcome(enterEvents, enterExc)
    else
      var (exitEvents, exitExc) := Exit(tx, b, bodyExc);
      OccurrencesAppend(enterEvents, exitEvents, Close);
      Outcome(enterEvents + exitEvents, if exitExc.Some? then exitExc else bodyExc)
  }

  /** `async with get_tx(db): body`. */
  function AsyncWith(b: Backend, bodyExc: Option<Exc>): (r: Outcome)
    ensures bodyExc.Some? ==> r.raised.Some?
    ensures r.raised.None? ==> r.events == [Connect, Begin, Commit]
    ensures Occurrences(r.events, Close) == 0
  {
    var (tx, enterEvents, enterExc) := Enter(GetTx(), b);
    if enterExc.Some? then Outcome(enterEvents, enterExc)
    else
      var (exitEvents, exitExc) := AsyncExit(tx, b, bodyExc);
      OccurrencesAppend(enterEvents, exitEvents, Close);
      Outcome(enterEvents + exitEvents, if exitExc.Some? then exitExc else bodyExc)
  }

  /** Once entered, the block always commits, even when the body raised; a
      failing commit is rolled back and its exception re-raised (or the
      rollback's, if that fails too); the connection is closed exactly once,
      last; and the block raises whenever its body did. */
  lemma WithLifecycle(b: Backend, bodyExc: Option<Exc>)
    requires b.connectFault.None? && b.beginFault.None?
    ensures var o := With(b, bodyExc);
      && o.events[..3] == [Connect, Begin, Commit]
      && Occurrences(o.events, Close) == 1 && o.events[|o.events| - 1] == Close
      && (b.commitFault.None? ==> o.events == [Connect, Begin, Commit, Close] && o.raised == bodyExc)
      && (b.commitFault.Some? ==>
            && o.events == [Connect, Begin, Commit, Rollback, Close]
            && o.raised == (if b.rollbackFault.Some? then b.rollbackFault else b.commitFault))
      && (bodyExc.Some? ==> o.raised.Some?)
  {
    var (exitEvents, _) := Exit(Tx(true, true), b, bodyExc);
    OccurrencesAppend([Connect, Begin], exitEvents, Close);
  }

  /** The async block commits the same way but never closes the connection. */
  lemma AsyncWithLifecycle(b: Backend, bodyExc: Option<Exc>)
    requires b.connectFault.None? && b.beginFault.None?
    ensures var o := AsyncWith(b, bodyExc);
      && Occurrences(o.events, Close) == 0
      && (b.commitFault.None? ==> o.events == [Connect, Begin, Commit] && o.raised == bodyExc)
      && (b.commitFault.Some? ==>
            && o.events == [Connect, Begin, Commit, Rollback]
            && o.raised == (if b.rollbackFault.Some? then b.rollbackFault else b.commitFault))
      && (bodyExc.Some? ==> o.raised.Some?)
  {
    var (exitEvents, _) := AsyncExit(Tx(true, true), b, bodyExc);
    OccurrencesAppend([Connect, Begin], exitEvents, Close);
  }

  /** The body's exception never changes what `__exit__` does. */
  lemma ExitIgnoresBody(tx: Tx, b: Backend, e1: Option<Exc>, e2: Option<Exc>)
    ensures Exit(tx, b, e1) == Exit(tx, b, e2)
    ensures AsyncExit(tx, b, e1) == AsyncExit(tx, b, e2)
  {
  }

  /** A block whose `begin` fails leaves its connection open. */
  lemma BeginFailureLeaks(b: Backend, bodyExc: Option<Exc>)
    requires b.connectFault.None? && b.beginFault.Some?
    ensures With(b, bodyExc) == Outcome([Connect, Begin], b.beginFault)
    ensures Occurrences(With(b, bodyExc).events, Close) == 0
  {
  }
}

=== FILE: values.dfy ===
/** The scalar values that flow between callers, dicts and table rows, Python's
    truthiness and `str()` on them, and the two orderings the SQL engine uses:
    the comparison of `>`/`<`/`=` (undefined against NULL or across kinds) and
    the total order of ORDER BY. */
module Values {
  import opened Wrappers
  import opened Text

  type Year = y: int | 1 <= y <= 9999 witness 1
  type Month = m: int | 1 <= m <= 12 witness 1
  type Day = d: int | 1 <= d <= 31 witness 1
  type Hour = h: int | 0 <= h <= 23
  type Minute = m: int | 0 <= m <= 59
  type Second = s: int | 0 <= s <= 59

  /** A Python scalar as it appears in a dict, a bind parameter or a column:
      `None`, `bool`, `int`, `str`, `datetime`, `date` or `time`. */
  datatype Value =
    | Null
    | Bool(b: bool)
    | Int(i: int)
    | Str(s: string)
    | DateTime(year: Year, month: Month, day: Day, hour: Hour, minute: Minute, second: Second)
    | Date(year: Year, month: Month, day: Day)
    | TimeOfDay(hour: Hour, minute: Minute, second: Second)

  /** A dict value in a filter or where-dict: a scalar or a list of scalars. */
  datatype PyVal = Scalar(v: Value) | List(items: seq<Value>)

  /** A table row or a formatted resource: column name to value. */
  type Row = map<string, Value>

  /** Python's `bool(v)`. A `time` is always true (Python 3.5 and later). */
  predicate Truthy(v: Value)
  {
    match v
    case Null => false
    case Bool(b) => b
    case Int(i) => i != 0
    case Str(s) => |s| > 0
    case _ => true
  }

  predicate PyTruthy(pv: PyVal)
  {
    match pv
    case Scalar(v) => Truthy(v)
    case List(items) => |items| > 0
  }

  /** The value a row holds for column `c`; absent columns read as NULL. */
  function Field(row: Row, c: string): Value
  {
    if c in row then row[c] else Null
  }

  function FormatDate(y: Year, m: Month, d: Day): (s: string)
    ensures |s| == 10
  {
    Pad4(y) + "-" + Pad2(m) + "-" + Pad2(d)
  }

  function FormatClock(h: Hour, m: Minute, s: Second): (r: string)
    ensures |r| == 8
  {
    Pad2(h) + ":" + Pad2(m) + ":" + Pad2(s)
  }

  function FormatDateTime(y: Year, mo: Month, d: Day, h: Hour, mi: Minute, s: Second): (r: string)
    ensures |r| == 19
  {
    FormatDate(y, mo, d) + " " + FormatClock(h, mi, s)
  }

  /** Python's `str(v)`. */
  function PyStr(v: Value): string
  {
    match v
    case Null => "None"
    case Bool(b) => if b then "True" else "False"
    case Int(i) => IntToString(i)
    case Str(s) => s
    case DateTime(y, mo, d, h, mi, s) => FormatDateTime(y, mo, d, h, mi, s)
    case Date(y, mo, d) => FormatDate(y, mo, d)
    case TimeOfDay(h, mi, s) => FormatClock(h, mi, s)
  }

  /** Lexicographic three-way comparison of integer sequences. */
  function LexCmp(a: seq<int>, b: seq<int>): (c: int)
    ensures -1 <= c <= 1
  {
    if |a| == 0 && |b| == 0 then 0
    else if |a| == 0 then -1
    else if |b| == 0 then 1
    else if a[0] < b[0] then -1
    else if a[0] > b[0] then 1
    else LexCmp(a[1..], b[1..])
  }

  lemma LexCmpAntisymmetric(a: seq<int>, b: seq<int>)
    ensures LexCmp(a, b) == -LexCmp(b, a)
  {
  }

  lemma {:induction false} LexCmpZero(a: seq<int>, b: seq<int>)
    ensures LexCmp(a, b) == 0 <==> a == b
  {
    if |a| > 0 && |b| > 0 && a[0] == b[0] {
      LexCmpZero(a[1..], b[1..]);
      assert a == [a[0]] + a[1..];
      assert b == [b[0]] + b[1..];
    }
  }

  lemma {:induction false} LexCmpTransitive(a: seq<int>, b: seq<int>, c: seq<int>)
    requires LexCmp(a, b) <= 0 && LexCmp(b, c) <= 0
    ensures LexCmp(a, c) <= 0
  {
    if |a| > 0 && |b| > 0 && |c| > 0 && a[0] == b[0] == c[0] {
      LexCmpTransitive(a[1..], b[1..], c[1..]);
    }
  }

  function Codes(s: string): (r: seq<int>)
    ensures |r| == |s|
  {
    seq(|s|, i requires 0 <= i < |s| => s[i] as int)
  }

  /** The key ORDER BY sorts on: the kind first (NULL lowest, as MySQL sorts
      it in ascending order), then the payload. Booleans sort as 0 and 1. */
  function SortKey(v: Value): seq<int>
  {
    match v
    case Null => [0]
    case Bool(b) => [1, if b then 1 else 0]
    case Int(i) => [1, i]
    case Str(s) => [2] + Codes(s)
    case Date(y, mo, d) => [3, y, mo, d]
    case DateTime(y, mo, d, h, mi, s) => [4, y, mo, d, h, mi, s]
    case TimeOfDay(h, mi, s) => [5, h, mi, s]
  }

  /** Total preorder used by ORDER BY. */
  predicate OrderLe(a: Value, b: Value)
  {
    LexCmp(SortKey(a), SortKey(b)) <= 0
  }

  lemma OrderLeTotal(a: Value, b: Value)
    ensures OrderLe(a, b) || OrderLe(b, a)
  {
    LexCmpAntisymmetric(SortKey(a), SortKey(b));
  }

  lemma OrderLeTransitive(a: Value, b: Value, c: Value)
    requires OrderLe(a, b) && OrderLe(b, c)
    ensures OrderLe(a, c)
  {
    LexCmpTransitive(SortKey(a), SortKey(b), SortKey(c));
  }

  /** Kind of a value for comparison purposes; numbers and booleans share one. */
  function Kind(v: Value): int
  {
    SortKey(v)[0]
  }

  /** Three-way SQL comparison: undefined (`None`) when either side is NULL or
      the kinds differ, so every comparison against NULL fails. */
  function SqlCompare(a: Value, b: Value): (r: Option<int>)
    ensures r.Some? ==> a != Null && b != Null
  {
    if a == Null || b == Null || Kind(a) != Kind(b) then None
    else Some(LexCmp(SortKey(a), SortKey(b)))
  }

  /** `a = b` in SQL against a non-NULL operand. */
  predicate SqlEquals(a: Value, b: Value)
  {
    SqlCompare(a, b) == Some(0)
  }

  lemma SqlEqualsSame(a: Value)
    requires a != Null
    ensures SqlEquals(a, a)
  {
    LexCmpZero(SortKey(a), SortKey(a));
  }
}

=== FILE: wrappers.dfy ===
/** Failure-compatible carriers used throughout the model: `Option` for Python's
    `None`-or-value and `Result` for "returned a value or raised an exception". */
module Wrappers {

  datatype Option<+T> = None | Some(value: T) {
    predicate IsFailure() { None? }

    function PropagateFailure<U>(): Option<U>
      requires None?
    {
      None
    }

    function Extract(): T
      requires Some?
    {
      value
    }
  }

  datatype Result<+T, +E> = Ok(value: T) | Err(error: E) {
    predicate IsFailure() { Err? }

    function PropagateFailure<U>(): Result<U, E>
      requires Err?
    {
      Err(error)
    }

    function Extract(): T
      requires Ok?
    {
      value
    }
  }
}
